=== FILE: README.md ===
# PeluPet front end — a Dafny model

PeluPet is the web front end of a pet-grooming shop. Its pages talk to a
Xano REST backend. This project models the logic of those pages and of
the two shared utilities as pure Dafny functions, and proves what the code
promises about that logic:

- the local shopping cart (`src/utils/cart.js`);
- the request/response rules of the API layer (`src/utils/api.js`): the
  token interceptor, the 401 handler, `logout` and `handleAPIError`;
- the catalogue, home, detail and service-administration pages: how backend
  records are normalised, what picture each card shows, and the fallback to
  built-in example services;
- the login/register page: validation, token extraction and mode switching;
- the booking page: the form, its validation chain, the request bodies, the
  stored service hint and the table of times;
- the "my bookings" page: the base mapping, then the three enrichment passes
  (services through the link table, the stored hint, pets), and cancelling;
- the profile page: the member-since date and the status badges;
- the user-administration and agenda pages: list normalisation, search,
  sort, blocking, deletion guards, the agenda rows and the accept/reject
  decision.

Modelling conventions:

- A JavaScript value is `JsValue.Json`. `Truthy`, `Or` (`||`), `Coalesce`
  (`??`), `Get` (`?.`) and `StrictEq` (`===`) give the language's meaning.
  `StrictEq` on two arrays or two objects is false, because reference
  identity is not modelled.
- Numbers are integers (`int`). `NumberOr(v, d)` is `Number(v) || d`.
- A request the API helpers define is replaced by its settled outcome,
  `Catalog.Fetch = Threw(error) | Responded(response)`. Per-id requests are
  functions from the id to that outcome. Calling a helper that
  `src/utils/api.js` does not define throws a `TypeError` before any request
  is sent; `Endpoints` models which helpers exist, and the user-administration
  and agenda pages call four that do not (see "## Findings").
- These are parameters: `Math.random()` (`randomId`), `JSON.parse`
  (`parse`), `Date.parse` (`parseDate`), browser storage (`Api.Storage`, a
  map from key to text), and the `TypeError` the engine throws when a page
  reads a property of `null` (`typeError`).
- Where a page throws and catches its own error, the model takes the
  `catch` path. An example is a `null` element in a backend list:
  `Catalog.HasNullishItem` is that case, and it shows the fallback.

Modules follow the source files: `Cart`, `Api`, `Endpoints` (which helpers the API module exports), `Session` (the admin
guards), `EmailPattern` (the e-mail expression both forms use), `Catalog`
(normalising and picturing services, shared by four pages), `Servicios`,
`Home`, `ServicioDetalle`, `AdminServicios`, `LoginRegister`, `Reservas`,
`MisReservas`, `Perfil`, `AdminUsuarios` and `AdminPagosAgenda`.
`JsValue`, `JsString`, `SeqUtil` and `Optional` (`Option`, and `Result` for a step that gives a value or an error) hold the language
semantics and sequence helpers they share.

## Model

| member | source | states |
|---|---|---|
| Cart.GetCart | src/utils/cart.js:3-11 | anything but a stored array reads as the empty cart; an array gives one entry per element |
| Cart.SaveCart | src/utils/cart.js:13-18 | the cart is stored as an array with one element per entry |
| Cart.ItemRoundTrip | src/utils/cart.js:3-18 | writing an entry and reading it back yields the same entry, extra properties included |
| Cart.SaveThenGet | src/utils/cart.js:3-18 | saving a cart and reading it back yields the same cart |
| Cart.FindIndex | src/utils/cart.js:23 | the result is the first entry whose id is strictly equal to the one sought; none means no entry has it |
| Cart.AddItem | src/utils/cart.js:20-30 | no item or a falsy id leaves the cart alone; an id already present adds to that entry's quantity and changes no other entry; a new id is appended with the quantity given |
| Cart.AddItemKeepsUniqueIds | src/utils/cart.js:20-30 | adding keeps the ids of the entries pairwise distinct |
| Cart.AddItemKeepsPositive | src/utils/cart.js:20-30 | adding a positive quantity keeps every quantity positive |
| Cart.AddItemCount | src/utils/cart.js:51-53 | adding `q` units of an item with an id raises the count by exactly `q`, for a new item and for one already in the cart |
| Cart.AddItemWithoutIdChangesNothing | src/utils/cart.js:20-30 | an item with a falsy id changes neither count nor total |
| Cart.AddExistingTotal | src/utils/cart.js:55-57 | adding to an entry already present raises the total by its unit price times the added quantity |
| Cart.RemoveItem | src/utils/cart.js:32-35 | exactly the entries whose id differs from the one given are kept, and nothing new appears |
| Cart.RemoveItemKeepsUniqueIds | src/utils/cart.js:32-35 | removing keeps the ids pairwise distinct |
| Cart.RemoveItemDistributes | src/utils/cart.js:32-35 | removing distributes over concatenation, so the kept entries stay in their order |
| Cart.RemoveAbsentIsIdentity | src/utils/cart.js:32-35 | removing an id no entry has changes nothing |
| Cart.ClearCartIsEmpty | src/utils/cart.js:37-39 | the cleared cart is empty, with count and total 0 |
| Cart.ClearCart | src/utils/cart.js:37-39 | the cleared cart has no entries, count 0 and total 0 |
| Cart.Count | src/utils/cart.js:51-53 | the empty cart counts 0, and a one-entry cart counts its quantity, or 1 when the quantity is unset or 0 |
| Cart.Total | src/utils/cart.js:55-57 | the empty cart totals 0, and a one-entry cart totals its numeric price (0 when not a number) times its quantity |
| Cart.CountTotalAppend | src/utils/cart.js:51-57 | count and total of a concatenation are the sums of the parts' counts and totals, so each entry adds its own share |
| Cart.ClampQuantity | src/utils/cart.js:42 | the stored quantity is at least 1: it equals the number given when that number is at least 1, and is 1 when the number is below 1 or the value is not a number |
| Cart.SetQuantity | src/utils/cart.js:41-49 | only the entry with that id changes, and its quantity becomes the clamped value; an unknown id changes nothing |
| Cart.SetQuantityKeepsUniqueIds | src/utils/cart.js:41-49 | setting a quantity keeps the ids pairwise distinct |
| Cart.SetQuantityKeepsPositive | src/utils/cart.js:41-49 | setting a quantity keeps every quantity positive |
| Cart.CountAtLeastLength | src/utils/cart.js:51-53 | with positive quantities the count is at least the number of entries |
| Api.AttachToken | src/utils/api.js:22-28 | a stored non-empty token sets the `Authorization` header to `Bearer <token>`; without one the request is unchanged |
| Api.AttachTokenIdempotent | src/utils/api.js:22-28 | attaching twice equals attaching once, and every other header is kept |
| Api.Logout | src/utils/api.js:51-54 | exactly `token` and `user` leave storage; every other key keeps its value |
| Api.LogoutDropsAuthorization | src/utils/api.js:51-54 | after logging out no request carries a token |
| Api.OnResponseError | src/utils/api.js:34-44 | only the general instance, and only on status 401, logs out; otherwise storage is unchanged |
| Api.HandleApiError | src/utils/api.js:178-199 | a server response gives its message (or the server-error text), its status and its data; no response gives the connection message and status 0; anything else gives its own message (or the unknown-error text) and -1; the message is never empty |
| Api.ErrorText | src/pages/Reservas.jsx:184-186 | a failed request shows the `handleAPIError` message, which is never empty, so the page's own fallback text (here the booking one; likewise on the login, home, detail, reservations and agenda pages) is never shown |
| Api.HandleLocalError | src/utils/api.js:178-199 | an error a page throws itself reaches the user with its own message and status -1 |
| Api.StatusesDistinguishKinds | src/utils/api.js:178-199 | when the server's status is an HTTP code, status 0 means exactly "no response" and -1 exactly "local failure" |
| Endpoints.Invoke | src/utils/api.js:59-66 | a call is sent exactly when the helper object defines the method, and otherwise throws the "is not a function" error |
| Endpoints.Await | src/pages/AdminUsuarios.jsx:68-83 | awaiting a call inside a `try` reaches the `catch` with the thrown error, or sees the request's outcome |
| Endpoints.NotAFunctionReported | src/utils/api.js:178-198 | the `TypeError` is reported with its own message and status -1, whatever fallback the page adds |
| Endpoints.AdminUserCallsThrow | src/utils/api.js:59-66 | as written, `getAllUsers`, `createUser`, `updateUser` and `deleteUser` are not methods of `userAPI`, so calling any of them throws |
| Endpoints.AdminUserCallsSent | src/utils/api.js:59-66 | with those four methods added, each call sees the backend's answer |
| Session.StrictGuardImpliesAgendaGuard | src/pages/AdminPagosAgenda.jsx:23 | every user the strict admin test admits passes the agenda's test; the two differ exactly on a logged-in user with a falsy role |
| Session.RoleText | src/pages/AdminServicios.jsx:108 | a falsy role reads as the empty text, a text role is lowered, and a role set to anything other than text makes the comparison throw |
| Session.AdminRoleCaseInsensitive | src/pages/AdminServicios.jsx:108 | a text role admits a logged-in user exactly when it lowers to "admin", so "ADMIN" and "Admin" are admitted |
| Session.NonTextRoleNeverAdmin | src/pages/AdminPagosAgenda.jsx:19-29 | a role that is not text admits no one: the strict guard throws and the agenda guard's `catch` redirects |
| Session.IsAdmin | src/pages/AdminServicios.jsx:108 | a user is admitted exactly when logged in with a text role that lowers to "admin" |
| Session.AgendaRejects | src/pages/AdminPagosAgenda.jsx:19-29 | no stored user is sent away, a user with a falsy role is let in, a text role is sent away exactly when it does not lower to "admin", and any other truthy role is sent away |
| EmailPattern.MatchImpliesCheck | src/pages/LoginRegister.jsx:59-60 | a string the e-mail expression matches passes the direct check |
| EmailPattern.CheckImpliesMatch | src/pages/Reservas.jsx:102-103 | a string that passes the direct check is matched by the expression, and the lemma returns the match |
| EmailPattern.EmailIff | src/pages/LoginRegister.jsx:59-60 | the direct check accepts exactly the strings the expression matches |
| LoginRegister.ValidateForm | src/pages/LoginRegister.jsx:38-66 | the form passes exactly when e-mail and password are set, register mode also has name, phone, matching passwords of at least 6 characters, and the e-mail matches; a missing e-mail or password, and in register mode a missing name or phone, shows the missing-fields message; in login mode a malformed e-mail shows the invalid-e-mail message |
| LoginRegister.LoginIgnoresRegisterFields | src/pages/LoginRegister.jsx:38-66 | in login mode name, phone and confirmation never affect validation |
| LoginRegister.RegisterCheckOrder | src/pages/LoginRegister.jsx:38-66 | in register mode a password mismatch is reported before a short password, and both before a bad e-mail |
| LoginRegister.RegisterStricterThanLogin | src/pages/LoginRegister.jsx:38-66 | every form register mode accepts, login mode accepts too |
| LoginRegister.Token | src/pages/LoginRegister.jsx:86-89 | a truthy `token` wins; when `authToken` is not an object the result stores what the code as written stores |
| LoginRegister.LoginOutcome | src/pages/LoginRegister.jsx:91-110 | a truthy token is stored as its string form; a missing one fails with the missing-token message |
| LoginRegister.NestedTokenAsWritten | src/pages/LoginRegister.jsx:86-89 | the code as written stores "[object Object]" for a `{authToken: {token}}` response |
| LoginRegister.TokenShapes | src/pages/LoginRegister.jsx:84-89 | all three response shapes the page means to accept store the token string |
| LoginRegister.ModeForPath | src/pages/LoginRegister.jsx:20-26 | `/register` selects register mode, `/login` selects login mode, and any other path keeps the mode |
| LoginRegister.ModeForPathIdempotent | src/pages/LoginRegister.jsx:20-26 | visiting the same route twice settles on the same mode |
| LoginRegister.ToggleMode | src/pages/LoginRegister.jsx:140-151 | toggling flips the mode and clears the form and both messages |
| LoginRegister.ToggleTwice | src/pages/LoginRegister.jsx:140-151 | toggling twice restores the mode, with a cleared form |
| LoginRegister.AfterRegister | src/pages/LoginRegister.jsx:111-128 | a registration answered with data puts the page in login mode, keeps only the e-mail and shows the success message; an answer without data only leaves both banners cleared |
| Reservas.SetField | src/pages/Reservas.jsx:63-66 | the named field takes the new value and every other field keeps its own |
| Reservas.FormExtensional | src/pages/Reservas.jsx:10-21 | two forms that agree on all ten fields are equal |
| Reservas.SetFieldLaws | src/pages/Reservas.jsx:63-66 | writing a field's own value changes nothing, and a second write to a field replaces the first |
| Reservas.InputChange | src/pages/Reservas.jsx:61-70 | an edit changes just that field and clears both messages |
| Reservas.Prefill | src/pages/Reservas.jsx:39-44 | a truthy stored name, e-mail or phone replaces that field; every other field is kept |
| Reservas.PrefillLaws | src/pages/Reservas.jsx:39-44 | a user with none of the three fields changes nothing, and prefilling twice equals prefilling once |
| Reservas.Validate | src/pages/Reservas.jsx:94-105 | the form passes exactly when the required fields are non-blank and the e-mail matches; otherwise the first failing check in the order name, e-mail, pet name, service, date, time, e-mail pattern gives its message |
| Reservas.PaddedEmailRejected | src/pages/Reservas.jsx:95-105 | an e-mail with a leading space passes the blank check but fails the expression |
| Reservas.ValidationMessageShown | src/pages/Reservas.jsx:184-186 | a validation failure reaches the user with its own message |
| Reservas.PetPayload | src/pages/Reservas.jsx:116-121 | the pet request carries the form's name, breed and age and the user's id |
| Reservas.PetId | src/pages/Reservas.jsx:123 | the pet id is the created pet's truthy id, or null |
| Reservas.ReservationPayload | src/pages/Reservas.jsx:129-135 | the reservation carries the user id, date, time and notes, and the pet id only when there is one |
| Reservas.DropUndefined | src/pages/Reservas.jsx:129-135 | exactly the fields whose value is not `undefined` are sent |
| Reservas.ReservationBodyPetId | src/pages/Reservas.jsx:134 | the body sent has no `pet_id` when the pet could not be created |
| Reservas.LinkPayload | src/pages/Reservas.jsx:150-153 | the link names the created reservation and the chosen service id as a number |
| Reservas.LinkNamesChosenService | src/pages/Reservas.jsx:150-153 | a service id typed as a whole number is sent as that number |
| Reservas.FindService | src/pages/Reservas.jsx:159 | a service found is in the list and has the chosen id |
| Reservas.FindServiceFindsFirst | src/pages/Reservas.jsx:159 | the first service with the chosen id is the one found |
| Reservas.Hint | src/pages/Reservas.jsx:157-166 | a hint is stored exactly when the reservation has an id and the chosen service is found, under `reservation_hint_<id>`, naming that service |
| Reservas.AfterBooking | src/pages/Reservas.jsx:168-182 | after a booking every field is empty and the success message is shown |
| Reservas.Minutes | src/pages/Reservas.jsx:26-30 | a clock time maps to a minute of the day |
| Reservas.SlotTable | src/pages/Reservas.jsx:26-30 | there are 17 slots from 09:00 to 18:00, each a valid clock time, half an hour apart except for the 90-minute break after 12:30 |
| Reservas.SlotsIncreasing | src/pages/Reservas.jsx:26-30 | the slots are strictly increasing in time |
| Catalog.ImageSrc | src/pages/Home.jsx:35-52 | the source is never empty: a falsy picture gives the placeholder, text is used as is, a number, boolean or array gives the placeholder, and a record gives its direct URL, else its file path under the backend, else the placeholder |
| Catalog.ImageSrcCases | src/pages/Servicios.jsx:180-192 | for a record a direct URL wins over a file path, and with neither the placeholder is used |
| Catalog.ImageSrcIdempotent | src/pages/Servicios.jsx:178-179 | building a source from a source gives the same source |
| Catalog.PathRecordSrc | src/pages/Servicios.jsx:182-192 | a `{path}` record is served from `<base>/file/<path>` |
| Catalog.ListImageSrc | src/pages/Servicios.jsx:176-177 | an array uses its first picture, and an empty array gives the placeholder |
| Catalog.NormalizeService | src/pages/Servicios.jsx:204-215 | each field takes its first key that is neither `null` nor `undefined`, even a falsy value such as price 0: id then service_id then the fallback id, name then title then "Servicio", description then detail then "Sin descripción", price then 0, estimated_duration then duration then 60, image then `null`; the picture list is `images`, else the image alone when it is truthy, else empty |
| Catalog.NormalizeFillsFields | src/pages/Servicios.jsx:204-215 | no displayed field is left `null` or `undefined`, except a missing picture, which is `null`; the id is set whenever the fallback id is |
| Catalog.NormalizeIdempotent | src/pages/Servicios.jsx:204-215 | normalising a normalised record again, with any fallback, changes nothing |
| Catalog.NormalizeFreeService | src/pages/Servicios.jsx:205-213 | a record with only an id and price 0 keeps both and gets the name "Servicio", the description "Sin descripción", a 60-minute duration, a `null` picture and an empty picture list |
| Catalog.NormalizeAll | src/pages/Servicios.jsx:204-215 | each backend record is normalised in place, keeping the backend's order |
| Servicios.ExampleCatalogue | src/pages/Servicios.jsx:107-173 | there are eight examples with ids 1 to 8 and the stated prices and durations, and only the last is special |
| Servicios.LoadCatalogue | src/pages/Servicios.jsx:196-230 | the page never lists nothing; it shows the examples exactly when it shows an error; a failed request shows the load-failed message; otherwise it shows the normalised backend list |
| Servicios.BackendServicesShown | src/pages/Servicios.jsx:204-224 | backend services are shown exactly when the backend answers a non-empty array with no `null` element |
| Servicios.CardImages | src/pages/Servicios.jsx:8-23 | a card always has a picture: a non-empty array as is; a non-blank text parsed as a non-empty array gives that array, and otherwise the text alone; then the single image, then the placeholder |
| Servicios.CardImagesTextAsList | src/pages/Servicios.jsx:11-14 | a picture list stored as JSON text shows the same pictures as the list itself |
| Servicios.CardImagesStable | src/pages/Servicios.jsx:8-23 | storing a card's picture list as the service's list shows the same pictures again |
| Servicios.CardShowsBackendImage | src/pages/Servicios.jsx:213 | a backend service with one image and no list shows that image |
| Servicios.Next | src/pages/Servicios.jsx:25 | the next picture index stays in range and wraps from the last to the first |
| Servicios.Prev | src/pages/Servicios.jsx:26 | the previous picture index stays in range and wraps from the first to the last |
| Servicios.NextPrevInverse | src/pages/Servicios.jsx:25-26 | next and previous undo each other |
| Servicios.VisitCycles | src/pages/Servicios.jsx:25 | pressing next `k` times visits picture `k`, and `n` presses return to the first |
| Servicios.CardSrc | src/pages/Servicios.jsx:37 | the picture shown is never an empty source |
| Servicios.DurationLabel | src/pages/Servicios.jsx:84 | the duration shown is never empty, and a set duration is shown as is |
| Servicios.ZeroDurationShowsSixty | src/pages/Servicios.jsx:84 | a stored duration of 0 is kept by the normalisation but shown as 60 minutes |
| Home.PopularRecord | src/pages/Home.jsx:67-75 | id falls back to service_id then the random id, name to title then "Servicio", description to detail then "Sin descripción", price to 0 and image to `null`; no duration or picture list is kept |
| Home.LoadPopular | src/pages/Home.jsx:62-90 | the strip shows one to three services; it shows the examples exactly when it shows an error; a failed request reports the `handleAPIError` message; otherwise it shows the first (at most three) backend services, normalised |
| Home.PopularIsPrefix | src/pages/Home.jsx:67-85 | backend services are shown exactly when the backend answers a non-empty array with no `null` element |
| Home.Truncate | src/pages/Home.jsx:55-59 | a text within the limit is kept; a longer one is cut to at most the limit plus an ellipsis |
| Home.TruncateIsPieceOfText | src/pages/Home.jsx:57-58 | a cut teaser is a piece of the text's start, stripped of the blanks around it, followed by the ellipsis |
| Home.TruncateText | src/pages/Home.jsx:55-59 | a falsy text gives the empty text, text is truncated, an array no longer than the limit and an object whose `length` reads as a number within the limit come back as they are, and exactly the other truthy values throw |
| Home.LengthObjectsPassThrough | src/pages/Home.jsx:57 | `{length: 2}` and `{length: null}` come back as they are, and `{}` throws |
| ServicioDetalle.DetailRecord | src/pages/ServicioDetalle.jsx:41-48 | id falls back to service_id then the route id, name to title then "Servicio", description to detail then "Sin descripción", price to 0, duration from estimated_duration to duration then 60, and image to `null`; no picture list is kept |
| ServicioDetalle.LoadDetail | src/pages/ServicioDetalle.jsx:33-83 | a warning always has text; a failed request shows the `handleAPIError` message; no record shows "not found"; a record is shown normalised |
| ServicioDetalle.DetailIdFromRoute | src/pages/ServicioDetalle.jsx:42 | a record without id takes the route's id |
| ServicioDetalle.CartEntry | src/pages/ServicioDetalle.jsx:104-110 | the entry carries the service's id, name, price and duration and the built picture source |
| ServicioDetalle.AddToCart | src/pages/ServicioDetalle.jsx:103-111 | a service with a falsy id leaves the cart alone |
| ServicioDetalle.AddToCartAddsOne | src/pages/ServicioDetalle.jsx:103-111 | pressing the button adds exactly one unit, or nothing for a falsy id |
| ServicioDetalle.AddToCartNewLine | src/pages/ServicioDetalle.jsx:103-111 | a service not yet in the cart becomes a new last line with quantity 1 |
| AdminServicios.StricterThanAgenda | src/pages/AdminServicios.jsx:108 | everyone this page admits the agenda admits; a logged-in user without a role gets into the agenda but not here |
| AdminServicios.LoadListing | src/pages/AdminServicios.jsx:30-43 | anything but an array lists nothing; a failed request keeps the previous list and shows an error |
| AdminServicios.ListedDuration | src/pages/AdminServicios.jsx:190 | the duration column is never empty, and a set duration is shown as is |
| AdminServicios.CreateRequest | src/pages/AdminServicios.jsx:66-85 | without a file the request is refused with the image-required message; with one, six parts are sent in order: name and description as typed, the price as the form's number (0 when it is not one), and two equal, non-zero durations |
| AdminServicios.NumericPartsReadBack | src/pages/AdminServicios.jsx:80-82 | the price and duration parts read back as numbers; the duration is never 0; a whole number typed in is sent as typed |
| AdminServicios.ListedDurationIsSent | src/pages/AdminServicios.jsx:81-82 | a service stored with the duration the page sent is listed with that duration |
| AdminServicios.Submit | src/pages/AdminServicios.jsx:66-95 | without a file only the error changes; success resets the form and file; a failure keeps them and shows an error |
| Perfil.TimeClip | src/pages/Perfil.jsx:90 | a time value outside the range a `Date` holds is invalid |
| Perfil.DateValue | src/pages/Perfil.jsx:77 | `new Date(null)` is the epoch, `new Date(undefined)` is invalid, and a number is a time value |
| Perfil.GetMemberSince | src/pages/Perfil.jsx:86-92 | no date gives null; a number above 10^12 is milliseconds and otherwise seconds; any other value is read by `new Date` as it is, so an unparseable text gives null; a result is within the `Date` range |
| Perfil.TimestampUnits | src/pages/Perfil.jsx:89 | the same moment stored in seconds or in milliseconds gives the same date, between 10^9 and 10^12 seconds |
| Perfil.FirstSetFieldWins | src/pages/Perfil.jsx:87 | the first set field wins even without a date, so an unparseable `member_since` hides a valid `created_at` |
| Perfil.FormatDate | src/pages/Perfil.jsx:76-84 | the dash is shown exactly for an invalid date; otherwise that instant is shown |
| Perfil.MemberSinceShownAsWritten | src/pages/Perfil.jsx:207 | a member-since date is shown; with none, what `formatDate(null)` shows is shown |
| Perfil.MissingDateShowsEpoch | src/pages/Perfil.jsx:207 | as written, a profile without a date shows the date of the epoch instant; the corrected line shows the dash |
| Perfil.MemberSinceShown | src/pages/Perfil.jsx:76-92 | corrected: the dash is shown exactly when there is no valid member-since date |
| Perfil.ShownAgreesWhenDated | src/pages/Perfil.jsx:207 | the corrected and as-written lines agree whenever there is a date |
| Perfil.StatusBadges | src/pages/Perfil.jsx:46-74 | exactly the four known statuses get their own colour and a label, each different; any other status is grey and shown as it is |
| Perfil.StatusVariant | src/pages/Perfil.jsx:46-59 | "completed", "confirmed", "pending" and "cancelled" get exactly the colours success, primary, warning and danger; every other status is secondary |
| Perfil.StatusText | src/pages/Perfil.jsx:61-74 | the four known statuses get their Spanish labels; every other status is shown as it is |
| MisReservas.BaseBooking | src/pages/MisReservas.jsx:42-59 | every field as mapped: id, date and time through their `??` chains (a random id, `null`, `null`), status `?? 'pendiente'`, notes `?? ''`, service and pet ids and the service name through `\|\|` chains ending in `null`, owner name and e-mail falling back to the logged-in user then `''`, phone and pet fields ending in `''`, and no service picture, price or duration yet |
| MisReservas.BaseBookingDefaults | src/pages/MisReservas.jsx:42-59 | a stated status is kept and a missing one reads "pendiente"; the owner falls back to the logged-in user's name only when the record names none |
| MisReservas.FirstLink | src/pages/MisReservas.jsx:67-79 | the reference reading finds the first usable link for a reservation, or says there is none |
| MisReservas.BuildIndexFirst | src/pages/MisReservas.jsx:67-79 | building the index from a partial map keeps filed keys and files a new key with its first usable link |
| MisReservas.IndexIsFirstLink | src/pages/MisReservas.jsx:66-80 | built from scratch, the index files, under every key, exactly the first usable link for it |
| MisReservas.Index | src/pages/MisReservas.jsx:66-80 | a reservation has an entry exactly when some link for it is usable, and the entry is its first usable link |
| MisReservas.ServiceRequests | src/pages/MisReservas.jsx:81-85 | each service is requested once, and only for a truthy id |
| MisReservas.Fetched | src/pages/MisReservas.jsx:88-92 | a lookup yields the record a request returned, or nothing |
| MisReservas.EveryServiceLookupRequested | src/pages/MisReservas.jsx:81-97 | every service the enrichment looks up was requested, so it sees that request's answer |
| MisReservas.EnrichService | src/pages/MisReservas.jsx:94-109 | only the service fields change; the id is the reservation's, else the link's; the name is the reservation's, else the service's, else the link's, else "Servicio"; image, price (default 0) and duration (default 60, estimated duration first) come from the fetched service, else the link, else the default |
| MisReservas.EnrichFromLink | src/pages/MisReservas.jsx:94-109 | a reservation without a service takes its link's service, and the fetched name wins over the link's |
| MisReservas.EnrichAllServices | src/pages/MisReservas.jsx:94-109 | each reservation is enriched with its link and the answer for its service, in place |
| MisReservas.ServicePass | src/pages/MisReservas.jsx:62-110 | a failed link request, or a link list with a `null` element, leaves the reservations as they are; otherwise each is enriched from the link index and the fetched services |
| MisReservas.ServicePassNamesEveryService | src/pages/MisReservas.jsx:62-110 | once the links load, every reservation has a service name and a duration, keeps a name already set, and one without a service takes its first usable link's service |
| MisReservas.ApplyHint | src/pages/MisReservas.jsx:113-129 | only service id and name change, a known id or name is kept, and an id taken from the hint is truthy or null |
| MisReservas.HintFillsMissingService | src/pages/MisReservas.jsx:114-124 | the hint the booking page stores supplies its chosen service to a reservation whose record lacks it |
| MisReservas.HintPass | src/pages/MisReservas.jsx:113-129 | the hint is applied to each reservation in place |
| MisReservas.PetRequests | src/pages/MisReservas.jsx:133 | each truthy pet id is requested exactly once |
| MisReservas.EnrichPet | src/pages/MisReservas.jsx:142-150 | only pet name, breed and age change, known values are kept, and each ends up set or empty |
| MisReservas.PetPass | src/pages/MisReservas.jsx:132-151 | each reservation is enriched with the answer for its own pet, in place |
| MisReservas.PetNameFromPetRecord | src/pages/MisReservas.jsx:142-150 | a reservation without a pet name takes the fetched pet's name |
| MisReservas.BaseList | src/pages/MisReservas.jsx:42-59 | an array maps one to one; a non-array is the empty list; a `null` record throws |
| MisReservas.LoadedPage | src/pages/MisReservas.jsx:42-59 | a `null` record gives an empty list with an error; otherwise the enriched list keeps the mapped list's length and clears the error |
| MisReservas.Enrich | src/pages/MisReservas.jsx:62-151 | the three passes keep every reservation in place with its id, date, time, status, notes, owner and pet, and keep a service name already set |
| MisReservas.LoadReservations | src/pages/MisReservas.jsx:33-158 | no logged-in user gives the login message; an error always comes with an empty list; a failed request reports the `handleAPIError` message; a mapped list keeps its length |
| MisReservas.PassesKeepCore | src/pages/MisReservas.jsx:62-151 | the passes never change a reservation's id, date, time, status, notes, owner or pet id |
| MisReservas.PassesKeepServiceName | src/pages/MisReservas.jsx:62-151 | once a reservation's service is named, later passes keep that name |
| MisReservas.Cancel | src/pages/MisReservas.jsx:188 | cancelling keeps exactly the reservations with a different id |
| MisReservas.CancelLaws | src/pages/MisReservas.jsx:188 | every other reservation survives, and cancelling again changes nothing |
| AdminUsuarios.FirstArrayAt | src/pages/AdminUsuarios.jsx:41-43 | the first array among the values is found, or there is none |
| AdminUsuarios.ArrayFromObject | src/pages/AdminUsuarios.jsx:35-52 | the first answer that applies, in order: a non-object gives nothing; a dictionary of user-like records its values; else its first array value; else an array `data`; else the values of `data` when they are user records; else the first array among them; else nothing |
| AdminUsuarios.FirstArrayKey | src/pages/AdminUsuarios.jsx:57-61 | the first of the list keys that holds an array is found, or none does |
| AdminUsuarios.NormalizeList | src/pages/AdminUsuarios.jsx:55-65 | an array is itself; otherwise the first list key holding an array; otherwise the dictionary reading |
| AdminUsuarios.ItemsBeforeUsers | src/pages/AdminUsuarios.jsx:57-58 | `items` takes precedence over `users` |
| AdminUsuarios.NormalizeListLaws | src/pages/AdminUsuarios.jsx:55-65 | normalising a normalised list changes nothing, and a non-object yields nothing |
| AdminUsuarios.LoadUsers | src/pages/AdminUsuarios.jsx:67-87 | a response's body is normalised into the table, a `null` body shows the message asking to check the backend and any other body clears the error; a failed request empties the table and shows the message derived from the error |
| AdminUsuarios.UserListAsWritten | src/pages/AdminUsuarios.jsx:67-87 | as written `userAPI.getAllUsers` does not exist, so, whatever the backend holds, the table is empty and the banner reads "userAPI.getAllUsers is not a function" |
| AdminUsuarios.UserListIntended | src/pages/AdminUsuarios.jsx:67-87 | with `getAllUsers` defined, the backend's normalised list fills the table, and the error is cleared exactly when the body is not `null` |
| AdminUsuarios.IsActiveRule | src/pages/AdminUsuarios.jsx:209 | `status` decides when present, otherwise `!blocked`, otherwise active |
| AdminUsuarios.Toggled | src/pages/AdminUsuarios.jsx:219 | the toggled row gets the new status and the opposite `blocked`, and keeps every other property |
| AdminUsuarios.TogglePayload | src/pages/AdminUsuarios.jsx:211-217 | the update sends the flipped status, name, e-mail and phone, and the role only when set |
| AdminUsuarios.ToggleBlock | src/pages/AdminUsuarios.jsx:219 | only the rows with that id change |
| AdminUsuarios.ToggleFlipsActive | src/pages/AdminUsuarios.jsx:209-219 | toggling flips the row's active state, and toggling again restores it |
| AdminUsuarios.ToggleMessage | src/pages/AdminUsuarios.jsx:220 | "Usuario bloqueado." is reported exactly when the user was active, and "Usuario desbloqueado." exactly when inactive |
| AdminUsuarios.ToggleUser | src/pages/AdminUsuarios.jsx:204-228 | an accepted update flips the matching rows, clears the error and reports the change; a failed one keeps the rows and shows the error's message |
| AdminUsuarios.ToggleReportsNewState | src/pages/AdminUsuarios.jsx:218-220 | after an accepted toggle the success text names the state the toggled row now shows |
| AdminUsuarios.ToggleAsWritten | src/pages/AdminUsuarios.jsx:218 | as written `userAPI.updateUser` does not exist, so every toggle fails with "userAPI.updateUser is not a function" and no row changes |
| AdminUsuarios.Search | src/pages/AdminUsuarios.jsx:375-383 | exactly the users matching the query are kept, and a blank query keeps all |
| AdminUsuarios.QueryNormalised | src/pages/AdminUsuarios.jsx:376-377 | a query of blanks matches everyone |
| AdminUsuarios.Compare | src/pages/AdminUsuarios.jsx:384-390 | the comparison yields -1, 0 or 1 |
| AdminUsuarios.CompareLaws | src/pages/AdminUsuarios.jsx:384-390 | descending reverses ascending, swapping the arguments negates, and 0 means equal keys |
| AdminUsuarios.CompareTransitive | src/pages/AdminUsuarios.jsx:384-390 | the comparison is transitive, so sorting by it is well defined |
| AdminUsuarios.Insert | src/pages/AdminUsuarios.jsx:384-390 | inserting adds exactly that user |
| AdminUsuarios.InsertSorted | src/pages/AdminUsuarios.jsx:384-390 | inserting into a sorted list keeps it sorted |
| AdminUsuarios.SortUsers | src/pages/AdminUsuarios.jsx:384-390 | the sorted table is a permutation of the users, in order |
| AdminUsuarios.SortKeepsUsers | src/pages/AdminUsuarios.jsx:384-390 | sorting keeps every user and the count |
| AdminUsuarios.Rows | src/pages/AdminUsuarios.jsx:373-390 | the table shows exactly the matching users, sorted |
| AdminUsuarios.CreateRequest | src/pages/AdminUsuarios.jsx:100-110 | creating is refused exactly when name, e-mail or password is missing; otherwise an unblocked user with the form's fields is sent |
| AdminUsuarios.CreatedUserActive | src/pages/AdminUsuarios.jsx:104-110 | a created user is active |
| AdminUsuarios.CandidateId | src/pages/AdminUsuarios.jsx:116-121 | a non-zero number answered by the backend is the new user's id |
| AdminUsuarios.CandidateIdShapes | src/pages/AdminUsuarios.jsx:116-121 | the id is found in each of the four response shapes |
| AdminUsuarios.EditStart | src/pages/AdminUsuarios.jsx:162-169 | editing starts on the user's id; a text name, e-mail or phone is kept and a falsy one is empty text |
| AdminUsuarios.OpenDeleteConfirm | src/pages/AdminUsuarios.jsx:250-258 | the confirmation opens for any user but the current admin, who gets the refusal message |
| AdminUsuarios.WithoutId | src/pages/AdminUsuarios.jsx:271 | exactly the users with a different id are kept |
| AdminUsuarios.DeleteConfirmed | src/pages/AdminUsuarios.jsx:262-282 | without an id, or for the current admin, nothing changes; an accepted deletion removes that user, abandons an edit of it and reports it; a failed one keeps the table and shows the error's message or "No se pudo eliminar el usuario" |
| AdminUsuarios.AdminNeverDeletesSelf | src/pages/AdminUsuarios.jsx:262-282 | whatever the request's outcome, a confirmed deletion never removes the logged-in admin |
| AdminUsuarios.DeleteAsWritten | src/pages/AdminUsuarios.jsx:270 | as written `userAPI.deleteUser` does not exist, so a confirmed deletion always fails with "userAPI.deleteUser is not a function" and the user stays |
| AdminUsuarios.DeleteIntended | src/pages/AdminUsuarios.jsx:262-282 | with `deleteUser` defined, an accepted deletion leaves no user with that id and reports it |
| AdminPagosAgenda.RedirectRule | src/pages/AdminPagosAgenda.jsx:19-29 | no stored user is sent away, and a user without a role is let in |
| AdminPagosAgenda.DataList | src/pages/AdminPagosAgenda.jsx:44-48 | a response's `data` is taken when it is an array, and is empty otherwise |
| AdminPagosAgenda.FirstThrown | src/pages/AdminPagosAgenda.jsx:37-43 | no failure is found exactly when every request answered, and a found failure is one of the requests' errors |
| AdminPagosAgenda.LoadAgenda | src/pages/AdminPagosAgenda.jsx:33-55 | a helper that throws while the request array is built ends the load with its message; otherwise a failed request ends it with its message or the fallback and empty lists; when all answer, each list is its response's array and the error is empty |
| AdminPagosAgenda.AgendaAsWritten | src/pages/AdminPagosAgenda.jsx:37-52 | as written `userAPI.getAllUsers` does not exist, so, whatever the backend holds, the agenda shows "userAPI.getAllUsers is not a function" and no rows |
| AdminPagosAgenda.AgendaIntended | src/pages/AdminPagosAgenda.jsx:33-55 | with `getAllUsers` defined and every request answered, the agenda has one row per listed reservation and no error |
| AdminPagosAgenda.ById | src/pages/AdminPagosAgenda.jsx:60-76 | a lookup finds the LAST record whose id is strictly equal to the key, and none means no record has it |
| AdminPagosAgenda.ByIdLastWins | src/pages/AdminPagosAgenda.jsx:60-76 | of two records with the same id the later one wins |
| AdminPagosAgenda.LinksOf | src/pages/AdminPagosAgenda.jsx:81 | exactly the links of that reservation are kept |
| AdminPagosAgenda.LinksInOrder | src/pages/AdminPagosAgenda.jsx:81 | the links keep the list's order and repeats: a concatenation's links are each part's links in turn, and one link is kept exactly when it names the reservation |
| AdminPagosAgenda.ServiceNames | src/pages/AdminPagosAgenda.jsx:82 | one name per link, in order |
| AdminPagosAgenda.TotalAppend | src/pages/AdminPagosAgenda.jsx:83 | the amount of two link lists is the sum of their amounts |
| AdminPagosAgenda.Total | src/pages/AdminPagosAgenda.jsx:83 | no links add up to 0, and one link adds up to its service's numeric price, or 0 |
| AdminPagosAgenda.TotalIgnoresUnpriced | src/pages/AdminPagosAgenda.jsx:83 | links to unknown services add nothing |
| AdminPagosAgenda.BuildRow | src/pages/AdminPagosAgenda.jsx:80-95 | a row carries the reservation's id, the names and amount of its linked services, the client and pet names with their fallbacks, its status, and as creation date `created_at`, else `date`, else the current time |
| AdminPagosAgenda.Estado | src/pages/AdminPagosAgenda.jsx:93 | a set status is kept and a missing one reads "agendado" |
| AdminPagosAgenda.Rows | src/pages/AdminPagosAgenda.jsx:79-97 | one row per reservation, in order |
| AdminPagosAgenda.RowWithoutLinks | src/pages/AdminPagosAgenda.jsx:81-83 | a reservation without links lists no services and amount 0 |
| AdminPagosAgenda.UnknownServiceName | src/pages/AdminPagosAgenda.jsx:82 | an unknown service is listed as "Servicio #<id>" |
| AdminPagosAgenda.Visible | src/pages/AdminPagosAgenda.jsx:99-101 | the filter keeps exactly the rows still to decide; without it every row is shown |
| AdminPagosAgenda.VisibleInOrder | src/pages/AdminPagosAgenda.jsx:99-101 | the filter keeps order and repeats: a concatenation shows each part's rows in turn, and one row is shown exactly when it is still to decide |
| AdminPagosAgenda.StatusKey | src/pages/AdminPagosAgenda.jsx:100 | a missing status reads as empty text and a text status is lowered |
| AdminPagosAgenda.CanDecide | src/pages/AdminPagosAgenda.jsx:216 | the buttons are enabled only for a set status, and for a text status exactly when it lowers to "agendado" |
| AdminPagosAgenda.BadgeFor | src/pages/AdminPagosAgenda.jsx:118-126 | the scheduled, accepted and rejected badges are shown exactly for "agendado", "aceptado" and "rechazado" in any case, and an unknown status is shown as is |
| AdminPagosAgenda.UpdateStatus | src/pages/AdminPagosAgenda.jsx:108 | only reservations with that id get the new status; the others are unchanged |
| AdminPagosAgenda.Decide | src/pages/AdminPagosAgenda.jsx:104-116 | a row that is no longer scheduled cannot be decided; otherwise an accepted request clears the banner and the reservation gets "aceptado" or "rechazado", and a failed one keeps the list and shows the `handleAPIError` message |
| AdminPagosAgenda.DecidedStatus | src/pages/AdminPagosAgenda.jsx:115-126 | a decided reservation is no longer scheduled, and its badge shows the decision |
| AdminPagosAgenda.DecisionIsFinal | src/pages/AdminPagosAgenda.jsx:216-224 | once the server accepts a decision the row shows it and its buttons are disabled, so a second decision changes nothing |
| JsValue.OrVersusCoalesce | src/pages/Servicios.jsx:206-213 | `||` and `??` differ exactly on `false`, 0 and the empty text |
| JsString.TrimBounds | src/pages/Home.jsx:58 | trimming removes exactly the leading and trailing blanks |
| JsString.StringToNumberOfIntToString | src/pages/AdminServicios.jsx:80-82 | the text of a whole number reads back as that number |
| SeqUtil.FilterAppend | src/pages/AdminPagosAgenda.jsx:81 | filtering keeps order and repeats: a concatenation filters to the parts' survivors in turn |
| SeqUtil.Distinct | src/pages/MisReservas.jsx:81-85 | the result has the same elements as the input, each once |
| SeqUtil.DistinctOfDistinct | src/pages/MisReservas.jsx:81-85 | a list without repeats passes through unchanged, in its order |

## Left out

- HTTP itself: requests, which of several concurrent requests settles first, and loading flags. Each request is a parameter holding its settled outcome.
- AdminPagosAgenda.LoadAgenda: when several requests fail, `Promise.all` reports the one that fails first in time; the model only promises that the reported error is one of them.
- The outcome of creating a user (AdminUsuarios.jsx:111) is not modelled; as written it fails like the other `userAPI` calls, which `Endpoints.AdminUserCallsThrow` states.
- React rendering, JSX markup, routing, `window.location` redirects, `setTimeout` message clearing, `window.confirm` and `console` output.
- The redirect to `/login` in the 401 handler. Only its effect on storage is modelled.
- `localStorage` serialisation. Storage is a map from key to text, and `JSON.parse` and `JSON.stringify` are parameters or left implicit.
- `Math.random()`, `Date.parse` and `new Date().toISOString()` are parameters. `toLocaleDateString` text is not modelled; only the instant it shows is.
- Floating-point numbers and `NaN`. Numbers are integers, so a fractional price or a `Math.random()` id is modelled by an integer or an opaque value.
- `toLowerCase` is ASCII-only, and string lengths count characters, not UTF-16 units.
- `===` on arrays and objects is modelled as never equal, because reference identity is not modelled.
- The `handleDelete` of AdminUsuarios.jsx (lines 230-247) calls an undeclared `toast` and is not wired to any button; only the modal path (lines 262-282) is modelled.
- The phone-sync follow-up requests after creating a user (AdminUsuarios.jsx:114-147) are modelled only as far as `CandidateId`; the list search by e-mail and the verification read are left out.
- `handleUpdate` in AdminUsuarios.jsx is a plain request followed by a reload and is left out.
- The refetch after create and delete in AdminServicios.jsx, and its delete action, are request sequencing only.
- The profile page's `fetchUserData` and its example fallback data (Perfil.jsx:16-44) are request sequencing and fixed sample data. The date formatter of MisReservas.jsx is display only.
- The data loading of the booking page (the service list) is request sequencing only. The agenda's loading is `AdminPagosAgenda.LoadAgenda`.
- `src/main.jsx`, `src/App.jsx`, `vite.config.js`, `Navbar`, `Footer`, `Blog`, `Nosotros`, `Carrito`, `AdminDashboard` and `Perfil.tailwind.jsx` are not part of this model.
- The picture builders of Home, ServicioDetalle, AdminServicios and MisReservas are the same function, so `Catalog.ImageSrc` models all of them; the catalogue page's copy first unwraps an array and is `Catalog.ListImageSrc`.
- Cart.ItemFromJson: a stored `quantity` that is not a number (the text "2", say) is read as unset and counts as 1, where the source adds to it as text (`"2" + 1` is "21") and multiplies it as a number; a `null` entry in the stored array, on which `i.id` throws, is read as an item without an id. The cart only ever writes numeric quantities, so only storage edited by hand reaches these cases.
- AdminUsuarios.Search: a name, e-mail or phone set to something other than text is read as its text, where `.toLowerCase()` throws and the table fails to render.
- AdminUsuarios.SortUsers: the same for the sort key `name || email || phone`.
- AdminPagosAgenda.BadgeFor: a status set to something other than text is read as its text, where `.toLowerCase()` throws; the same holds for `AdminPagosAgenda.StatusKey`, `AdminPagosAgenda.Visible` and `AdminPagosAgenda.CanDecide`.
- AdminUsuarios.EditStart: a name, e-mail or phone set to something other than text is put in the form as its text, where the source keeps the raw value in the form state.
- Reservas.Prefill: a stored name, e-mail or phone set to something other than text is taken as its text, where the source keeps the raw value and the later `.trim()` check (Reservas.jsx:94) throws on it.
- JsValue.ObjectValues: lists an object's values in the order its fields are written, where JavaScript lists integer-like keys first in ascending order; objects are taken to hold each key once.
- Perfil.TimestampUnits: proved only for moments between 10^9 and 10^12 seconds. Outside that window the source's unit rule misreads one of the two units.

## Findings

| source | as written | input that shows it | evidently intended | confidence | as-written member | corrected member |
|---|---|---|---|---|---|---|
| src/pages/LoginRegister.jsx:86-89 | `data.token \|\| data.authToken \|\| data.authToken?.token` stops at the truthy `authToken` object | the response body `{authToken: {token: "abc"}}` stores the text "[object Object]" as the token | the nested `authToken.token` string is stored, as the comment above the code says | not executed | LoginRegister.NestedTokenAsWritten | LoginRegister.TokenShapes |
| src/utils/api.js:59-66 | `userAPI` defines only `getProfile`, `updateProfile` and `getUserReservations`, while the user-administration and agenda pages call `userAPI.getAllUsers`, `createUser`, `updateUser` and `deleteUser` | any backend state: opening the user table shows no users and "userAPI.getAllUsers is not a function"; the agenda's request array throws while being built, so it shows that message and no rows; every toggle and deletion fails the same way | `userAPI` exports the four list, create, update and delete helpers, so each call sends its request | not executed | AdminUsuarios.UserListAsWritten | AdminUsuarios.UserListIntended |
| src/utils/api.js:59-66 | the same missing helpers, seen from the agenda and the row actions | any backend state: `AdminPagosAgenda.LoadAgenda` always fails, and `ToggleUser` and `DeleteConfirmed` always take their failure branch | as above | not executed | AdminPagosAgenda.AgendaAsWritten | AdminPagosAgenda.AgendaIntended |
| src/pages/Perfil.jsx:207 | `formatDate(getMemberSince(user))` passes `null` to `new Date` when there is no valid date | a profile `{}` with no `member_since`, `created_at` or `createdAt` | the dash that `formatDate` shows for a missing date, not the date of the epoch instant (the last day of 1969 or the first of 1970, depending on the browser's time zone) | not executed | Perfil.MissingDateShowsEpoch | Perfil.MemberSinceShown |

=== FILE: admin_agenda.dfy ===
/** The payments/agenda page (`src/pages/AdminPagosAgenda.jsx`): the guard,
    the table rows joined from reservations, reservation-service links,
    services, users and pets, the "only scheduled" filter, and the
    accept/reject transitions of a reservation's status. */
module AdminPagosAgenda {
  import opened Optional
  import opened JsValue
  import JsString
  import Session
  import SeqUtil
  import Api
  import Catalog
  import Endpoints

  /** Whether the page sends the visitor home.  `stored` is the parsed stored
      user, `None` when parsing threw. */
  predicate Redirects(stored: Option<Json>) {
    stored.None? || Session.AgendaRejects(stored.value)
  }

  /** A visitor with no stored user is sent away; one without a role is not. */
  lemma RedirectRule(fields: seq<(string, Json)>)
    requires forall i :: 0 <= i < |fields| ==> fields[i].0 != "role"
    ensures Redirects(Some(Null))
    ensures !Redirects(Some(Obj(fields)))
  {
    LookupMissing(fields, "role");
  }

  // ---------------------------------------------------------------------------
  // Loading

  /** The five lists `fetchAll` fills and the error banner. */
  datatype Data = Data(reservations: seq<Json>, links: seq<Json>, services: seq<Json>,
                       users: seq<Json>, pets: seq<Json>, error: Json)

  const LoadFailedMessage := "No se pudieron cargar los datos."

  /** `Array.isArray(res.data) ? res.data : []` */
  function DataList(response: Json): (r: seq<Json>)
    ensures Get(response, "data").Arr? ==> r == Get(response, "data").items
    ensures !Get(response, "data").Arr? ==> r == []
  {
    if Get(response, "data").Arr? then Get(response, "data").items else []
  }

  /** The error of the first failed request, in argument order. */
  function FirstThrown(fs: seq<Catalog.Fetch>): (r: Option<Json>)
    ensures r.None? <==> forall i :: 0 <= i < |fs| ==> fs[i].Responded?
    ensures r.Some? ==> exists i :: 0 <= i < |fs| && fs[i] == Catalog.Threw(r.value)
  {
    if fs == [] then None
    else if fs[0].Threw? then Some(fs[0].error)
    else
      var r := FirstThrown(fs[1..]);
      assert forall i :: 0 < i < |fs| ==> fs[i] == fs[1..][i - 1];
      if r.Some? then
        var i :| 0 <= i < |fs[1..]| && fs[1..][i] == Catalog.Threw(r.value);
        assert fs[i + 1] == Catalog.Threw(r.value);
        r
      else r
  }

  /** The state a failed load leaves: the lists as they started, empty, and
      the error's message or the fallback. */
  function LoadFailed(e: Json): Data {
    Data([], [], [], [], [], Api.ErrorText(e, LoadFailedMessage))
  }

  /** `fetchAll()`.  The `Promise.all` array calls the five helpers in
      order, so a helper that throws at once (`users.Missing?`) ends the load
      before any answer is awaited.  Otherwise a failed request ends in the
      `catch`, and when all five answer each list is its response's `data`
      when that is an array, else empty. */
  function LoadAgenda(reservations: Catalog.Fetch, links: Catalog.Fetch, services: Catalog.Fetch,
                      users: Endpoints.Call, pets: Catalog.Fetch): (r: Data)
    ensures users.Missing? ==> r == LoadFailed(users.error)
    ensures users.Sent? && reservations.Responded? && links.Responded? && services.Responded? &&
            users.outcome.Responded? && pets.Responded? ==>
      r == Data(DataList(reservations.response), DataList(links.response), DataList(services.response),
                DataList(users.outcome.response), DataList(pets.response), Str(""))
    ensures users.Sent? && (reservations.Threw? || links.Threw? || services.Threw? || users.outcome.Threw? || pets.Threw?) ==>
      exists e :: r == LoadFailed(e) &&
        Catalog.Threw(e) in [reservations, links, services, users.outcome, pets]
  {
    if users.Missing? then LoadFailed(users.error)
    else
      var all := [reservations, links, services, users.outcome, pets];
      match FirstThrown(all)
      case Some(e) =>
        var i :| 0 <= i < |all| && all[i] == Catalog.Threw(e);
        assert Catalog.Threw(e) in all;
        LoadFailed(e)
      case None =>
        assert all[0].Responded? && all[1].Responded? && all[2].Responded? && all[3].Responded? && all[4].Responded?;
        Data(DataList(reservations.response), DataList(links.response), DataList(services.response),
             DataList(users.outcome.response), DataList(pets.response), Str(""))
  }

  /** As written `userAPI` has no `getAllUsers`: building the `Promise.all`
      array throws, whatever the backend holds, so the agenda shows the
      engine's message and no rows. */
  lemma AgendaAsWritten(reservations: Catalog.Fetch, links: Catalog.Fetch, services: Catalog.Fetch,
                        settled: Catalog.Fetch, pets: Catalog.Fetch, now: string)
    ensures var d := LoadAgenda(reservations, links, services,
                                Endpoints.Invoke(Endpoints.UserApiAsWritten, "userAPI", "getAllUsers", settled), pets);
      && d.error == Str(Endpoints.NotAFunctionText("userAPI", "getAllUsers"))
      && Rows(d.reservations, d.links, d.services, d.users, d.pets, now) == []
  {
    Endpoints.AdminUserCallsThrow("getAllUsers", settled);
    Endpoints.NotAFunctionReported("userAPI", "getAllUsers");
  }

  /** With `getAllUsers` defined, when every request answers the agenda
      shows one row per reservation the backend listed, with no error. */
  lemma AgendaIntended(reservations: Json, links: Json, services: Json, users: Json, pets: Json, now: string)
    requires Get(reservations, "data").Arr?
    ensures var d := LoadAgenda(Catalog.Responded(reservations), Catalog.Responded(links), Catalog.Responded(services),
                                Endpoints.Invoke(Endpoints.UserApi, "userAPI", "getAllUsers", Catalog.Responded(users)),
                                Catalog.Responded(pets));
      && d.error == Str("")
      && |Rows(d.reservations, d.links, d.services, d.users, d.pets, now)| == |Get(reservations, "data").items|
  {
    Endpoints.AdminUserCallsSent("getAllUsers", Catalog.Responded(users));
  }

  // ---------------------------------------------------------------------------
  // Lookup tables

  /** `m.get(key)` for `m` built by `list.forEach(x => m.set(x.id, x))`: the
      last entry with that id.  Map keys compare like `===` here (no `NaN`). */
  function ById(list: seq<Json>, key: Json): (r: Option<Json>)
    ensures r.Some? ==> r.value in list && StrictEq(Get(r.value, "id"), key)
    ensures r.Some? ==> exists i :: LastWithId(list, key, i) && list[i] == r.value
    ensures r.None? <==> forall i :: 0 <= i < |list| ==> !StrictEq(Get(list[i], "id"), key)
  {
    if list == [] then None
    else if StrictEq(Get(list[|list| - 1], "id"), key) then
      assert LastWithId(list, key, |list| - 1);
      Some(list[|list| - 1])
    else
      var r := ById(list[..|list| - 1], key);
      assert forall i :: 0 <= i < |list| - 1 ==> list[..|list| - 1][i] == list[i];
      if r.Some? then
        var i :| LastWithId(list[..|list| - 1], key, i) && list[..|list| - 1][i] == r.value;
        assert LastWithId(list, key, i);
        r
      else r
  }

  /** Entry `i` has id `key` and no later entry does. */
  predicate LastWithId(list: seq<Json>, key: Json, i: int) {
    0 <= i < |list| && StrictEq(Get(list[i], "id"), key)
    && forall j :: i < j < |list| ==> !StrictEq(Get(list[j], "id"), key)
  }

  /** `m.get(key)?.field`: a missing entry reads as `undefined`. */
  function FieldById(list: seq<Json>, key: Json, field: string): Json {
    match ById(list, key)
    case Some(x) => Get(x, field)
    case None => Undefined
  }

  /** A later record with the same id replaces an earlier one. */
  lemma ByIdLastWins(list: seq<Json>, x: Json)
    requires StrictEq(Get(x, "id"), Get(x, "id"))
    ensures ById(list + [x], Get(x, "id")) == Some(x)
  {
  }

  // ---------------------------------------------------------------------------
  // Rows

  datatype Row = Row(
    id: Json, cliente: Json, mascota: Json, servicios: seq<Json>,
    monto: int, creado: Json, estado: Json, raw: Json)

  /** `links.filter(l => l.reservation_id === r.id)` */
  function LinksOf(links: seq<Json>, reservationId: Json): (r: seq<Json>)
    ensures forall l :: l in r <==> l in links && StrictEq(Get(l, "reservation_id"), reservationId)
  {
    SeqUtil.Filter(links, l => StrictEq(Get(l, "reservation_id"), reservationId))
  }

  /** The links keep the order and the repeats of the link list: those of
      a concatenation are those of each part in turn, and a single link is
      kept exactly when it names the reservation. */
  lemma LinksInOrder(a: seq<Json>, b: seq<Json>, l: Json, reservationId: Json)
    ensures LinksOf(a + b, reservationId) == LinksOf(a, reservationId) + LinksOf(b, reservationId)
    ensures LinksOf([l], reservationId) == (if StrictEq(Get(l, "reservation_id"), reservationId) then [l] else [])
  {
    SeqUtil.FilterAppend(a, b, l => StrictEq(Get(l, "reservation_id"), reservationId));
    SeqUtil.FilterCons(l, [], l => StrictEq(Get(l, "reservation_id"), reservationId));
    assert [l] + [] == [l];
  }

  /** The name shown for a link's service. */
  function ServiceName(services: seq<Json>, link: Json): Json {
    var id := Get(link, "service_id");
    Or(FieldById(services, id, "name"), Str("Servicio #" + ToJsString(id)))
  }

  /** What a link adds to the total: `Number(price) || 0`. */
  function ServicePrice(services: seq<Json>, link: Json): int {
    NumberOr(FieldById(services, Get(link, "service_id"), "price"), 0)
  }

  function ServiceNames(services: seq<Json>, links: seq<Json>): (r: seq<Json>)
    ensures |r| == |links|
    ensures forall i :: 0 <= i < |links| ==> r[i] == ServiceName(services, links[i])
  {
    seq(|links|, i requires 0 <= i < |links| => ServiceName(services, links[i]))
  }

  /** `links.reduce((sum, l) => sum + price(l), 0)` */
  function Total(services: seq<Json>, links: seq<Json>): (r: int)
    ensures links == [] ==> r == 0
    ensures |links| == 1 ==> r == NumberOr(FieldById(services, Get(links[0], "service_id"), "price"), 0)
  {
    if links == [] then 0
    else Total(services, links[..|links| - 1]) + ServicePrice(services, links[|links| - 1])
  }

  lemma {:induction false} TotalAppend(services: seq<Json>, a: seq<Json>, b: seq<Json>)
    ensures Total(services, a + b) == Total(services, a) + Total(services, b)
  {
    if b != [] {
      SeqUtil.InitOfAppend(a, b);
      TotalAppend(services, a, b[..|b| - 1]);
    } else {
      assert a + b == a;
    }
  }

  /** Links to services the catalogue does not know add nothing. */
  lemma {:induction false} TotalIgnoresUnpriced(services: seq<Json>, links: seq<Json>)
    requires forall i :: 0 <= i < |links| ==> ById(services, Get(links[i], "service_id")).None?
    ensures Total(services, links) == 0
  {
    if links != [] {
      TotalIgnoresUnpriced(services, links[..|links| - 1]);
    }
  }

  /** The row the table shows for reservation `r`; `now` is the timestamp
      `new Date().toISOString()` would give. */
  function BuildRow(r: Json, links: seq<Json>, services: seq<Json>, users: seq<Json>, pets: seq<Json>, now: string): (row: Row)
    ensures row.id == Get(r, "id") && row.raw == r
    ensures row.servicios == ServiceNames(services, LinksOf(links, Get(r, "id")))
    ensures row.monto == Total(services, LinksOf(links, Get(r, "id")))
    ensures row.cliente == Or(FieldById(users, Get(r, "user_id"), "name"), Str("Usuario #" + ToJsString(Get(r, "user_id"))))
    ensures !Truthy(Get(r, "pet_id")) ==> row.mascota == Str("—")
    ensures Truthy(Get(r, "pet_id")) ==>
      row.mascota == Or(FieldById(pets, Get(r, "pet_id"), "name"), Str("Mascota #" + ToJsString(Get(r, "pet_id"))))
    ensures row.estado == Estado(r)
    ensures Truthy(Get(r, "created_at")) ==> row.creado == Get(r, "created_at")
    ensures !Truthy(Get(r, "created_at")) && Truthy(Get(r, "date")) ==> row.creado == Get(r, "date")
    ensures !Truthy(Get(r, "created_at")) && !Truthy(Get(r, "date")) ==> row.creado == Str(now)
  {
    var rLinks := LinksOf(links, Get(r, "id"));
    Row(Get(r, "id"),
        Or(FieldById(users, Get(r, "user_id"), "name"), Str("Usuario #" + ToJsString(Get(r, "user_id")))),
        if Truthy(Get(r, "pet_id"))
        then Or(FieldById(pets, Get(r, "pet_id"), "name"), Str("Mascota #" + ToJsString(Get(r, "pet_id"))))
        else Str("—"),
        ServiceNames(services, rLinks),
        Total(services, rLinks),
        Or(Or(Get(r, "created_at"), Get(r, "date")), Str(now)),
        Estado(r),
        r)
  }

  /** `r.status || 'agendado'` */
  function Estado(r: Json): (e: Json)
    ensures Truthy(Get(r, "status")) ==> e == Get(r, "status")
    ensures !Truthy(Get(r, "status")) ==> e == Str("agendado")
  {
    Or(Get(r, "status"), Str("agendado"))
  }

  /** One row per reservation, in order. */
  function Rows(reservations: seq<Json>, links: seq<Json>, services: seq<Json>, users: seq<Json>, pets: seq<Json>, now: string): (rows: seq<Row>)
    ensures |rows| == |reservations|
    ensures forall i :: 0 <= i < |rows| ==> rows[i] == BuildRow(reservations[i], links, services, users, pets, now)
  {
    seq(|reservations|, i requires 0 <= i < |reservations| => BuildRow(reservations[i], links, services, users, pets, now))
  }

  /** A reservation without links shows no services and a zero total; a
      service the catalogue does not know is shown by its id. */
  lemma RowWithoutLinks(r: Json, links: seq<Json>, services: seq<Json>, users: seq<Json>, pets: seq<Json>, now: string)
    requires forall i :: 0 <= i < |links| ==> !StrictEq(Get(links[i], "reservation_id"), Get(r, "id"))
    ensures BuildRow(r, links, services, users, pets, now).servicios == []
    ensures BuildRow(r, links, services, users, pets, now).monto == 0
  {
  }

  lemma UnknownServiceName(services: seq<Json>, link: Json, id: int)
    requires Get(link, "service_id") == Num(id)
    requires forall i :: 0 <= i < |services| ==> !StrictEq(Get(services[i], "id"), Num(id))
    ensures ServiceName(services, link) == Str("Servicio #" + JsString.IntToString(id))
  {
    JsString.NatToStringDigits(if id < 0 then -id else id);
  }

  // ---------------------------------------------------------------------------
  // Status

  /** `(estado || '').toLowerCase()` */
  function StatusKey(estado: Json): (r: string)
    ensures !Truthy(estado) ==> r == ""
    ensures estado.Str? ==> r == JsString.Lower(estado.s)
  {
    JsString.Lower(TextOr(estado))
  }

  /** Accept and reject are offered only for a scheduled reservation. */
  function CanDecide(row: Row): (b: bool)
    ensures b ==> Truthy(row.estado)
    ensures row.estado.Str? ==> (b <==> JsString.Lower(row.estado.s) == "agendado")
  {
    StatusKey(row.estado) == "agendado"
  }

  /** `visibles` */
  function Visible(rows: seq<Row>, onlyScheduled: bool): (r: seq<Row>)
    ensures onlyScheduled ==> forall x :: x in r <==> x in rows && CanDecide(x)
    ensures !onlyScheduled ==> r == rows
  {
    if onlyScheduled then SeqUtil.Filter(rows, (x: Row) => CanDecide(x)) else rows
  }

  /** The filter keeps the rows' order and repeats: the rows shown for a
      concatenation are those of each part in turn, and one row is shown
      exactly when it is still to decide. */
  lemma VisibleInOrder(a: seq<Row>, b: seq<Row>, x: Row)
    ensures Visible(a + b, true) == Visible(a, true) + Visible(b, true)
    ensures Visible([x], true) == (if CanDecide(x) then [x] else [])
  {
    SeqUtil.FilterAppend(a, b, (x: Row) => CanDecide(x));
    SeqUtil.FilterCons(x, [], (x: Row) => CanDecide(x));
    assert [x] + [] == [x];
  }

  datatype Badge = Scheduled | Accepted | Rejected | Other(text: Json)

  /** `badgeFor(estado)` */
  function BadgeFor(estado: Json): (b: Badge)
    ensures b.Scheduled? <==> StatusKey(estado) == "agendado"
    ensures b.Accepted? <==> StatusKey(estado) == "aceptado"
    ensures b.Rejected? <==> StatusKey(estado) == "rechazado"
    ensures b.Other? ==> b.text == estado
  {
    match StatusKey(estado)
    case "agendado" => Scheduled
    case "aceptado" => Accepted
    case "rechazado" => Rejected
    case _ => Other(estado)
  }

  datatype Decision = Accept | Reject

  function Target(d: Decision): string {
    match d
    case Accept => "aceptado"
    case Reject => "rechazado"
  }

  /** `actualizarEstado(id, estado)` once the server accepted it: the matching
      reservations take the new status, the others are untouched. */
  function UpdateStatus(reservations: seq<Json>, id: Json, estado: string): (r: seq<Json>)
    ensures |r| == |reservations|
    ensures forall i :: 0 <= i < |r| && !StrictEq(Get(reservations[i], "id"), id) ==> r[i] == reservations[i]
    ensures forall i :: 0 <= i < |r| && StrictEq(Get(reservations[i], "id"), id) ==>
      Get(r[i], "status") == Str(estado) &&
      forall k :: k != "status" ==> Get(r[i], k) == Get(reservations[i], k)
  {
    seq(|reservations|, i requires 0 <= i < |reservations| =>
      if StrictEq(Get(reservations[i], "id"), id) then Spread(reservations[i], "status", Str(estado)) else reservations[i])
  }

  /** The reservations and the error banner the page holds. */
  datatype Page = Page(reservations: seq<Json>, error: Json)

  const UpdateFailedMessage := "No se pudo actualizar el estado."

  /** Pressing accept or reject on a row (`actualizarEstado`), where
      `update` is how the status request settled.  Nothing happens unless the
      row is scheduled (the buttons are disabled otherwise); an accepted
      request clears the banner and moves the matching reservations to the
      decision; a failed one keeps the list and shows the error's message. */
  function Decide(page: Page, row: Row, d: Decision, update: Catalog.Fetch): (r: Page)
    ensures |r.reservations| == |page.reservations|
    ensures !CanDecide(row) ==> r == page
    ensures CanDecide(row) && update.Responded? ==>
      r == Page(UpdateStatus(page.reservations, row.id, Target(d)), Str(""))
    ensures CanDecide(row) && update.Threw? ==>
      r.reservations == page.reservations && r.error == Api.HandleApiError(update.error).message && Truthy(r.error)
  {
    if !CanDecide(row) then page
    else
      match update
      case Responded(_) => Page(UpdateStatus(page.reservations, row.id, Target(d)), Str(""))
      case Threw(e) => Page(page.reservations, Api.ErrorText(e, UpdateFailedMessage))
  }

  /** A reservation whose status is a decision shows that decision and offers
      no further one. */
  lemma DecidedStatus(x: Json, d: Decision)
    requires Get(x, "status") == Str(Target(d))
    ensures Estado(x) == Str(Target(d))
    ensures StatusKey(Estado(x)) != "agendado"
    ensures BadgeFor(Estado(x)) == (if d == Accept then Accepted else Rejected)
  {
    JsString.LowerKeepsLowercase(Target(d));
  }

  /** The state machine `agendado -> aceptado | rechazado`: once the server
      accepts a decision on a scheduled row, the reservation's row shows the
      decision and can no longer be decided, so a second press changes
      nothing whatever its request does. */
  lemma DecisionIsFinal(page: Page, i: nat, row: Row, d: Decision, d2: Decision, response: Json, update2: Catalog.Fetch,
                        links: seq<Json>, services: seq<Json>, users: seq<Json>, pets: seq<Json>, now: string)
    requires i < |page.reservations|
    requires row.id == Get(page.reservations[i], "id") && StrictEq(row.id, row.id)
    requires CanDecide(row)
    ensures var after := Decide(page, row, d, Catalog.Responded(response));
      var row' := BuildRow(after.reservations[i], links, services, users, pets, now);
      && row'.estado == Str(Target(d))
      && !CanDecide(row')
      && BadgeFor(row'.estado) == (if d == Accept then Accepted else Rejected)
      && Decide(after, row', d2, update2) == after
  {
    var after := Decide(page, row, d, Catalog.Responded(response));
    UpdatedEntry(page.reservations, i, row.id, Target(d));
    DecidedRow(after.reservations[i], d, links, services, users, pets, now);
  }

  /** The reservation a decision names holds the new status. */
  lemma UpdatedEntry(reservations: seq<Json>, i: nat, id: Json, estado: string)
    requires i < |reservations| && StrictEq(Get(reservations[i], "id"), id)
    ensures Get(UpdateStatus(reservations, id, estado)[i], "status") == Str(estado)
  {
  }

  /** The row of a reservation holding a decision shows it and offers no
      further one. */
  lemma DecidedRow(x: Json, d: Decision, links: seq<Json>, services: seq<Json>, users: seq<Json>, pets: seq<Json>, now: string)
    requires Get(x, "status") == Str(Target(d))
    ensures var row := BuildRow(x, links, services, users, pets, now);
      && row.estado == Str(Target(d)) && !CanDecide(row)
      && BadgeFor(row.estado) == (if d == Accept then Accepted else Rejected)
  {
    DecidedStatus(x, d);
  }
}

=== FILE: admin_servicios.dfy ===
/** The service administration page (`AdminServicios.jsx`): only an admin
    may use it; it lists the services and creates new ones from a form whose
    numeric fields are coerced before they are sent. */
module AdminServicios {
  import opened Optional
  import opened JsValue
  import JsString
  import Api
  import Session
  import Catalog

  /** The page's guard: the strict admin test. */
  predicate Allowed(user: Json) {
    Session.IsAdmin(user)
  }

  /** The guard here is stricter than the agenda's: everyone it admits the
      agenda admits too, and a logged-in user without a role is admitted by
      the agenda but not here. */
  lemma StricterThanAgenda(user: Json)
    ensures Allowed(user) ==> !Session.AgendaRejects(user)
    ensures Truthy(user) && !Truthy(Get(user, "role")) ==> !Allowed(user) && !Session.AgendaRejects(user)
  {
    Session.StrictGuardImpliesAgendaGuard(user);
  }

  // ---------------------------------------------------------------------------
  // The listing

  datatype Listing = Listing(services: seq<Json>, error: Json)

  /** `fetchServices`: anything but an array lists nothing; a failed request
      keeps the previous list and shows the error. */
  function LoadListing(previous: seq<Json>, fetch: Catalog.Fetch): (r: Listing)
    ensures fetch.Responded? ==> r == Listing(AsArray(Get(fetch.response, "data")), Str(""))
    ensures fetch.Threw? ==> r.services == previous && Truthy(r.error)
  {
    match fetch
    case Responded(response) => Listing(AsArray(Get(response, "data")), Str(""))
    case Threw(e) => Listing(previous, Api.HandleApiError(e).message)
  }

  /** The duration column: `s.duration || 60`. */
  function ListedDuration(s: Json): (r: Json)
    ensures Truthy(r)
    ensures Truthy(Get(s, "duration")) ==> r == Get(s, "duration")
  {
    Or(Get(s, "duration"), Num(60))
  }

  // ---------------------------------------------------------------------------
  // Creating a service

  datatype Form = Form(name: string, description: string, price: string, estimatedDuration: string)

  const EmptyForm := Form("", "", "", "")

  const ImageRequired := "Debes subir un archivo de imagen."

  /** One entry of the `FormData` sent to the backend.  A `Number` entry is
      sent as the text `String(value)`. */
  datatype Part = Text(name: string, text: string) | Number(name: string, value: int) | Upload(name: string, file: Json)

  /** The text the backend receives for a text or number entry. */
  function PartText(p: Part): string
    requires !p.Upload?
  {
    if p.Text? then p.text else JsString.IntToString(p.value)
  }

  /** `Number(form.price) || 0` */
  function Price(f: Form): int {
    NumberOr(Str(f.price), 0)
  }

  /** `Number(form.estimated_duration) || 60` */
  function Duration(f: Form): (d: int)
    ensures d != 0
  {
    NumberOr(Str(f.estimatedDuration), 60)
  }

  /** The request `handleCreate` sends, or the message it shows instead.
      `imageFile` is the chosen file, `null` when none is chosen. */
  function CreateRequest(f: Form, imageFile: Json): (r: Result<seq<Part>, string>)
    ensures r.Failure? <==> !Truthy(imageFile)
    ensures r.Failure? ==> r.error == ImageRequired
    ensures r.Success? ==>
      && |r.value| == 6
      && r.value[0] == Text("name", f.name) && r.value[1] == Text("description", f.description)
      && r.value[2].Number? && r.value[2].name == "price" && r.value[2].value == NumberOr(Str(f.price), 0)
      && r.value[3].Number? && r.value[3].name == "duration" && r.value[3].value != 0
      && r.value[4].Number? && r.value[4].name == "estimated_duration" && r.value[4].value == r.value[3].value
      && r.value[5] == Upload("image", imageFile)
  {
    if !Truthy(imageFile) then Failure(ImageRequired)
    else Success([Text("name", f.name), Text("description", f.description),
                  Number("price", Price(f)),
                  Number("duration", Duration(f)),
                  Number("estimated_duration", Duration(f)),
                  Upload("image", imageFile)])
  }

  /** What the backend reads back from the numeric parts: the price the form
      states, 0 when it is empty, zero or not a number, and the duration the
      form states, 60 when it is empty, zero or not a number.  A whole number
      typed in the form is sent as typed. */
  lemma NumericPartsReadBack(f: Form, imageFile: Json, n: int)
    requires Truthy(imageFile)
    ensures var parts := CreateRequest(f, imageFile).value;
      && JsString.StringToNumber(PartText(parts[2])) == Some(NumberOr(Str(f.price), 0))
      && JsString.StringToNumber(PartText(parts[3])) == Some(NumberOr(Str(f.estimatedDuration), 60))
      && (f.price == JsString.IntToString(n) ==> PartText(parts[2]) == JsString.IntToString(n))
      && (f.estimatedDuration == JsString.IntToString(n) && n != 0 ==> PartText(parts[3]) == JsString.IntToString(n))
  {
    var parts := CreateRequest(f, imageFile).value;
    assert parts[2] == Number("price", Price(f)) && parts[3] == Number("duration", Duration(f));
    NumberPartReads("price", Price(f));
    NumberPartReads("duration", Duration(f));
    if f.price == JsString.IntToString(n) {
      TypedNumberKept(f.price, n, 0);
    }
    if f.estimatedDuration == JsString.IntToString(n) && n != 0 {
      TypedNumberKept(f.estimatedDuration, n, 60);
    }
  }

  /** A number part reads back as its value. */
  lemma NumberPartReads(name: string, v: int)
    ensures JsString.StringToNumber(PartText(Number(name, v))) == Some(v)
  {
    JsString.StringToNumberOfIntToString(v);
  }

  /** A field holding the text of a number coerces back to that number, the
      fallback aside. */
  lemma TypedNumberKept(text: string, n: int, d: int)
    requires text == JsString.IntToString(n) && (n != 0 || d == 0)
    ensures NumberOr(Str(text), d) == n
  {
    JsString.StringToNumberOfIntToString(n);
  }

  /** A service stored with the duration text the page sent is listed with
      that duration, never with the 60-minute fallback of the column. */
  lemma ListedDurationIsSent(f: Form, imageFile: Json, fields: seq<(string, Json)>)
    requires Truthy(imageFile)
    requires Get(Obj(fields), "duration") == Str(PartText(CreateRequest(f, imageFile).value[3]))
    ensures ListedDuration(Obj(fields)) == Str(PartText(CreateRequest(f, imageFile).value[3]))
  {
    JsString.NatToStringDigits(if Duration(f) < 0 then -Duration(f) else Duration(f));
  }

  /** The page's form state around a submission. */
  datatype State = State(form: Form, imageFile: Json, error: Json)

  /** `handleCreate`: `outcome` is the settled create request, consulted only
      when a file was chosen. */
  function Submit(st: State, outcome: Catalog.Fetch): (r: State)
    ensures !Truthy(st.imageFile) ==> r == st.(error := Str(ImageRequired))
    ensures Truthy(st.imageFile) && outcome.Responded? ==> r == State(EmptyForm, Null, Str(""))
    ensures Truthy(st.imageFile) && outcome.Threw? ==>
      r.form == st.form && r.imageFile == st.imageFile && Truthy(r.error)
  {
    match CreateRequest(st.form, st.imageFile)
    case Failure(message) => st.(error := Str(message))
    case Success(_) =>
      match outcome
      case Responded(_) => State(EmptyForm, Null, Str(""))
      case Threw(e) => st.(error := Api.HandleApiError(e).message)
  }
}

=== FILE: admin_usuarios.dfy ===
/** The user administration page (`src/pages/AdminUsuarios.jsx`): reading a
    user list out of whatever the backend returns, the active/blocked rule and
    its toggle, the search filter and name sort of the table, the create and
    delete guards, and deletion from the list.  Users are JSON values. */
module AdminUsuarios {
  import opened Optional
  import opened JsValue
  import JsString
  import Session
  import SeqUtil
  import Catalog
  import Api
  import Endpoints

  // ---------------------------------------------------------------------------
  // Reading the list

  /** `v && typeof v === 'object' && (v.id || v.email || v.name)` */
  predicate IsUserLike(v: Json) {
    IsObjectLike(v) && (Truthy(Get(v, "id")) || Truthy(Get(v, "email")) || Truthy(Get(v, "name")))
  }

  predicate AllUserLike(vs: seq<Json>) {
    forall i :: 0 <= i < |vs| ==> IsUserLike(vs[i])
  }

  /** Where `for (const v of vs) if (Array.isArray(v)) return v` stops: the
      index of the first array among `vs`. */
  function FirstArrayAt(vs: seq<Json>): (r: Option<nat>)
    ensures r.Some? ==> r.value < |vs| && vs[r.value].Arr? && forall k :: 0 <= k < r.value ==> !vs[k].Arr?
    ensures r.None? ==> forall i :: 0 <= i < |vs| ==> !vs[i].Arr?
  {
    if vs == [] then None
    else if vs[0].Arr? then Some(0)
    else match FirstArrayAt(vs[1..])
      case Some(i) => Some(i + 1)
      case None => None
  }

  function FirstArray(vs: seq<Json>): Option<seq<Json>> {
    match FirstArrayAt(vs)
    case Some(i) => Some(vs[i].items)
    case None => None
  }

  /** `vs.length && vs.every(isUserLike)`: a non-empty dictionary of user
      records. */
  predicate UserDictionary(vs: seq<Json>) {
    |vs| > 0 && AllUserLike(vs)
  }

  /** One level of `arrayFromObject`: a dictionary of user records gives its
      values, else its first array-valued entry. */
  function DictionaryOrArray(vs: seq<Json>): Option<seq<Json>> {
    if UserDictionary(vs) then Some(vs) else FirstArray(vs)
  }

  /** `Object.values(obj?.data || {})` */
  function DataValues(obj: Json): seq<Json> {
    ObjectValues(Or(Get(obj, "data"), Obj([])))
  }

  /** `arrayFromObject(obj)`: the first of its five answers that applies, in
      the order the source tries them. */
  function ArrayFromObject(obj: Json): (r: seq<Json>)
    ensures !IsObjectLike(obj) ==> r == []
    ensures IsObjectLike(obj) && UserDictionary(ObjectValues(obj)) ==> r == ObjectValues(obj)
    ensures (IsObjectLike(obj) && !UserDictionary(ObjectValues(obj)) && FirstArrayAt(ObjectValues(obj)).Some?) ==>
      r == ObjectValues(obj)[FirstArrayAt(ObjectValues(obj)).value].items
    ensures (IsObjectLike(obj) && !UserDictionary(ObjectValues(obj)) && FirstArrayAt(ObjectValues(obj)).None? &&
             Get(obj, "data").Arr?) ==>
      r == Get(obj, "data").items
    ensures (IsObjectLike(obj) && !UserDictionary(ObjectValues(obj)) && FirstArrayAt(ObjectValues(obj)).None? &&
             !Get(obj, "data").Arr? && UserDictionary(DataValues(obj))) ==>
      r == DataValues(obj)
    ensures (IsObjectLike(obj) && !UserDictionary(ObjectValues(obj)) && FirstArrayAt(ObjectValues(obj)).None? &&
             !Get(obj, "data").Arr? && !UserDictionary(DataValues(obj)) && FirstArrayAt(DataValues(obj)).Some?) ==>
      r == DataValues(obj)[FirstArrayAt(DataValues(obj)).value].items
    ensures (IsObjectLike(obj) && !UserDictionary(ObjectValues(obj)) && FirstArrayAt(ObjectValues(obj)).None? &&
             !Get(obj, "data").Arr? && !UserDictionary(DataValues(obj)) && FirstArrayAt(DataValues(obj)).None?) ==>
      r == []
  {
    if !IsObjectLike(obj) then []
    else
      var first := DictionaryOrArray(ObjectValues(obj));
      if first.Some? then first.value
      else if Get(obj, "data").Arr? then Get(obj, "data").items
      else
        var second := DictionaryOrArray(DataValues(obj));
        if second.Some? then second.value else []
  }

  /** The fields `normalizeList` tries, in order. */
  const ListKeys: seq<string> := ["items", "users", "records", "results", "data"]

  /** The index of the first of `keys` whose value in `payload` is an array. */
  function FirstArrayKey(payload: Json, keys: seq<string>): (r: Option<nat>)
    ensures r.Some? ==> r.value < |keys| && Get(payload, keys[r.value]).Arr? &&
                        forall k :: 0 <= k < r.value ==> !Get(payload, keys[k]).Arr?
    ensures r.None? ==> forall i :: 0 <= i < |keys| ==> !Get(payload, keys[i]).Arr?
  {
    if keys == [] then None
    else if Get(payload, keys[0]).Arr? then Some(0)
    else match FirstArrayKey(payload, keys[1..])
      case Some(i) => Some(i + 1)
      case None => None
  }

  /** `normalizeList(payload)`: an array is taken as it is; then the first
      array among `items`, `users`, `records`, `results`, `data`; then
      `arrayFromObject`. */
  function NormalizeList(payload: Json): (r: seq<Json>)
    ensures payload.Arr? ==> r == payload.items
    ensures !payload.Arr? && FirstArrayKey(payload, ListKeys).Some? ==>
      r == Get(payload, ListKeys[FirstArrayKey(payload, ListKeys).value]).items
    ensures !payload.Arr? && FirstArrayKey(payload, ListKeys).None? ==> r == ArrayFromObject(payload)
  {
    if payload.Arr? then payload.items
    else match FirstArrayKey(payload, ListKeys)
      case Some(i) => Get(payload, ListKeys[i]).items
      case None => ArrayFromObject(payload)
  }

  /** An earlier key wins over a later one: `{items: [...], users: [...]}`
      reads `items`. */
  lemma ItemsBeforeUsers(a: seq<Json>, b: seq<Json>)
    ensures NormalizeList(Obj([("users", Arr(b)), ("items", Arr(a))])) == a
  {
    var fields := [("users", Arr(b)), ("items", Arr(a))];
    LookupAt(fields, 1);
  }

  /** Normalising is idempotent, and a missing or primitive payload is the
      empty list. */
  lemma NormalizeListLaws(payload: Json)
    ensures NormalizeList(Arr(NormalizeList(payload))) == NormalizeList(payload)
    ensures !IsObjectLike(payload) ==> NormalizeList(payload) == []
  {
  }

  /** What `fetchUsers` leaves on the page: the table and the error banner. */
  datatype Listing = Listing(users: seq<Json>, error: Json)

  /** `fetchUsers()`, given how `userAPI.getAllUsers()` ended: a response's
      `data` is normalised into the table, a `null` body is reported and any
      other body clears the error; a failed request empties the table and
      shows the message `handleAPIError` derives. */
  function LoadUsers(fetch: Catalog.Fetch): (r: Listing)
    ensures fetch.Responded? ==> r.users == NormalizeList(Get(fetch.response, "data"))
    ensures fetch.Responded? && Get(fetch.response, "data") == Null ==> r.error == Str(NullBodyMessage)
    ensures fetch.Responded? && Get(fetch.response, "data") != Null ==> r.error == Str("")
    ensures fetch.Threw? ==> r == Listing([], Api.HandleApiError(fetch.error).message)
  {
    match fetch
    case Responded(response) =>
      var raw := Get(response, "data");
      Listing(NormalizeList(raw), if raw == Null then Str(NullBodyMessage) else Str(""))
    case Threw(e) => Listing([], Api.HandleApiError(e).message)
  }

  const NullBodyMessage := "El endpoint /user devolvió null. Por favor verifica el backend: debe retornar un arreglo ([], incluso si está vacío)."

  /** As written `userAPI` has no `getAllUsers`, so the call throws before
      any request is sent: whatever the backend holds, the table is empty
      and the banner shows the engine's message. */
  lemma UserListAsWritten(settled: Catalog.Fetch)
    ensures LoadUsers(Endpoints.Await(Endpoints.Invoke(Endpoints.UserApiAsWritten, "userAPI", "getAllUsers", settled)))
      == Listing([], Str(Endpoints.NotAFunctionText("userAPI", "getAllUsers")))
  {
    Endpoints.AdminUserCallsThrow("getAllUsers", settled);
    Endpoints.NotAFunctionReported("userAPI", "getAllUsers");
  }

  /** With `getAllUsers` defined, the backend's list reaches the table. */
  lemma UserListIntended(response: Json)
    ensures var r := LoadUsers(Endpoints.Await(Endpoints.Invoke(Endpoints.UserApi, "userAPI", "getAllUsers", Catalog.Responded(response))));
      && r.users == NormalizeList(Get(response, "data"))
      && (r.error == Str("") <==> Get(response, "data") != Null)
  {
    Endpoints.AdminUserCallsSent("getAllUsers", Catalog.Responded(response));
  }

  // ---------------------------------------------------------------------------
  // Active and blocked

  /** The part of the page state the row actions touch: the list, the row
      being edited, and the error and success banners. */
  datatype Table = Table(users: seq<Json>, editingId: Json, error: Json, success: Json)

  /** `u.status !== undefined ? u.status : (u.blocked !== undefined ? !u.blocked : true)` */
  function ActiveValue(u: Json): Json {
    if !Get(u, "status").Undefined? then Get(u, "status")
    else if !Get(u, "blocked").Undefined? then Bool(!Truthy(Get(u, "blocked")))
    else Bool(true)
  }

  /** Whether the table shows the user as active. */
  predicate IsActive(u: Json) {
    Truthy(ActiveValue(u))
  }

  /** `status` decides when present; else `blocked`, negated; a user with
      neither is active. */
  lemma IsActiveRule(u: Json)
    ensures !Get(u, "status").Undefined? ==> (IsActive(u) <==> Truthy(Get(u, "status")))
    ensures Get(u, "status").Undefined? && !Get(u, "blocked").Undefined? ==> (IsActive(u) <==> !Truthy(Get(u, "blocked")))
    ensures Get(u, "status").Undefined? && Get(u, "blocked").Undefined? ==> IsActive(u)
  {
  }

  /** The record after the toggle: `{...x, status: next, blocked: !next}`. */
  function Toggled(x: Json, next: bool): (r: Json)
    ensures Get(r, "status") == Bool(next) && Get(r, "blocked") == Bool(!next)
    ensures forall k :: k != "status" && k != "blocked" ==> Get(r, k) == (if x.Obj? then Get(x, k) else Undefined)
  {
    Spread(Spread(x, "status", Bool(next)), "blocked", Bool(!next))
  }

  /** The body of the update request the toggle sends. */
  function TogglePayload(u: Json): (r: Json)
    ensures Get(r, "status") == Bool(!IsActive(u))
    ensures Get(r, "name") == Or(Get(u, "name"), Str("")) && Get(r, "email") == Or(Get(u, "email"), Str(""))
    ensures Get(r, "phone") == Or(Get(u, "phone"), Str(""))
    ensures Get(r, "role") == (if Truthy(Get(u, "role")) then Get(u, "role") else Undefined)
  {
    var base := [("name", Or(Get(u, "name"), Str(""))), ("email", Or(Get(u, "email"), Str(""))),
                 ("phone", Or(Get(u, "phone"), Str(""))), ("status", Bool(!IsActive(u)))];
    var fields := if Truthy(Get(u, "role")) then base + [("role", Get(u, "role"))] else base;
    LookupAt(fields, 0); LookupAt(fields, 1); LookupAt(fields, 2); LookupAt(fields, 3);
    if Truthy(Get(u, "role")) then
      LookupAt(fields, 4);
      Obj(fields)
    else
      assert forall i :: 0 <= i < |fields| ==> fields[i].0 != "role";
      LookupMissing(fields, "role");
      Obj(fields)
  }

  /** `prev.map(x => x.id === u.id ? {...x, status: next, blocked: !next} : x)` */
  function ToggleBlock(users: seq<Json>, u: Json): (r: seq<Json>)
    ensures |r| == |users|
    ensures forall i :: 0 <= i < |users| ==>
      r[i] == (if StrictEq(Get(users[i], "id"), Get(u, "id")) then Toggled(users[i], !IsActive(u)) else users[i])
  {
    seq(|users|, i requires 0 <= i < |users| =>
      if StrictEq(Get(users[i], "id"), Get(u, "id")) then Toggled(users[i], !IsActive(u)) else users[i])
  }

  /** After the toggle the matching record shows the opposite state, with
      `blocked` the negation of `status`; toggling again from the updated
      record restores the original state. */
  lemma ToggleFlipsActive(users: seq<Json>, u: Json, i: nat)
    requires i < |users| && StrictEq(Get(users[i], "id"), Get(u, "id"))
    ensures IsActive(ToggleBlock(users, u)[i]) == !IsActive(u)
    ensures Get(ToggleBlock(users, u)[i], "blocked") == Bool(IsActive(u))
    ensures IsActive(Toggled(ToggleBlock(users, u)[i], !IsActive(ToggleBlock(users, u)[i]))) == IsActive(u)
  {
  }

  /** The success text: it names the state the user is moved to. */
  function ToggleMessage(u: Json): (r: string)
    ensures IsActive(u) <==> r == "Usuario bloqueado."
    ensures !IsActive(u) <==> r == "Usuario desbloqueado."
  {
    if !IsActive(u) then "Usuario desbloqueado." else "Usuario bloqueado."
  }

  /** `toggleBlock(u)`, given how `userAPI.updateUser` ended: both banners
      are cleared; an accepted update flips the matching rows and reports
      it; a failed one keeps the list and shows `handleAPIError`'s message. */
  function ToggleUser(t: Table, u: Json, update: Catalog.Fetch): (r: Table)
    ensures r.editingId == t.editingId
    ensures update.Responded? ==>
      r.users == ToggleBlock(t.users, u) && r.error == Str("") && r.success == Str(ToggleMessage(u))
    ensures update.Threw? ==>
      r.users == t.users && r.error == Api.HandleApiError(update.error).message && r.success == Str("")
  {
    match update
    case Responded(_) => t.(users := ToggleBlock(t.users, u), error := Str(""), success := Str(ToggleMessage(u)))
    case Threw(e) => t.(error := Api.HandleApiError(e).message, success := Str(""))
  }

  /** After an accepted toggle the success text names the state the
      toggled row now shows. */
  lemma ToggleReportsNewState(t: Table, u: Json, response: Json, i: nat)
    requires i < |t.users| && StrictEq(Get(t.users[i], "id"), Get(u, "id"))
    ensures var r := ToggleUser(t, u, Catalog.Responded(response));
      && (r.success == Str("Usuario desbloqueado.") <==> IsActive(r.users[i]))
      && (r.success == Str("Usuario bloqueado.") <==> !IsActive(r.users[i]))
  {
    ToggleFlipsActive(t.users, u, i);
  }

  /** As written `userAPI` has no `updateUser`: the toggle always fails with
      the engine's message and leaves every row as it was. */
  lemma ToggleAsWritten(t: Table, u: Json, settled: Catalog.Fetch)
    ensures ToggleUser(t, u, Endpoints.Await(Endpoints.Invoke(Endpoints.UserApiAsWritten, "userAPI", "updateUser", settled)))
      == t.(error := Str(Endpoints.NotAFunctionText("userAPI", "updateUser")), success := Str(""))
  {
    var e := Endpoints.NotAFunction("userAPI", "updateUser");
    Endpoints.AdminUserCallsThrow("updateUser", settled);
    Endpoints.NotAFunctionReported("userAPI", "updateUser");
    assert ToggleUser(t, u, Catalog.Threw(e)) == t.(error := Api.HandleApiError(e).message, success := Str(""));
  }

  // ---------------------------------------------------------------------------
  // Search

  /** `(v || '').toLowerCase()` */
  function LowerText(v: Json): string {
    JsString.Lower(TextOr(v))
  }

  /** The normalised query: `searchTerm.trim().toLowerCase()`. */
  function Query(term: string): string {
    JsString.Lower(JsString.Trim(term))
  }

  /** The row filter of the table. */
  predicate Matches(u: Json, term: string) {
    var q := Query(term);
    q == "" || JsString.Contains(LowerText(Get(u, "name")), q) ||
    JsString.Contains(LowerText(Get(u, "email")), q) || JsString.Contains(LowerText(Get(u, "phone")), q)
  }

  /** The rows the search keeps, in table order. */
  function Search(users: seq<Json>, term: string): (r: seq<Json>)
    ensures forall x :: x in r <==> x in users && Matches(x, term)
    ensures Query(term) == "" ==> r == users
  {
    SeqUtil.Filter(users, x => Matches(x, term))
  }

  /** A query of spaces only shows everyone. */
  lemma QueryNormalised(u: Json, term: string)
    ensures JsString.AllWhitespace(term) ==> Matches(u, term)
  {
    JsString.TrimEmptyIffBlank(term);
  }

  // ---------------------------------------------------------------------------
  // Sort

  /** `(u.name || u.email || u.phone || '').toLowerCase()` */
  function SortKey(u: Json): string {
    LowerText(Or(Or(Get(u, "name"), Get(u, "email")), Get(u, "phone")))
  }

  /** The comparator passed to `sort`. */
  function Compare(a: Json, b: Json, asc: bool): (r: int)
    ensures r in {-1, 0, 1}
  {
    var ax, bx := SortKey(a), SortKey(b);
    if JsString.Less(ax, bx) then (if asc then -1 else 1)
    else if JsString.Less(bx, ax) then (if asc then 1 else -1)
    else 0
  }

  /** Descending is the ascending comparison negated; the comparator is
      antisymmetric; and it reports a tie exactly for equal keys. */
  lemma CompareLaws(a: Json, b: Json, asc: bool)
    ensures Compare(a, b, false) == -Compare(a, b, true)
    ensures Compare(a, b, asc) == -Compare(b, a, asc)
    ensures Compare(a, b, asc) == 0 <==> SortKey(a) == SortKey(b)
  {
    JsString.LessTotal(SortKey(a), SortKey(b));
    JsString.LessIrreflexive(SortKey(a));
    if JsString.Less(SortKey(a), SortKey(b)) {
      JsString.LessAsymmetric(SortKey(a), SortKey(b));
    }
  }

  /** `Compare(a, b) <= 0` is transitive, which is what a sort needs. */
  lemma CompareTransitive(a: Json, b: Json, c: Json, asc: bool)
    requires Compare(a, b, asc) <= 0 && Compare(b, c, asc) <= 0
    ensures Compare(a, c, asc) <= 0
  {
    var ka, kb, kc := SortKey(a), SortKey(b), SortKey(c);
    JsString.LessTotal(ka, kb);
    JsString.LessTotal(kb, kc);
    JsString.LessTotal(ka, kc);
    JsString.LessIrreflexive(ka);
    if JsString.Less(ka, kb) && JsString.Less(kb, kc) {
      JsString.LessTransitive(ka, kb, kc);
    }
    if JsString.Less(kc, kb) && JsString.Less(kb, ka) {
      JsString.LessTransitive(kc, kb, ka);
    }
    if JsString.Less(ka, kc) {
      JsString.LessAsymmetric(ka, kc);
    }
    if JsString.Less(kc, ka) {
      JsString.LessAsymmetric(kc, ka);
    }
  }

  predicate Sorted(s: seq<Json>, asc: bool) {
    forall i, j :: 0 <= i < j < |s| ==> Compare(s[i], s[j], asc) <= 0
  }

  /** Puts `x` after every element that does not sort after it. */
  function Insert(x: Json, s: seq<Json>, asc: bool): (r: seq<Json>)
    ensures multiset(r) == multiset(s) + multiset{x}
  {
    if s == [] then [x]
    else if Compare(x, s[0], asc) < 0 then [x] + s
    else
      assert s == [s[0]] + s[1..];
      [s[0]] + Insert(x, s[1..], asc)
  }

  lemma SortedCons(a: Json, s: seq<Json>, asc: bool)
    requires Sorted(s, asc)
    requires forall j :: 0 <= j < |s| ==> Compare(a, s[j], asc) <= 0
    ensures Sorted([a] + s, asc)
  {
    var r := [a] + s;
    forall i, j | 0 <= i < j < |r|
      ensures Compare(r[i], r[j], asc) <= 0
    {
      assert r[j] == s[j - 1];
      if i > 0 {
        assert r[i] == s[i - 1];
      }
    }
  }

  lemma {:induction false} InsertSorted(x: Json, s: seq<Json>, asc: bool)
    requires Sorted(s, asc)
    ensures Sorted(Insert(x, s, asc), asc)
  {
    if s == [] {
    } else if Compare(x, s[0], asc) < 0 {
      forall j | 0 <= j < |s|
        ensures Compare(x, s[j], asc) <= 0
      {
        if j > 0 {
          CompareTransitive(x, s[0], s[j], asc);
        }
      }
      SortedCons(x, s, asc);
    } else {
      InsertSorted(x, s[1..], asc);
      var tail := Insert(x, s[1..], asc);
      CompareLaws(x, s[0], asc);
      forall j | 0 <= j < |tail|
        ensures Compare(s[0], tail[j], asc) <= 0
      {
        assert tail[j] in multiset(tail);
        assert tail[j] in multiset(s[1..]) + multiset{x};
        if tail[j] != x {
          assert tail[j] in s[1..];
          var k :| 0 <= k < |s[1..]| && s[1..][k] == tail[j];
          assert s[k + 1] == tail[j];
        }
      }
      SortedCons(s[0], tail, asc);
    }
  }

  /** The table order: the users sorted by key, ascending or descending. */
  function SortUsers(users: seq<Json>, asc: bool): (r: seq<Json>)
    ensures multiset(r) == multiset(users)
    ensures Sorted(r, asc)
  {
    if users == [] then []
    else
      var init := users[..|users| - 1];
      assert users == init + [users[|users| - 1]];
      InsertSorted(users[|users| - 1], SortUsers(init, asc), asc);
      Insert(users[|users| - 1], SortUsers(init, asc), asc)
  }

  /** Sorting only reorders: the same users, each as often as before. */
  lemma SortKeepsUsers(users: seq<Json>, asc: bool, x: Json)
    ensures x in SortUsers(users, asc) <==> x in users
    ensures |SortUsers(users, asc)| == |users|
  {
    var r := SortUsers(users, asc);
    assert |multiset(r)| == |multiset(users)|;
    assert x in r <==> x in multiset(r);
    assert x in users <==> x in multiset(users);
  }

  /** The rows the table shows, in order. */
  function Rows(users: seq<Json>, term: string, asc: bool): (r: seq<Json>)
    ensures Sorted(r, asc)
    ensures forall x :: x in r <==> x in users && Matches(x, term)
  {
    var kept := Search(users, term);
    var r := SortUsers(kept, asc);
    forall x
      ensures x in r <==> x in kept
    {
      SortKeepsUsers(kept, asc, x);
    }
    r
  }

  // ---------------------------------------------------------------------------
  // Create, edit and delete

  datatype CreateForm = CreateForm(name: string, email: string, phone: string, password: string)

  const CreateFieldsRequired := "Nombre, email y contraseña son obligatorios."

  /** The guard of `handleCreate`, or the body it posts. */
  function CreateRequest(f: CreateForm): (r: Result<Json, string>)
    ensures r.Failure? <==> f.name == "" || f.email == "" || f.password == ""
    ensures r.Failure? ==> r.error == CreateFieldsRequired
    ensures r.Success? ==>
      && Get(r.value, "name") == Str(f.name) && Get(r.value, "email") == Str(f.email)
      && Get(r.value, "phone") == Str(f.phone) && Get(r.value, "password") == Str(f.password)
      && Get(r.value, "blocked") == Bool(false)
  {
    if f.name == "" || f.email == "" || f.password == "" then Failure(CreateFieldsRequired)
    else
      var fields := [("name", Str(f.name)), ("email", Str(f.email)), ("phone", Str(f.phone)),
                     ("password", Str(f.password)), ("blocked", Bool(false))];
      LookupAt(fields, 0); LookupAt(fields, 1); LookupAt(fields, 2); LookupAt(fields, 3); LookupAt(fields, 4);
      Success(Obj(fields))
  }


  /** The body says `blocked: false` and no `status`, so the new record reads
      as active. */
  lemma CreatedUserActive(f: CreateForm)
    requires CreateRequest(f).Success?
    ensures IsActive(CreateRequest(f).value)
  {
    var fields := CreateRequest(f).value.fields;
    assert forall i :: 0 <= i < |fields| ==> fields[i].0 != "status";
    LookupMissing(fields, "status");
  }

  /** The id the phone fix-up patches after sign-up, from the response body. */
  function CandidateId(data: Json): (r: Json)
    ensures data.Num? && data.n != 0 && !IsObjectLike(data) ==> r == data
  {
    var maybeUser := Or(Or(Get(data, "user"), Get(data, "data")), data);
    var fromUser := if Truthy(maybeUser) && IsObjectLike(maybeUser) then Get(maybeUser, "id") else Undefined;
    Or(Or(Or(fromUser, Get(data, "user_id")), Get(data, "id")), if data.Num? then data else Undefined)
  }

  /** The three response shapes the fix-up understands give the new id. */
  lemma CandidateIdShapes(id: int)
    requires id != 0
    ensures CandidateId(Obj([("user", Obj([("id", Num(id))]))])) == Num(id)
    ensures CandidateId(Obj([("id", Num(id))])) == Num(id)
    ensures CandidateId(Obj([("user_id", Num(id))])) == Num(id)
    ensures CandidateId(Num(id)) == Num(id)
  {
    var inner := [("id", Num(id))];
    LookupAt(inner, 0);
    var a := [("user", Obj(inner))];
    LookupAt(a, 0);
    assert Lookup(a, "data") == Lookup(a[..0], "data");
    assert Lookup(a, "user_id") == Lookup(a[..0], "user_id");
    assert Lookup(inner, "user") == Lookup(inner[..0], "user");
    assert Lookup(inner, "data") == Lookup(inner[..0], "data");
    assert Lookup(inner, "user_id") == Lookup(inner[..0], "user_id");
    var c := [("user_id", Num(id))];
    LookupAt(c, 0);
    assert Lookup(c, "user") == Lookup(c[..0], "user");
    assert Lookup(c, "data") == Lookup(c[..0], "data");
    assert Lookup(c, "id") == Lookup(c[..0], "id");
  }

  datatype EditForm = EditForm(name: string, email: string, phone: string)

  /** `handleEditStart(u)`: the edit form starts from the record's values,
      falsy ones as empty text. */
  function EditStart(u: Json): (r: (Json, EditForm))
    ensures r.0 == Get(u, "id")
    ensures Get(u, "name").Str? ==> r.1.name == Get(u, "name").s
    ensures !Truthy(Get(u, "name")) ==> r.1.name == ""
    ensures Get(u, "email").Str? ==> r.1.email == Get(u, "email").s
    ensures !Truthy(Get(u, "email")) ==> r.1.email == ""
    ensures Get(u, "phone").Str? ==> r.1.phone == Get(u, "phone").s
    ensures !Truthy(Get(u, "phone")) ==> r.1.phone == ""
  {
    (Get(u, "id"), EditForm(TextOr(Get(u, "name")), TextOr(Get(u, "email")), TextOr(Get(u, "phone"))))
  }

  /** `user && (user.role || '').toLowerCase() === 'admin' && u?.id === user?.id` */
  predicate IsCurrentAdmin(currentUser: Json, u: Json) {
    Session.IsAdmin(currentUser) && StrictEq(Get(u, "id"), Get(currentUser, "id"))
  }

  const SelfDeleteMessage := "No puedes eliminar tu usuario administrador actual."

  /** `openDeleteConfirm(u)`: either the refusal message or the record the
      confirmation dialog asks about. */
  function OpenDeleteConfirm(currentUser: Json, u: Json): (r: Result<Json, string>)
    ensures r.Failure? <==> IsCurrentAdmin(currentUser, u)
    ensures r.Failure? ==> r.error == SelfDeleteMessage
    ensures r.Success? ==> r.value == u
  {
    if IsCurrentAdmin(currentUser, u) then Failure(SelfDeleteMessage) else Success(u)
  }

  /** `prev.filter(x => x.id !== id)` */
  function WithoutId(users: seq<Json>, id: Json): (r: seq<Json>)
    ensures forall x :: x in r <==> x in users && !StrictEq(Get(x, "id"), id)
    ensures |r| <= |users|
  {
    SeqUtil.Filter(users, x => !StrictEq(Get(x, "id"), id))
  }

  const DeletedMessage := "Usuario eliminado."
  const DeleteFailedMessage := "No se pudo eliminar el usuario"

  /** `handleDeleteConfirmed`, given how `userAPI.deleteUser` ended.  Without
      an id, or for the signed-in admin, nothing changes.  Otherwise both
      banners are cleared; an accepted deletion removes the records with that
      id, abandons an edit of that record and reports it; a failed one keeps
      the table and shows `handleAPIError`'s message, or a fallback. */
  function DeleteConfirmed(t: Table, currentUser: Json, u: Json, del: Catalog.Fetch): (r: Table)
    ensures !Truthy(Get(u, "id")) || IsCurrentAdmin(currentUser, u) ==> r == t
    ensures Truthy(Get(u, "id")) && !IsCurrentAdmin(currentUser, u) && del.Responded? ==>
      && (forall x :: x in r.users <==> x in t.users && !StrictEq(Get(x, "id"), Get(u, "id")))
      && r.editingId == (if StrictEq(t.editingId, Get(u, "id")) then Null else t.editingId)
      && r.error == Str("") && r.success == Str(DeletedMessage)
    ensures Truthy(Get(u, "id")) && !IsCurrentAdmin(currentUser, u) && del.Threw? ==>
      r == t.(error := Api.ErrorText(del.error, DeleteFailedMessage), success := Str(""))
  {
    if !Truthy(Get(u, "id")) || IsCurrentAdmin(currentUser, u) then t
    else
      var id := Get(u, "id");
      match del
      case Responded(_) =>
        Table(WithoutId(t.users, id), if StrictEq(t.editingId, id) then Null else t.editingId, Str(""), Str(DeletedMessage))
      case Threw(e) => t.(error := Api.ErrorText(e, DeleteFailedMessage), success := Str(""))
  }

  /** The signed-in admin's own record is never removed by a deletion,
      whatever the request's outcome. */
  lemma AdminNeverDeletesSelf(t: Table, currentUser: Json, u: Json, x: Json, del: Catalog.Fetch)
    requires Session.IsAdmin(currentUser)
    requires x in t.users && StrictEq(Get(x, "id"), Get(currentUser, "id"))
    ensures x in DeleteConfirmed(t, currentUser, u, del).users
  {
    if Truthy(Get(u, "id")) && !IsCurrentAdmin(currentUser, u) && del.Responded? {
      StrictEqIsEquality(Get(x, "id"), Get(currentUser, "id"));
      if StrictEq(Get(x, "id"), Get(u, "id")) {
        StrictEqIsEquality(Get(x, "id"), Get(u, "id"));
      }
    }
  }

  /** As written `userAPI` has no `deleteUser`: a confirmed deletion always
      fails with the engine's message and the user stays in the table. */
  lemma DeleteAsWritten(t: Table, currentUser: Json, u: Json, settled: Catalog.Fetch)
    requires Truthy(Get(u, "id")) && !IsCurrentAdmin(currentUser, u)
    ensures DeleteConfirmed(t, currentUser, u, Endpoints.Await(Endpoints.Invoke(Endpoints.UserApiAsWritten, "userAPI", "deleteUser", settled)))
      == t.(error := Str(Endpoints.NotAFunctionText("userAPI", "deleteUser")), success := Str(""))
  {
    Endpoints.AdminUserCallsThrow("deleteUser", settled);
    Endpoints.NotAFunctionReported("userAPI", "deleteUser");
  }

  /** With `deleteUser` defined, an accepted deletion removes the user. */
  lemma DeleteIntended(t: Table, currentUser: Json, u: Json, response: Json)
    requires Truthy(Get(u, "id")) && !IsCurrentAdmin(currentUser, u)
    ensures var r := DeleteConfirmed(t, currentUser, u, Endpoints.Await(Endpoints.Invoke(Endpoints.UserApi, "userAPI", "deleteUser", Catalog.Responded(response))));
      && (forall x :: x in r.users ==> !StrictEq(Get(x, "id"), Get(u, "id")))
      && r.success == Str(DeletedMessage)
  {
    Endpoints.AdminUserCallsSent("deleteUser", Catalog.Responded(response));
  }

  /** The page itself is shown only to an admin. */
  predicate PageAllowed(currentUser: Json) {
    Session.IsAdmin(currentUser)
  }
}

=== FILE: api.dfy ===
/** The request/response rules of `src/utils/api.js`: the request interceptor
    that attaches the stored token, the general API's 401 handler, `logout`,
    and `handleAPIError`, which turns any thrown error into a message and a
    status.  Browser storage is a map from key to string. */
module Api {
  import opened JsValue

  type Storage = map<string, string>

  /** The part of an axios request config the interceptor touches. */
  datatype Config = Config(headers: map<string, string>)

  /** The token `localStorage.getItem('token')` returns, when it is truthy. */
  predicate HasToken(storage: Storage) {
    "token" in storage && storage["token"] != ""
  }

  /** `attachToken(config)` */
  function AttachToken(config: Config, storage: Storage): (r: Config)
    ensures HasToken(storage) ==> r.headers == config.headers["Authorization" := "Bearer " + storage["token"]]
    ensures !HasToken(storage) ==> r == config
  {
    if HasToken(storage) then Config(config.headers["Authorization" := "Bearer " + storage["token"]])
    else config
  }

  /** Attaching twice is attaching once: the header is overwritten with the
      same value and nothing else moves. */
  lemma AttachTokenIdempotent(config: Config, storage: Storage)
    ensures AttachToken(AttachToken(config, storage), storage) == AttachToken(config, storage)
    ensures forall h :: h in config.headers && h != "Authorization" ==>
      h in AttachToken(config, storage).headers && AttachToken(config, storage).headers[h] == config.headers[h]
  {
  }

  /** `authAPI.logout()` */
  function Logout(storage: Storage): (r: Storage)
    ensures r.Keys == storage.Keys - {"token", "user"}
    ensures forall k :: k in r ==> r[k] == storage[k]
  {
    storage - {"token", "user"}
  }

  /** After logging out no request carries a token. */
  lemma LogoutDropsAuthorization(config: Config, storage: Storage)
    ensures AttachToken(config, Logout(storage)) == config
  {
  }

  /** The two axios instances: only the general one has the 401 handler. */
  datatype Instance = General | Auth

  /** `error.response?.status === 401` */
  predicate IsUnauthorized(error: Json) {
    StrictEq(Get(Get(error, "response"), "status"), Num(401))
  }

  /** The response-error interceptor's effect on storage (the redirect to
      `/login` is left out).  The error itself is passed on unchanged. */
  function OnResponseError(instance: Instance, storage: Storage, error: Json): (r: Storage)
    ensures instance == General && IsUnauthorized(error) ==> r == Logout(storage)
    ensures instance == Auth || !IsUnauthorized(error) ==> r == storage
  {
    if instance == General && IsUnauthorized(error) then Logout(storage) else storage
  }

  /** What `handleAPIError` returns.  `data` is `Undefined` when the object
      has no `data` property. */
  datatype ErrorInfo = ErrorInfo(message: Json, status: Json, data: Json)

  const ServerErrorMessage := "Error del servidor"
  const ConnectionErrorMessage := "Error de conexión. Verifica tu conexión a internet."
  const UnknownErrorMessage := "Error desconocido"

  /** The three kinds of failure `handleAPIError` tells apart, in its order of
      precedence. */
  datatype ErrorKind = ServerResponse | NoResponse | LocalFailure

  function Classify(error: Json): ErrorKind {
    if Truthy(Get(error, "response")) then ServerResponse
    else if Truthy(Get(error, "request")) then NoResponse
    else LocalFailure
  }

  /** `handleAPIError(error)` */
  function HandleApiError(error: Json): (r: ErrorInfo)
    ensures Classify(error) == ServerResponse ==>
      var response := Get(error, "response");
      && r.message == Or(Get(Get(response, "data"), "message"), Str(ServerErrorMessage))
      && r.status == Get(response, "status")
      && r.data == Get(response, "data")
    ensures Classify(error) == NoResponse ==>
      r == ErrorInfo(Str(ConnectionErrorMessage), Num(0), Undefined)
    ensures Classify(error) == LocalFailure ==>
      r == ErrorInfo(Or(Get(error, "message"), Str(UnknownErrorMessage)), Num(-1), Undefined)
    ensures Truthy(r.message)
  {
    var response := Get(error, "response");
    if Truthy(response) then
      ErrorInfo(Or(Get(Get(response, "data"), "message"), Str(ServerErrorMessage)),
                Get(response, "status"), Get(response, "data"))
    else if Truthy(Get(error, "request")) then
      ErrorInfo(Str(ConnectionErrorMessage), Num(0), Undefined)
    else
      ErrorInfo(Or(Get(error, "message"), Str(UnknownErrorMessage)), Num(-1), Undefined)
  }

  /** `handleAPIError(error).message || fallback`, the text every page shows
      for a failed request: the fallback is never reached. */
  function ErrorText(error: Json, fallback: string): (r: Json)
    ensures r == HandleApiError(error).message && Truthy(r)
  {
    Or(HandleApiError(error).message, Str(fallback))
  }

  /** `new Error(message)`, as the pages throw for their own validation. */
  function LocalError(message: string): Json {
    Obj([("message", Str(message))])
  }

  /** An error thrown by the page itself reaches the user with its own
      message and status -1; a response, even with a request attached, is
      always reported with the server's status. */
  lemma HandleLocalError(message: string)
    requires message != ""
    ensures HandleApiError(LocalError(message)) == ErrorInfo(Str(message), Num(-1), Undefined)
  {
    var fields := [("message", Str(message))];
    assert fields[..0] == [];
    assert Lookup(fields, "message") == Str(message);
    assert Lookup(fields, "response") == Undefined;
    assert Lookup(fields, "request") == Undefined;
    assert Get(LocalError(message), "message") == Str(message);
  }

  /** Status 0 and -1 come only from their own branch when the server's status
      is a normal HTTP code (at least 100). */
  lemma StatusesDistinguishKinds(error: Json)
    requires Classify(error) == ServerResponse ==>
               Get(Get(error, "response"), "status").Num? && Get(Get(error, "response"), "status").n >= 100
    ensures HandleApiError(error).status == Num(0) <==> Classify(error) == NoResponse
    ensures HandleApiError(error).status == Num(-1) <==> Classify(error) == LocalFailure
  {
  }
}

=== FILE: cart.dfy ===
/** The local shopping cart of `src/utils/cart.js`: a list of items kept in
    browser storage under the key `cart`, unique by `id`, with add, remove,
    set-quantity, clear, count and total.

    Storage is a plain value (`Stored`); every operation that reads the cart
    goes through `GetCart`, and every one that writes it through `SaveCart`.
    The operations below work on the list `GetCart` produces. */
module Cart {
  import opened Optional
  import opened JsValue

  /** One cart entry: the three properties the cart reads, plus every other
      property the page stored with it (name, image, duration, ...). */
  datatype Item = Item(id: Json, price: Json, quantity: Option<int>, extra: seq<(string, Json)>)

  /** What `localStorage.getItem('cart')` yields once `JSON.parse` has run:
      nothing (or an empty string), text that does not parse, or a value. */
  datatype Stored = Absent | Unparseable | Parsed(value: Json)

  predicate IsItemKey(k: string) {
    k == "id" || k == "price" || k == "quantity"
  }

  function ExtraFields(fields: seq<(string, Json)>): (r: seq<(string, Json)>)
    ensures forall i :: 0 <= i < |r| ==> !IsItemKey(r[i].0)
  {
    if fields == [] then []
    else if IsItemKey(fields[0].0) then ExtraFields(fields[1..])
    else [fields[0]] + ExtraFields(fields[1..])
  }

  /** Reading an entry of the stored array: a missing or non-numeric
      `quantity` is absent. */
  function ItemFromJson(j: Json): Item {
    var q := match Get(j, "quantity") case Num(n) => Some(n) case _ => None;
    Item(Get(j, "id"), Get(j, "price"), q, if j.Obj? then ExtraFields(j.fields) else [])
  }

  function ItemToJson(it: Item): Json {
    var q := match it.quantity case Some(n) => [("quantity", Num(n))] case None => [];
    Obj([("id", it.id), ("price", it.price)] + q + it.extra)
  }

  /** An item the cart itself could have written: its other properties do not
      shadow the three it reads. */
  predicate WellFormed(it: Item) {
    forall i :: 0 <= i < |it.extra| ==> !IsItemKey(it.extra[i].0)
  }

  /** `getCart()`: anything but a stored array reads as the empty cart. */
  function GetCart(s: Stored): (c: seq<Item>)
    ensures !(s.Parsed? && s.value.Arr?) ==> c == []
    ensures s.Parsed? && s.value.Arr? ==> |c| == |s.value.items|
  {
    match s
    case Parsed(Arr(xs)) => seq(|xs|, i requires 0 <= i < |xs| => ItemFromJson(xs[i]))
    case _ => []
  }

  /** `saveCart(items)` */
  function SaveCart(c: seq<Item>): (s: Stored)
    ensures s.Parsed? && s.value.Arr? && |s.value.items| == |c|
  {
    Parsed(Arr(seq(|c|, i requires 0 <= i < |c| => ItemToJson(c[i]))))
  }

  lemma {:induction false} LookupPastExtras(head: seq<(string, Json)>, extra: seq<(string, Json)>, key: string)
    requires IsItemKey(key)
    requires forall i :: 0 <= i < |extra| ==> !IsItemKey(extra[i].0)
    ensures Lookup(head + extra, key) == Lookup(head, key)
  {
    if extra != [] {
      var init := extra[..|extra| - 1];
      assert (head + extra)[..|head + extra| - 1] == head + init;
      LookupPastExtras(head, init, key);
    } else {
      assert head + extra == head;
    }
  }

  lemma {:induction false} ExtraFieldsOfExtras(head: seq<(string, Json)>, extra: seq<(string, Json)>)
    requires forall i :: 0 <= i < |head| ==> IsItemKey(head[i].0)
    requires forall i :: 0 <= i < |extra| ==> !IsItemKey(extra[i].0)
    ensures ExtraFields(head + extra) == extra
  {
    if head != [] {
      assert (head + extra)[1..] == head[1..] + extra;
      ExtraFieldsOfExtras(head[1..], extra);
    } else if extra != [] {
      assert head + extra == extra;
      ExtraFieldsOfExtras([], extra[1..]);
      assert [] + extra[1..] == extra[1..];
    }
  }

  lemma ItemRoundTrip(it: Item)
    requires WellFormed(it)
    ensures ItemFromJson(ItemToJson(it)) == it
  {
    var q: seq<(string, Json)> := match it.quantity case Some(n) => [("quantity", Num(n))] case None => [];
    var head := [("id", it.id), ("price", it.price)] + q;
    assert ItemToJson(it).fields == head + it.extra;
    var pair := [("id", it.id), ("price", it.price)];
    assert pair[..1] == [("id", it.id)];
    assert Lookup(pair, "id") == it.id;
    assert Lookup(pair, "price") == it.price;
    assert Lookup(pair[..1], "quantity") == Lookup([], "quantity") by {
      assert pair[..1][..0] == [];
    }
    if q != [] {
      assert head[..|head| - 1] == pair;
    } else {
      assert head == pair;
    }
    LookupPastExtras(head, it.extra, "id");
    LookupPastExtras(head, it.extra, "price");
    LookupPastExtras(head, it.extra, "quantity");
    ExtraFieldsOfExtras(head, it.extra);
  }

  /** Saving a cart and reading it back gives the same cart. */
  lemma SaveThenGet(c: seq<Item>)
    requires forall i :: 0 <= i < |c| ==> WellFormed(c[i])
    ensures GetCart(SaveCart(c)) == c
  {
    forall i | 0 <= i < |c|
      ensures GetCart(SaveCart(c))[i] == c[i]
    {
      ItemRoundTrip(c[i]);
    }
  }

  // ---------------------------------------------------------------------------
  // Operations

  /** `cart.findIndex((i) => i.id === id)` */
  function FindIndex(c: seq<Item>, id: Json): (r: Option<nat>)
    ensures r.Some? ==> r.value < |c| && StrictEq(c[r.value].id, id)
    ensures r.Some? ==> forall j :: 0 <= j < r.value ==> !StrictEq(c[j].id, id)
    ensures r.None? ==> forall j :: 0 <= j < |c| ==> !StrictEq(c[j].id, id)
  {
    if c == [] then None
    else if StrictEq(c[0].id, id) then Some(0)
    else match FindIndex(c[1..], id)
      case Some(k) => Some(k + 1)
      case None => None
  }

  /** `i.quantity || 1` */
  function Qty(it: Item): int {
    match it.quantity
    case Some(q) => if q != 0 then q else 1
    case None => 1
  }

  /** The entry `addItem` appends: `{...item, quantity}`. */
  function NewEntry(item: Json, quantity: int): Item {
    ItemFromJson(item).(quantity := Some(quantity))
  }

  /** `addItem(item, quantity)` */
  function AddItem(c: seq<Item>, item: Json, quantity: int): (r: seq<Item>)
    ensures !Truthy(item) || !Truthy(Get(item, "id")) ==> r == c
    ensures Truthy(item) && Truthy(Get(item, "id")) ==>
      match FindIndex(c, Get(item, "id"))
      case Some(k) =>
        && |r| == |c|
        && r[k] == c[k].(quantity := Some(Qty(c[k]) + quantity))
        && forall j :: 0 <= j < |c| && j != k ==> r[j] == c[j]
      case None =>
        r == c + [NewEntry(item, quantity)]
  {
    if !Truthy(item) || !Truthy(Get(item, "id")) then c
    else match FindIndex(c, Get(item, "id"))
      case Some(k) => c[k := c[k].(quantity := Some(Qty(c[k]) + quantity))]
      case None => c + [NewEntry(item, quantity)]
  }

  /** `getCart().filter((i) => i.id !== id)` */
  function RemoveItem(c: seq<Item>, id: Json): (r: seq<Item>)
    ensures |r| <= |c|
    ensures forall x :: x in r ==> x in c && !StrictEq(x.id, id)
    ensures forall x :: x in c && !StrictEq(x.id, id) ==> x in r
  {
    if c == [] then []
    else if StrictEq(c[0].id, id) then RemoveItem(c[1..], id)
    else [c[0]] + RemoveItem(c[1..], id)
  }

  /** `clearCart()` */
  function ClearCart(): (r: seq<Item>)
    ensures |r| == 0 && Count(r) == 0 && Total(r) == 0
  {
    []
  }

  /** `Math.max(1, Number(quantity) || 1)` */
  function ClampQuantity(quantity: Json): (q: int)
    ensures q >= 1
    ensures NumberOr(quantity, 1) >= 1 ==> q == NumberOr(quantity, 1)
    ensures NumberOr(quantity, 1) < 1 ==> q == 1
  {
    var n := NumberOr(quantity, 1);
    if n > 1 then n else 1
  }

  /** `setQuantity(id, quantity)` */
  function SetQuantity(c: seq<Item>, id: Json, quantity: Json): (r: seq<Item>)
    ensures FindIndex(c, id).None? ==> r == c
    ensures FindIndex(c, id).Some? ==>
      var k := FindIndex(c, id).value;
      && |r| == |c|
      && r[k] == c[k].(quantity := Some(ClampQuantity(quantity)))
      && r[k].quantity.value >= 1
      && forall j :: 0 <= j < |c| && j != k ==> r[j] == c[j]
  {
    match FindIndex(c, id)
    case Some(k) => c[k := c[k].(quantity := Some(ClampQuantity(quantity)))]
    case None => c
  }

  /** The sum of `f` over the entries, as `reduce` computes it. */
  function Sum(c: seq<Item>, f: Item -> int): int {
    if c == [] then 0 else f(c[0]) + Sum(c[1..], f)
  }

  lemma SumSingle(c: seq<Item>, f: Item -> int)
    requires |c| == 1
    ensures Sum(c, f) == f(c[0])
  {
    assert c[1..] == [];
  }

  /** `getCount()`: an entry without a quantity, or with quantity 0, counts
      as one unit. */
  function Count(c: seq<Item>): (r: int)
    ensures c == [] ==> r == 0
    ensures |c| == 1 ==> r == (if c[0].quantity.Some? && c[0].quantity.value != 0 then c[0].quantity.value else 1)
  {
    if |c| == 1 then SumSingle(c, Qty); Sum(c, Qty) else Sum(c, Qty)
  }

  /** `(Number(i.price) || 0) * (i.quantity || 1)` */
  function LineTotal(it: Item): int {
    NumberOr(it.price, 0) * Qty(it)
  }

  /** `getTotal()`: a price that is not a number counts as 0. */
  function Total(c: seq<Item>): (r: int)
    ensures c == [] ==> r == 0
    ensures |c| == 1 ==> r == NumberOr(c[0].price, 0) * Qty(c[0])
  {
    if |c| == 1 then SumSingle(c, LineTotal); Sum(c, LineTotal) else Sum(c, LineTotal)
  }

  // ---------------------------------------------------------------------------
  // Invariants and properties

  /** No two entries have strictly equal ids. */
  predicate UniqueIds(c: seq<Item>) {
    forall i, j :: 0 <= i < j < |c| ==> !StrictEq(c[i].id, c[j].id)
  }

  /** Every stored quantity is at least 1 (or absent, which counts as 1). */
  predicate PositiveQuantities(c: seq<Item>) {
    forall i :: 0 <= i < |c| ==> c[i].quantity.None? || c[i].quantity.value >= 1
  }

  lemma AddItemKeepsUniqueIds(c: seq<Item>, item: Json, quantity: int)
    requires UniqueIds(c)
    ensures UniqueIds(AddItem(c, item, quantity))
  {
    var r := AddItem(c, item, quantity);
    if Truthy(item) && Truthy(Get(item, "id")) && FindIndex(c, Get(item, "id")).None? {
      forall i, j | 0 <= i < j < |r|
        ensures !StrictEq(r[i].id, r[j].id)
      {
        if j == |c| {
          assert r[j].id == Get(item, "id");
          StrictEqSymmetric(c[i].id, Get(item, "id"));
        }
      }
    }
  }

  lemma UniqueIdsTail(c: seq<Item>)
    requires UniqueIds(c) && c != []
    ensures UniqueIds(c[1..])
    ensures forall y :: y in c[1..] ==> !StrictEq(c[0].id, y.id)
  {
    forall i, j | 0 <= i < j < |c[1..]|
      ensures !StrictEq(c[1..][i].id, c[1..][j].id)
    {
      assert c[1..][i] == c[i + 1] && c[1..][j] == c[j + 1];
    }
    forall y | y in c[1..]
      ensures !StrictEq(c[0].id, y.id)
    {
      var k :| 0 <= k < |c[1..]| && c[1..][k] == y;
      assert c[k + 1] == y;
    }
  }

  lemma UniqueIdsCons(x: Item, tail: seq<Item>)
    requires UniqueIds(tail)
    requires forall y :: y in tail ==> !StrictEq(x.id, y.id)
    ensures UniqueIds([x] + tail)
  {
    var r := [x] + tail;
    forall i, j | 0 <= i < j < |r|
      ensures !StrictEq(r[i].id, r[j].id)
    {
      assert r[j] == tail[j - 1];
      if i > 0 {
        assert r[i] == tail[i - 1];
      }
    }
  }

  lemma {:induction false} RemoveItemKeepsUniqueIds(c: seq<Item>, id: Json)
    requires UniqueIds(c)
    ensures UniqueIds(RemoveItem(c, id))
  {
    if c != [] {
      UniqueIdsTail(c);
      RemoveItemKeepsUniqueIds(c[1..], id);
      var tail := RemoveItem(c[1..], id);
      if !StrictEq(c[0].id, id) {
        UniqueIdsCons(c[0], tail);
      }
    }
  }

  lemma SetQuantityKeepsUniqueIds(c: seq<Item>, id: Json, quantity: Json)
    requires UniqueIds(c)
    ensures UniqueIds(SetQuantity(c, id, quantity))
  {
  }

  lemma ClearCartIsEmpty()
    ensures ClearCart() == [] && UniqueIds(ClearCart())
    ensures Count(ClearCart()) == 0 && Total(ClearCart()) == 0
  {
  }

  lemma AddItemKeepsPositive(c: seq<Item>, item: Json, quantity: int)
    requires PositiveQuantities(c) && quantity >= 1
    ensures PositiveQuantities(AddItem(c, item, quantity))
  {
  }

  lemma SetQuantityKeepsPositive(c: seq<Item>, id: Json, quantity: Json)
    requires PositiveQuantities(c)
    ensures PositiveQuantities(SetQuantity(c, id, quantity))
  {
  }

  /** Removing keeps the order of what stays: it distributes over
      concatenation, so the result is the input with the matching entries cut
      out and nothing moved. */
  lemma {:induction false} RemoveItemDistributes(a: seq<Item>, b: seq<Item>, id: Json)
    ensures RemoveItem(a + b, id) == RemoveItem(a, id) + RemoveItem(b, id)
  {
    if a == [] {
      assert a + b == b;
    } else {
      assert (a + b)[0] == a[0];
      assert (a + b)[1..] == a[1..] + b;
      RemoveItemDistributes(a[1..], b, id);
    }
  }

  /** Removing an id no entry has leaves the cart as it was. */
  lemma {:induction false} RemoveAbsentIsIdentity(c: seq<Item>, id: Json)
    requires FindIndex(c, id).None?
    ensures RemoveItem(c, id) == c
  {
    if c != [] {
      assert FindIndex(c[1..], id).None?;
      RemoveAbsentIsIdentity(c[1..], id);
    }
  }

  lemma {:induction false} SumAppend(a: seq<Item>, b: seq<Item>, f: Item -> int)
    ensures Sum(a + b, f) == Sum(a, f) + Sum(b, f)
  {
    if a == [] {
      assert a + b == b;
    } else {
      assert (a + b)[1..] == a[1..] + b;
      SumAppend(a[1..], b, f);
    }
  }

  lemma {:induction false} SumUpdate(c: seq<Item>, k: nat, x: Item, f: Item -> int)
    requires k < |c|
    ensures Sum(c[k := x], f) == Sum(c, f) - f(c[k]) + f(x)
  {
    if k == 0 {
      assert c[k := x][1..] == c[1..];
    } else {
      assert c[k := x][1..] == c[1..][k - 1 := x];
      SumUpdate(c[1..], k - 1, x, f);
    }
  }

  /** Adding `quantity` (at least 1) of an item with an id raises the count by
      exactly `quantity`, whether the item was new or already in the cart. */
  lemma AddItemCount(c: seq<Item>, item: Json, quantity: int)
    requires PositiveQuantities(c) && quantity >= 1
    requires Truthy(item) && Truthy(Get(item, "id"))
    ensures Count(AddItem(c, item, quantity)) == Count(c) + quantity
  {
    match FindIndex(c, Get(item, "id"))
    case Some(k) =>
      SumUpdate(c, k, c[k].(quantity := Some(Qty(c[k]) + quantity)), Qty);
    case None =>
      SumAppend(c, [NewEntry(item, quantity)], Qty);
  }

  /** An item with a falsy id, or no item, never changes the count or total. */
  lemma AddItemWithoutIdChangesNothing(c: seq<Item>, item: Json, quantity: int)
    requires !Truthy(Get(item, "id"))
    ensures Count(AddItem(c, item, quantity)) == Count(c)
    ensures Total(AddItem(c, item, quantity)) == Total(c)
  {
  }

  /** Adding to an entry already present raises the total by its unit price
      times the added quantity. */
  lemma AddExistingTotal(c: seq<Item>, item: Json, quantity: int)
    requires PositiveQuantities(c) && quantity >= 1
    requires Truthy(item) && Truthy(Get(item, "id"))
    requires FindIndex(c, Get(item, "id")).Some?
    ensures var k := FindIndex(c, Get(item, "id")).value;
      Total(AddItem(c, item, quantity)) == Total(c) + NumberOr(c[k].price, 0) * quantity
  {
    var k := FindIndex(c, Get(item, "id")).value;
    var x := c[k].(quantity := Some(Qty(c[k]) + quantity));
    assert AddItem(c, item, quantity) == c[k := x];
    assert Qty(c[k]) >= 1;
    RaisedLineTotal(c[k], quantity);
    SumUpdate(c, k, x, LineTotal);
  }

  /** Raising an entry's quantity raises its line total by the unit price
      times the added quantity. */
  lemma RaisedLineTotal(it: Item, quantity: int)
    requires Qty(it) >= 1 && quantity >= 1
    ensures LineTotal(it.(quantity := Some(Qty(it) + quantity))) == LineTotal(it) + NumberOr(it.price, 0) * quantity
  {
    var p := NumberOr(it.price, 0);
    assert p * (Qty(it) + quantity) == p * Qty(it) + p * quantity;
  }

  /** Count and total add up entry by entry: those of a concatenation are the
      sums of those of its parts, so they do not depend on how the cart is
      split. */
  lemma CountTotalAppend(a: seq<Item>, b: seq<Item>)
    ensures Count(a + b) == Count(a) + Count(b)
    ensures Total(a + b) == Total(a) + Total(b)
  {
    SumAppend(a, b, Qty);
    SumAppend(a, b, LineTotal);
  }

  /** With positive quantities the count is at least the number of entries. */
  lemma {:induction false} CountAtLeastLength(c: seq<Item>)
    requires PositiveQuantities(c)
    ensures Count(c) >= |c|
  {
    if c != [] {
      assert PositiveQuantities(c[1..]) by {
        forall i | 0 <= i < |c[1..]|
          ensures c[1..][i].quantity.None? || c[1..][i].quantity.value >= 1
        {
          assert c[1..][i] == c[i + 1];
        }
      }
      CountAtLeastLength(c[1..]);
    }
  }
}

=== FILE: catalog.dfy ===
/** What the service pages share: the image source a page shows for a
    service's `image` value (`buildImageSrc`, written out the same way in
    `Home.jsx`, `ServicioDetalle.jsx`, `AdminServicios.jsx` and
    `MisReservas.jsx`; the copy in `Servicios.jsx` first unwraps an array and
    is `ListImageSrc`), the way a backend service record is normalised, and
    the outcome of a request. */
module Catalog {
  import opened JsValue

  /** The picture shown when a service has no usable image. */
  const Placeholder := "/img/CorteBanio.jpeg"

  /** `image.url || image.full_url || image.download_url || image.link` */
  function DirectUrl(image: Json): Json {
    Or(Or(Or(Get(image, "url"), Get(image, "full_url")), Get(image, "download_url")), Get(image, "link"))
  }

  /** `image.path || image?.file?.path || image?.data?.path || image?.file_path` */
  function FilePath(image: Json): Json {
    Or(Or(Or(Get(image, "path"), Get(Get(image, "file"), "path")), Get(Get(image, "data"), "path")), Get(image, "file_path"))
  }

  /** `buildImageSrc(image)`.  `base` is the file host the build chooses
      (`/xano-general` in development, the configured URL or '' otherwise). */
  function ImageSrc(image: Json, base: string): (r: Json)
    ensures Truthy(r)
    ensures !Truthy(image) ==> r == Str(Placeholder)
    ensures image.Str? && Truthy(image) ==> r == image
    ensures !image.Str? && !image.Obj? ==> r == Str(Placeholder)
    ensures image.Obj? && Truthy(DirectUrl(image)) ==> r == DirectUrl(image)
    ensures image.Obj? && !Truthy(DirectUrl(image)) && Truthy(FilePath(image)) ==>
      r == Str(base + "/file/" + ToJsString(FilePath(image)))
    ensures image.Obj? && !Truthy(DirectUrl(image)) && !Truthy(FilePath(image)) ==> r == Str(Placeholder)
    ensures r == image || r == DirectUrl(image) || r == Str(Placeholder)
      || r == Str(base + "/file/" + ToJsString(FilePath(image)))
  {
    if !Truthy(image) then Str(Placeholder)
    else if image.Str? then image
    else if Truthy(DirectUrl(image)) then DirectUrl(image)
    else if Truthy(FilePath(image)) then Str(base + "/file/" + ToJsString(FilePath(image)))
    else Str(Placeholder)
  }

  /** A Xano file record is shown by its direct URL when it has one, and
      otherwise by its storage path under the file host; a record with
      neither shows the placeholder.  A source that is already text is shown
      as it is, so rendering a rendered source changes nothing. */
  lemma ImageSrcCases(fields: seq<(string, Json)>, base: string)
    ensures Truthy(DirectUrl(Obj(fields))) ==> ImageSrc(Obj(fields), base) == DirectUrl(Obj(fields))
    ensures !Truthy(DirectUrl(Obj(fields))) && Truthy(FilePath(Obj(fields))) ==>
      ImageSrc(Obj(fields), base) == Str(base + "/file/" + ToJsString(FilePath(Obj(fields))))
    ensures !Truthy(DirectUrl(Obj(fields))) && !Truthy(FilePath(Obj(fields))) ==>
      ImageSrc(Obj(fields), base) == Str(Placeholder)
  {
  }

  lemma ImageSrcIdempotent(image: Json, base: string)
    requires ImageSrc(image, base).Str?
    ensures ImageSrc(ImageSrc(image, base), base) == ImageSrc(image, base)
  {
  }

  /** A record holding only a storage path `p` is served from
      `<base>/file/<p>`. */
  lemma PathRecordSrc(p: string, base: string)
    requires p != ""
    ensures ImageSrc(Obj([("path", Str(p))]), base) == Str(base + "/file/" + p)
  {
    var fs := [("path", Str(p))];
    LookupAt(fs, 0);
    assert !HasKey(fs, "url") && !HasKey(fs, "full_url") && !HasKey(fs, "download_url") && !HasKey(fs, "link");
    LookupMissing(fs, "url");
    LookupMissing(fs, "full_url");
    LookupMissing(fs, "download_url");
    LookupMissing(fs, "link");
  }

  /** The catalogue page's variant, which first takes the first element of an
      array. */
  function ListImageSrc(image: Json, base: string): (r: Json)
    ensures Truthy(r)
    ensures !image.Arr? ==> r == ImageSrc(image, base)
    ensures image.Arr? && |image.items| > 0 ==> r == ImageSrc(image.items[0], base)
    ensures image == Arr([]) ==> r == Str(Placeholder)
  {
    if image.Arr? then
      ImageSrc(if |image.items| > 0 then image.items[0] else Undefined, base)
    else ImageSrc(image, base)
  }

  // ---------------------------------------------------------------------------
  // Service records

  /** A service as the pages hold it.  `isSpecial` is only ever set on the
      built-in example catalogue. */
  datatype Service = Service(
    id: Json, name: Json, description: Json, price: Json,
    duration: Json, image: Json, images: Json, isSpecial: bool)

  /** `first ?? second ?? fallback`, case by case: the first of the two
      values that is neither `null` nor `undefined`, and the fallback when
      both are. */
  predicate FallsBack(v: Json, first: Json, second: Json, fallback: Json) {
    && (!IsNullish(first) ==> v == first)
    && (IsNullish(first) && !IsNullish(second) ==> v == second)
    && (IsNullish(first) && IsNullish(second) ==> v == fallback)
  }

  /** The normalisation `Servicios.jsx` applies to each backend record:
      every field falls back with `??`, so a present but falsy value (a price
      of 0, an empty name) is kept.  `fallbackId` is what stands in for a
      missing id (`Math.random()` on the lists, the route id on the detail
      page). */
  function NormalizeService(item: Json, fallbackId: Json): (r: Service)
    ensures FallsBack(r.id, Get(item, "id"), Get(item, "service_id"), fallbackId)
    ensures FallsBack(r.name, Get(item, "name"), Get(item, "title"), Str("Servicio"))
    ensures FallsBack(r.description, Get(item, "description"), Get(item, "detail"), Str("Sin descripción"))
    ensures FallsBack(r.price, Get(item, "price"), Undefined, Num(0))
    ensures FallsBack(r.duration, Get(item, "estimated_duration"), Get(item, "duration"), Num(60))
    ensures FallsBack(r.image, Get(item, "image"), Undefined, Null)
    ensures !IsNullish(Get(item, "images")) ==> r.images == Get(item, "images")
    ensures IsNullish(Get(item, "images")) && Truthy(Get(item, "image")) ==> r.images == Arr([Get(item, "image")])
    ensures IsNullish(Get(item, "images")) && !Truthy(Get(item, "image")) ==> r.images == Arr([])
    ensures !r.isSpecial
  {
    var image := Coalesce(Get(item, "image"), Null);
    Service(
      Coalesce(Coalesce(Get(item, "id"), Get(item, "service_id")), fallbackId),
      Coalesce(Coalesce(Get(item, "name"), Get(item, "title")), Str("Servicio")),
      Coalesce(Coalesce(Get(item, "description"), Get(item, "detail")), Str("Sin descripción")),
      Coalesce(Get(item, "price"), Num(0)),
      Coalesce(Coalesce(Get(item, "estimated_duration"), Get(item, "duration")), Num(60)),
      image,
      Coalesce(Get(item, "images"), if Truthy(Get(item, "image")) then Arr([Get(item, "image")]) else Arr([])),
      false)
  }

  /** Every field a normalised record shows is set: nothing the page reads
      is left `null` or `undefined` except a missing picture, which is
      `null`. */
  lemma NormalizeFillsFields(item: Json, fallbackId: Json)
    ensures var r := NormalizeService(item, fallbackId);
      && (!IsNullish(fallbackId) ==> !IsNullish(r.id))
      && !IsNullish(r.name) && !IsNullish(r.description) && !IsNullish(r.price) && !IsNullish(r.duration)
      && !r.image.Undefined? && !IsNullish(r.images)
  {
  }

  /** A normalised record written back with the backend's field names. */
  function AsRecord(s: Service): (r: Json)
    ensures r.Obj? && |r.fields| == 7
  {
    Obj([("id", s.id), ("name", s.name), ("description", s.description), ("price", s.price),
         ("estimated_duration", s.duration), ("image", s.image), ("images", s.images)])
  }

  /** Reading back each backend field of `AsRecord(s)`. */
  lemma AsRecordFields(s: Service)
    ensures var o := AsRecord(s);
      && Get(o, "id") == s.id && Get(o, "name") == s.name && Get(o, "description") == s.description
      && Get(o, "price") == s.price && Get(o, "estimated_duration") == s.duration
      && Get(o, "image") == s.image && Get(o, "images") == s.images
  {
    var fs := AsRecord(s).fields;
    LookupAt(fs, 0); LookupAt(fs, 1); LookupAt(fs, 2); LookupAt(fs, 3);
    LookupAt(fs, 4); LookupAt(fs, 5); LookupAt(fs, 6);
  }

  /** Normalising is idempotent: a record that has been normalised once (with
      an id to stand in for a missing one) comes out of a second pass
      unchanged, whatever fallback the second pass is given. */
  lemma NormalizeIdempotent(item: Json, fallbackId: Json, again: Json)
    requires !IsNullish(fallbackId)
    ensures NormalizeService(AsRecord(NormalizeService(item, fallbackId)), again) == NormalizeService(item, fallbackId)
  {
    var r := NormalizeService(item, fallbackId);
    NormalizeFillsFields(item, fallbackId);
    AsRecordFields(r);
  }

  /** A free service keeps its price of 0, and a record that states only an
      id and a price gets every default: the name "Servicio", the
      description "Sin descripción", a 60-minute duration, no picture and an
      empty picture list. */
  lemma NormalizeFreeService(id: int)
    ensures var r := NormalizeService(Obj([("id", Num(id)), ("price", Num(0))]), Undefined);
      && r.price == Num(0) && r.id == Num(id) && r.name == Str("Servicio")
      && r.description == Str("Sin descripción") && r.duration == Num(60)
      && r.image == Null && r.images == Arr([])
  {
    var fs := [("id", Num(id)), ("price", Num(0))];
    LookupAt(fs, 0); LookupAt(fs, 1);
    LookupMissing(fs, "name"); LookupMissing(fs, "title");
    LookupMissing(fs, "description"); LookupMissing(fs, "detail");
    LookupMissing(fs, "estimated_duration"); LookupMissing(fs, "duration");
    LookupMissing(fs, "image");
    LookupMissing(fs, "images");
  }

  // ---------------------------------------------------------------------------
  // Requests

  /** The settled outcome of a request: the promise rejected with `error`, or
      resolved with `response` (whose `data` the pages read). */
  datatype Fetch = Threw(error: Json) | Responded(response: Json)

  /** Some element of the list is `null`/`undefined`, so reading `item.id`
      on it throws a TypeError. */
  predicate HasNullishItem(items: seq<Json>) {
    exists i :: 0 <= i < |items| && IsNullish(items[i])
  }

  /** The list pages' `data.map(normalize)`; `randomId(i)` is the value
      `Math.random()` gives for element `i`. */
  function NormalizeAll(items: seq<Json>, randomId: nat -> Json): (r: seq<Service>)
    ensures |r| == |items|
    ensures forall i :: 0 <= i < |items| ==> r[i] == NormalizeService(items[i], randomId(i))
  {
    seq(|items|, i requires 0 <= i < |items| => NormalizeService(items[i], randomId(i)))
  }
}

=== FILE: email.dfy ===
/** The e-mail check shared by the login/register form and the booking form:
    the regular expression `/^[^\s@]+@[^\s@]+\.[^\s@]+$/`.

    `MatchesEmailRegex` says what the expression accepts (three non-empty runs
    without white space or '@', joined by '@' and then by '.'); `IsEmail` is a
    direct check of the same thing, and `EmailIff` proves the two agree. */
module EmailPattern {
  import JsString

  /** `[^\s@]` */
  predicate IsPartChar(c: char) {
    !JsString.IsWhitespace(c) && c != '@'
  }

  /** `[^\s@]+` */
  predicate IsPart(s: string) {
    s != [] && forall k :: 0 <= k < |s| ==> IsPartChar(s[k])
  }

  /** The expression matches with its '@' at `i` and the '.' it needs at `j`. */
  predicate MatchesAt(s: string, i: int, j: int) {
    && 0 <= i < j < |s|
    && s[i] == '@' && s[j] == '.'
    && IsPart(s[..i]) && IsPart(s[i + 1..j]) && IsPart(s[j + 1..])
  }

  ghost predicate MatchesEmailRegex(s: string) {
    exists i, j :: MatchesAt(s, i, j)
  }

  /** Index of the first '@', or `|s|` when there is none. */
  function IndexOfAt(s: string): (r: nat)
    ensures r <= |s|
    ensures forall k :: 0 <= k < r ==> s[k] != '@'
    ensures r < |s| ==> s[r] == '@'
  {
    if s == [] then 0
    else if s[0] == '@' then 0
    else 1 + IndexOfAt(s[1..])
  }

  predicate HasDotBetween(s: string, lo: int, hi: int) {
    exists j | lo <= j < hi && 0 <= j < |s| :: s[j] == '.'
  }

  /** No white space anywhere; exactly one '@', not in first position; and a
      '.' with at least one character between it and the '@' and at least
      one after it. */
  predicate IsEmail(s: string) {
    var i := IndexOfAt(s);
    && (forall k :: 0 <= k < |s| ==> !JsString.IsWhitespace(s[k]))
    && 1 <= i < |s|
    && (forall k :: i < k < |s| ==> s[k] != '@')
    && HasDotBetween(s, i + 2, |s| - 1)
  }

  lemma MatchImpliesCheck(s: string, i: int, j: int)
    requires MatchesAt(s, i, j)
    ensures IsEmail(s)
  {
    var a, b, c := s[..i], s[i + 1..j], s[j + 1..];
    forall k | 0 <= k < |s|
      ensures !JsString.IsWhitespace(s[k]) && (k != i ==> s[k] != '@')
    {
      if k < i {
        assert s[k] == a[k];
      } else if i < k < j {
        assert s[k] == b[k - i - 1];
      } else if j < k {
        assert s[k] == c[k - j - 1];
      }
    }
    assert IndexOfAt(s) == i;
    assert s[j] == '.';
  }

  lemma CheckImpliesMatch(s: string) returns (i: int, j: int)
    requires IsEmail(s)
    ensures MatchesAt(s, i, j)
  {
    i := IndexOfAt(s);
    j :| i + 2 <= j < |s| - 1 && 0 <= j < |s| && s[j] == '.';
    assert IsPart(s[..i]) by {
      forall k | 0 <= k < i
        ensures IsPartChar(s[..i][k])
      {
        assert s[..i][k] == s[k];
      }
    }
    var b, c := s[i + 1..j], s[j + 1..];
    assert IsPart(b) by {
      forall k | 0 <= k < |b|
        ensures IsPartChar(b[k])
      {
        assert b[k] == s[i + 1 + k];
      }
    }
    assert IsPart(c) by {
      forall k | 0 <= k < |c|
        ensures IsPartChar(c[k])
      {
        assert c[k] == s[j + 1 + k];
      }
    }
  }

  /** The direct check accepts exactly what the regular expression accepts. */
  lemma EmailIff(s: string)
    ensures IsEmail(s) <==> MatchesEmailRegex(s)
  {
    if IsEmail(s) {
      var i, j := CheckImpliesMatch(s);
    }
    if MatchesEmailRegex(s) {
      var i, j :| MatchesAt(s, i, j);
      MatchImpliesCheck(s, i, j);
    }
  }
}

=== FILE: endpoints.dfy ===
/** The request helpers `src/utils/api.js` exports, as far as a page's call
    depends on them: a page calls a method by name on one of the exported
    objects, and a name the object does not define throws a `TypeError`
    before any request is sent.  `userAPI` is the one object the pages call
    methods on that it lacks. */
module Endpoints {
  import opened JsValue
  import Api
  import Catalog

  /** The methods `userAPI` defines. */
  const UserApiAsWritten: set<string> := {"getProfile", "updateProfile", "getUserReservations"}

  /** The methods the two admin pages call on `userAPI` besides those. */
  const AdminUserCalls: set<string> := {"getAllUsers", "createUser", "updateUser", "deleteUser"}

  /** `userAPI` with the methods the admin pages call on it. */
  const UserApi: set<string> := UserApiAsWritten + AdminUserCalls

  /** The message of the `TypeError` that calling a missing method throws. */
  function NotAFunctionText(api: string, name: string): string {
    api + "." + name + " is not a function"
  }

  /** That `TypeError`: an error with a message and no response or request. */
  function NotAFunction(api: string, name: string): Json {
    Api.LocalError(NotAFunctionText(api, name))
  }

  /** How a call `api.method(...)` ends: it throws at once, or it sends its
      request, which later settles. */
  datatype Call = Missing(error: Json) | Sent(outcome: Catalog.Fetch)

  /** `api.method(...)` on an object defining `methods`, whose request would
      settle as `settled`. */
  function Invoke(methods: set<string>, api: string, name: string, settled: Catalog.Fetch): (c: Call)
    ensures c.Sent? <==> name in methods
    ensures c.Sent? ==> c.outcome == settled
    ensures c.Missing? ==> c.error == NotAFunction(api, name)
  {
    if name in methods then Sent(settled) else Missing(NotAFunction(api, name))
  }

  /** `await api.method(...)` inside a `try`: a call that throws at once
      reaches the `catch` just as a rejected request does. */
  function Await(c: Call): (r: Catalog.Fetch)
    ensures c.Missing? ==> r == Catalog.Threw(c.error)
    ensures c.Sent? ==> r == c.outcome
  {
    match c
    case Missing(e) => Catalog.Threw(e)
    case Sent(outcome) => outcome
  }

  /** `handleAPIError` reports the `TypeError` as a local failure: its own
      message, status -1. */
  lemma NotAFunctionReported(api: string, name: string)
    ensures Api.HandleApiError(NotAFunction(api, name)) == Api.ErrorInfo(Str(NotAFunctionText(api, name)), Num(-1), Undefined)
    ensures forall fallback :: Api.ErrorText(NotAFunction(api, name), fallback) == Str(NotAFunctionText(api, name))
  {
    Api.HandleLocalError(NotAFunctionText(api, name));
  }

  /** As written, every method the admin pages call on `userAPI` throws,
      whatever the backend would have answered. */
  lemma AdminUserCallsThrow(name: string, settled: Catalog.Fetch)
    requires name in AdminUserCalls
    ensures Invoke(UserApiAsWritten, "userAPI", name, settled) == Missing(NotAFunction("userAPI", name))
  {
    assert name !in UserApiAsWritten;
  }

  /** With the methods added, every such call sends its request and sees
      the backend's answer. */
  lemma AdminUserCallsSent(name: string, settled: Catalog.Fetch)
    requires name in AdminUserCalls
    ensures Await(Invoke(UserApi, "userAPI", name, settled)) == settled
  {
  }
}

=== FILE: home.dfy ===
/** The home page's "popular services" strip (`Home.jsx`): the first three
    services from the backend, or three built-in examples, each with its
    description cut to a short teaser. */
module Home {
  import opened JsValue
  import JsString
  import Api
  import opened Catalog

  function Example(id: string, name: string, description: string, price: int, picture: string): Service {
    Service(Str(id), Str(name), Str(description), Num(price), Undefined, Str(picture), Undefined, false)
  }

  const ExamplePopular: seq<Service> := [
    Example("ex-1", "Corte y Baño Completo",
      "Servicio completo que incluye baño, secado y corte de pelo.", 25000, "/img/CorteBanio.jpeg"),
    Example("ex-2", "Corte de Uñas",
      "Corte profesional de uñas para máximo confort.", 8000, "/img/Garras.jpeg"),
    Example("ex-3", "Spa Relajante",
      "Masajes, aromaterapia e hidratación del pelaje.", 35000, "/img/Spa.jpeg")
  ]

  const EmptyBackendMessage := "No hay servicios en el backend. Mostrando ejemplos."

  /** The home page normalises a record like the catalogue page but keeps
      only id, name, description, price and image. */
  function PopularRecord(item: Json, randomId: Json): (r: Service)
    ensures FallsBack(r.id, Get(item, "id"), Get(item, "service_id"), randomId)
    ensures FallsBack(r.name, Get(item, "name"), Get(item, "title"), Str("Servicio"))
    ensures FallsBack(r.description, Get(item, "description"), Get(item, "detail"), Str("Sin descripción"))
    ensures FallsBack(r.price, Get(item, "price"), Undefined, Num(0))
    ensures FallsBack(r.image, Get(item, "image"), Undefined, Null)
    ensures r.duration == Undefined && r.images == Undefined
  {
    NormalizeService(item, randomId).(duration := Undefined, images := Undefined)
  }

  datatype Popular = Popular(services: seq<Service>, usingExample: bool, error: Json)

  /** `fetchPopular`.  `typeError` is the error the engine throws when a
      `null` element is normalised; every error is reported through
      `handleAPIError`, whose message is never empty, so the page's own
      fallback text is never used. */
  function LoadPopular(fetch: Fetch, randomId: nat -> Json, typeError: Json): (r: Popular)
    ensures 1 <= |r.services| <= 3
    ensures r.usingExample <==> Truthy(r.error)
    ensures r.usingExample ==> r.services == ExamplePopular
    ensures fetch.Threw? ==> r.error == Api.HandleApiError(fetch.error).message
    ensures !r.usingExample ==>
      && fetch.Responded?
      && var data := Get(fetch.response, "data");
      && data.Arr? && |r.services| == (if |data.items| < 3 then |data.items| else 3)
      && forall i :: 0 <= i < |r.services| ==> r.services[i] == PopularRecord(data.items[i], randomId(i))
  {
    var failed := "No se pudieron cargar los servicios. Mostrando ejemplos.";
    match fetch
    case Threw(e) =>
      Popular(ExamplePopular, true, Api.ErrorText(e, failed))
    case Responded(response) =>
      var data := Get(response, "data");
      if data.Arr? && HasNullishItem(data.items) then
        Popular(ExamplePopular, true, Api.ErrorText(typeError, failed))
      else if !data.Arr? || data.items == [] then
        EmptyBackendMessageShown();
        Popular(ExamplePopular, true, Str(EmptyBackendMessage))
      else Popular(Strip(data.items, randomId), false, Str(""))
  }

  lemma EmptyBackendMessageShown()
    ensures Truthy(Str(EmptyBackendMessage))
  {
  }

  /** The first three records, normalised, in the backend's order. */
  function Strip(items: seq<Json>, randomId: nat -> Json): (r: seq<Service>)
    requires items != []
    ensures 1 <= |r| <= 3 && |r| == (if |items| < 3 then |items| else 3)
    ensures forall i :: 0 <= i < |r| ==> r[i] == PopularRecord(items[i], randomId(i))
  {
    var normalized := seq(|items|, i requires 0 <= i < |items| => PopularRecord(items[i], randomId(i)));
    normalized[..if |normalized| < 3 then |normalized| else 3]
  }

  /** The strip shows backend services exactly when the backend answers with
      a non-empty array free of `null` entries, and then it shows the first
      three in the backend's order. */
  lemma PopularIsPrefix(fetch: Fetch, randomId: nat -> Json, typeError: Json)
    ensures !LoadPopular(fetch, randomId, typeError).usingExample <==>
      fetch.Responded? && Get(fetch.response, "data").Arr?
      && |Get(fetch.response, "data").items| > 0 && !HasNullishItem(Get(fetch.response, "data").items)
  {
  }

  // ---------------------------------------------------------------------------
  // Teasers

  /** `text.slice(0, max).trim() + '…'` on a text longer than `max`, the text
      itself otherwise. */
  function Truncate(text: string, max: nat): (r: string)
    ensures |text| <= max ==> r == text
    ensures |text| > max ==> 0 < |r| <= max + 1 && r[|r| - 1] == '…'
  {
    if |text| <= max then text else JsString.Trim(text[..max]) + "…"
  }

  /** A cut teaser is a piece of the start of the text, without the
      surrounding blanks, followed by the ellipsis. */
  lemma TruncateIsPieceOfText(text: string, max: nat) returns (i: nat, j: nat)
    requires |text| > max
    ensures i <= j <= max
    ensures Truncate(text, max) == text[i..j] + "…"
    ensures JsString.AllWhitespace(text[..i]) && JsString.AllWhitespace(text[j..max])
  {
    i, j := JsString.TrimBounds(text[..max]);
    PrefixSlices(text, max, i, j);
  }

  lemma PrefixSlices(s: string, m: nat, i: nat, j: nat)
    requires i <= j <= m <= |s|
    ensures s[..m][i..j] == s[i..j] && s[..m][..i] == s[..i] && s[..m][j..] == s[j..m]
  {
  }

  /** `text.length <= max` for a truthy value that is not a string: an
      array's length, or an object's `length` property, compared after
      `Number(...)`; a number or boolean has no `length`, and `undefined`
      compares false. */
  predicate LengthWithin(text: Json, max: nat) {
    || (text.Arr? && |text.items| <= max)
    || (text.Obj? && ToNumber(Get(text, "length")).Some? && ToNumber(Get(text, "length")).value <= max)
  }

  /** `truncateText(text, max)` (the page leaves `max` at 90): nothing for a
      falsy text; `None` where the call throws.  Anything with a `length` of
      at most `max` comes back as it is, so a short array or an object such
      as `{length: 2}` passes through; a longer array has no `trim`, and
      any other truthy value fails the comparison and has no `slice`. */
  function TruncateText(text: Json, max: nat): (r: Optional.Option<Json>)
    ensures !Truthy(text) ==> r == Optional.Some(Str(""))
    ensures text.Str? ==> r == Optional.Some(Str(Truncate(text.s, max)))
    ensures text.Arr? && |text.items| <= max ==> r == Optional.Some(text)
    ensures text.Obj? && ToNumber(Get(text, "length")).Some? && ToNumber(Get(text, "length")).value <= max ==>
      r == Optional.Some(text)
    ensures r.None? <==> Truthy(text) && !text.Str? && !LengthWithin(text, max)
    ensures r.Some? && r.value.Str? ==> |r.value.s| <= max + 1
  {
    if !Truthy(text) then Optional.Some(Str(""))
    else if text.Str? then Optional.Some(Str(Truncate(text.s, max)))
    else if LengthWithin(text, max) then Optional.Some(text)
    else Optional.None
  }

  /** An object is returned as it is when its `length` reads as a small
      number: `{length: 2}`, and `{length: null}`, whose `length` is 0. */
  lemma LengthObjectsPassThrough(max: nat)
    requires max >= 2
    ensures TruncateText(Obj([("length", Num(2))]), max) == Optional.Some(Obj([("length", Num(2))]))
    ensures TruncateText(Obj([("length", Null)]), max) == Optional.Some(Obj([("length", Null)]))
    ensures TruncateText(Obj([]), max) == Optional.None
  {
    LookupAt([("length", Num(2))], 0);
    LookupAt([("length", Null)], 0);
  }

}

=== FILE: js_string.dfy ===
/** The handful of JavaScript string primitives the pages rely on: `trim`,
    `toLowerCase`, `includes`, the `<` comparison used by `Array.prototype.sort`,
    decimal rendering of integers (`String(n)`, template literals) and the two
    number parsers `parseInt(s, 10)` and `Number(s)`.

    Strings are sequences of characters.  Lower-casing covers ASCII letters only,
    and the numeric parsers read optionally signed decimal integers only. */
module JsString {
  import opened Optional

  /** The characters JavaScript's `\s` and `String.prototype.trim` treat as
      white space: the WhiteSpace and LineTerminator productions of ECMAScript. */
  predicate IsWhitespace(c: char) {
    c in Blanks || '\U{2000}' <= c <= '\U{200A}'
  }

  /** The white-space characters outside the block U+2000 to U+200A. */
  const Blanks: set<char> := {' ', '\t', '\n', '\r', '\U{000B}', '\U{000C}', '\U{00A0}', '\U{1680}',
    '\U{2028}', '\U{2029}', '\U{202F}', '\U{205F}', '\U{3000}', '\U{FEFF}'}

  predicate AllWhitespace(s: string) {
    forall i :: 0 <= i < |s| ==> IsWhitespace(s[i])
  }

  /** `s.trimStart()`: drops the leading white space and nothing else. */
  function TrimStart(s: string): (r: string)
    ensures |r| <= |s| && r == s[|s| - |r|..]
    ensures AllWhitespace(s[..|s| - |r|])
    ensures r == [] || !IsWhitespace(r[0])
  {
    if s == [] || !IsWhitespace(s[0]) then s else TrimStart(s[1..])
  }

  /** `s.trimEnd()`: drops the trailing white space and nothing else. */
  function TrimEnd(s: string): (r: string)
    ensures |r| <= |s| && r == s[..|r|]
    ensures AllWhitespace(s[|r|..])
    ensures r == [] || !IsWhitespace(r[|r| - 1])
  {
    if s == [] || !IsWhitespace(s[|s| - 1]) then s else TrimEnd(s[..|s| - 1])
  }

  /** `s.trim()` */
  function Trim(s: string): string {
    TrimEnd(TrimStart(s))
  }

  /** Where `Trim` cuts: the kept piece is `s[i..j]`, everything before `i` and
      after `j` is white space, and the piece neither starts nor ends with it. */
  lemma TrimBounds(s: string) returns (i: nat, j: nat)
    ensures i <= j <= |s| && Trim(s) == s[i..j]
    ensures AllWhitespace(s[..i]) && AllWhitespace(s[j..])
    ensures i < j ==> !IsWhitespace(s[i]) && !IsWhitespace(s[j - 1])
  {
    i, j := StartCut(s), EndCut(s);
    TrimPiece(s);
    TrimDropsBlanks(s);
    TrimEdges(s);
  }

  /** Where the kept piece starts. */
  function StartCut(s: string): (i: nat)
    ensures i <= |s|
  {
    |s| - |TrimStart(s)|
  }

  /** Where the kept piece ends. */
  function EndCut(s: string): (j: nat)
    ensures StartCut(s) <= j <= |s|
  {
    StartCut(s) + |TrimEnd(TrimStart(s))|
  }

  lemma TrimPiece(s: string)
    ensures Trim(s) == s[StartCut(s)..EndCut(s)]
  {
    var i := StartCut(s);
    var t := TrimStart(s);
    var r := TrimEnd(t);
    assert t == s[i..];
    SuffixSlices(s, i, |r|);
  }

  /** Slicing a suffix is slicing the whole. */
  lemma SuffixSlices(s: string, i: nat, k: nat)
    requires i + k <= |s|
    ensures s[i..][..k] == s[i..i + k]
  {
  }

  lemma TrimDropsBlanks(s: string)
    ensures AllWhitespace(s[..StartCut(s)]) && AllWhitespace(s[EndCut(s)..])
  {
    var i := StartCut(s);
    var t := TrimStart(s);
    var r := TrimEnd(t);
    assert t == s[i..];
    BlankSuffix(s, i, |r|);
  }

  lemma BlankSuffix(s: string, i: nat, k: nat)
    requires i + k <= |s| && AllWhitespace(s[i..][k..])
    ensures AllWhitespace(s[i + k..])
  {
    assert s[i..][k..] == s[i + k..];
  }

  lemma TrimEdges(s: string)
    ensures StartCut(s) < EndCut(s) ==> !IsWhitespace(s[StartCut(s)]) && !IsWhitespace(s[EndCut(s) - 1])
  {
    var i, j := StartCut(s), EndCut(s);
    if i < j {
      var t := TrimStart(s);
      var r := TrimEnd(t);
      TrimPiece(s);
      assert r[0] == t[0];
      SliceEnds(s, i, j);
    }
  }

  lemma SliceEnds(s: string, i: nat, j: nat)
    requires i < j <= |s|
    ensures s[i..j][0] == s[i] && s[i..j][j - i - 1] == s[j - 1]
  {
  }

  /** A string trims to nothing exactly when it is all white space. */
  lemma TrimEmptyIffBlank(s: string)
    ensures Trim(s) == [] <==> AllWhitespace(s)
  {
    var i, j := TrimBounds(s);
    if i < j {
      assert !IsWhitespace(s[i]);
    } else {
      forall k | 0 <= k < |s|
        ensures IsWhitespace(s[k])
      {
        if k < i {
          assert s[k] == s[..i][k];
        } else {
          assert s[k] == s[j..][k - j];
        }
      }
    }
  }

  /** `c.toLowerCase()` for one character: ASCII capitals only. */
  function LowerChar(c: char): char {
    if 'A' <= c <= 'Z' then (c as int - 'A' as int + 'a' as int) as char else c
  }

  /** `s.toLowerCase()` */
  function Lower(s: string): (r: string)
    ensures |r| == |s|
    ensures forall i :: 0 <= i < |s| ==> r[i] == LowerChar(s[i])
  {
    seq(|s|, i requires 0 <= i < |s| => LowerChar(s[i]))
  }

  /** Text without capitals is its own lower case. */
  lemma LowerKeepsLowercase(s: string)
    requires forall i :: 0 <= i < |s| ==> !('A' <= s[i] <= 'Z')
    ensures Lower(s) == s
  {
  }

  /** `s.includes(sub)` */
  predicate Contains(s: string, sub: string) {
    exists i | 0 <= i <= |s| - |sub| :: OccursAt(s, sub, i)
  }

  predicate OccursAt(s: string, sub: string, i: int) {
    0 <= i && i + |sub| <= |s| && s[i..i + |sub|] == sub
  }

  /** `a < b` on strings: lexicographic order on characters, a proper prefix
      coming first. */
  predicate Less(a: string, b: string) {
    if a == [] then b != []
    else if b == [] then false
    else if a[0] != b[0] then a[0] < b[0]
    else Less(a[1..], b[1..])
  }

  lemma {:induction false} LessIrreflexive(a: string)
    ensures !Less(a, a)
  {
    if a != [] {
      LessIrreflexive(a[1..]);
    }
  }

  lemma {:induction false} LessTransitive(a: string, b: string, c: string)
    requires Less(a, b) && Less(b, c)
    ensures Less(a, c)
  {
    if a != [] && b != [] && c != [] && a[0] == b[0] && b[0] == c[0] {
      LessTransitive(a[1..], b[1..], c[1..]);
    }
  }

  /** Two different strings are always ordered one way or the other, which is
      what makes the comparator of a sort total. */
  lemma {:induction false} LessTotal(a: string, b: string)
    ensures a == b || Less(a, b) || Less(b, a)
  {
    if a != [] && b != [] && a[0] == b[0] {
      LessTotal(a[1..], b[1..]);
      if a[1..] == b[1..] {
        assert a == [a[0]] + a[1..] && b == [b[0]] + b[1..];
      }
    }
  }

  lemma {:induction false} LessAsymmetric(a: string, b: string)
    requires Less(a, b)
    ensures !Less(b, a)
  {
    if a != [] && b != [] && a[0] == b[0] {
      LessAsymmetric(a[1..], b[1..]);
    }
  }

  // ---------------------------------------------------------------------------
  // Decimal integers

  predicate IsDigit(c: char) {
    '0' <= c <= '9'
  }

  predicate AllDigits(s: string) {
    forall i :: 0 <= i < |s| ==> IsDigit(s[i])
  }

  function DigitChar(d: nat): (c: char)
    requires d < 10
    ensures IsDigit(c) && c as int - '0' as int == d
  {
    ('0' as int + d) as char
  }

  /** The value of a run of decimal digits, most significant first. */
  function DigitsValue(ds: string): nat
    requires AllDigits(ds)
  {
    if ds == [] then 0
    else DigitsValue(ds[..|ds| - 1]) * 10 + (ds[|ds| - 1] as int - '0' as int)
  }

  /** The decimal rendering of a natural number, with no leading zeros. */
  function NatToString(n: nat): string
  {
    if n < 10 then [DigitChar(n)] else NatToString(n / 10) + [DigitChar(n % 10)]
  }

  /** `String(n)` for an integer `n`. */
  function IntToString(n: int): string {
    if n < 0 then "-" + NatToString(-n) else NatToString(n)
  }

  lemma {:induction false} NatToStringDigits(n: nat)
    ensures NatToString(n) != [] && AllDigits(NatToString(n))
    ensures DigitsValue(NatToString(n)) == n
    ensures NatToString(n)[0] != '0' || n == 0
  {
    if n >= 10 {
      NatToStringDigits(n / 10);
      var s := NatToString(n);
      assert s[..|s| - 1] == NatToString(n / 10);
      assert s[0] == NatToString(n / 10)[0];
    }
  }

  /** The longest prefix of `s` made of decimal digits. */
  function DigitPrefix(s: string): (r: string)
    ensures AllDigits(r) && |r| <= |s| && r == s[..|r|]
    ensures |r| == |s| || !IsDigit(s[|r|])
  {
    if s == [] || !IsDigit(s[0]) then [] else [s[0]] + DigitPrefix(s[1..])
  }

  lemma DigitPrefixOfDigits(s: string)
    requires AllDigits(s)
    ensures DigitPrefix(s) == s
  {
  }

  /** `parseInt(s, 10)`: leading white space, an optional sign, then the longest
      run of digits; `None` stands for `NaN` (no digit at all). */
  function ParseInt(s: string): (r: Option<int>)
  {
    var t := TrimStart(s);
    var negative := t != [] && t[0] == '-';
    var body := if t != [] && (t[0] == '-' || t[0] == '+') then t[1..] else t;
    var ds := DigitPrefix(body);
    var magnitude: int := if ds == [] then 0 else DigitsValue(ds);
    if ds == [] then None
    else if negative then Some(-magnitude)
    else Some(magnitude)
  }

  /** `Number(s)` on a string: surrounding white space is ignored, a blank
      string is 0, otherwise the whole rest must be an optionally signed run of
      digits; anything else is `NaN`, here `None`. */
  function StringToNumber(s: string): (r: Option<int>)
  {
    var t := Trim(s);
    if t == [] then Some(0)
    else
      var negative := t[0] == '-';
      var body := if t[0] == '-' || t[0] == '+' then t[1..] else t;
      if body == [] || !AllDigits(body) then None
      else
        var magnitude: int := DigitsValue(body);
        if negative then Some(-magnitude) else Some(magnitude)
  }

  /** Reading back what `String(n)` wrote: `parseInt(String(n), 10) == n`.
      A service id travels through an `<option value>` this way. */
  lemma ParseIntOfIntToString(n: int)
    ensures ParseInt(IntToString(n)) == Some(n)
  {
    var m: nat := if n < 0 then -n else n;
    var digits := NatToString(m);
    IntToStringShape(n);
    DigitPrefixOfDigits(digits);
    assert DigitsValue(DigitPrefix(digits)) == m;
  }

  /** `String(n)` starts with no white space, and is the digits of `|n|`
      behind a minus sign exactly when `n` is negative. */
  lemma IntToStringShape(n: int)
    ensures var s := IntToString(n); var m: nat := if n < 0 then -n else n;
      && TrimStart(s) == s && s != []
      && (n < 0 ==> s[0] == '-' && s[1..] == NatToString(m))
      && (n >= 0 ==> s == NatToString(m) && IsDigit(s[0]))
      && AllDigits(NatToString(m)) && DigitsValue(NatToString(m)) == m
  {
    var s := IntToString(n);
    var m: nat := if n < 0 then -n else n;
    NatToStringDigits(m);
    assert IsDigit(NatToString(m)[0]);
    assert !IsWhitespace(s[0]);
  }

  /** `String(n)` has no white space to trim. */
  lemma IntToStringTrimmed(n: int)
    ensures Trim(IntToString(n)) == IntToString(n)
  {
    var s := IntToString(n);
    var m: nat := if n < 0 then -n else n;
    IntToStringShape(n);
    LastDigit(s, NatToString(m));
    assert !IsWhitespace(s[|s| - 1]);
  }

  /** A string ending in a run of digits ends in a digit. */
  lemma LastDigit(s: string, digits: string)
    requires digits != [] && AllDigits(digits)
    requires s == digits || (s != [] && s[1..] == digits)
    ensures s != [] && IsDigit(s[|s| - 1])
  {
    assert s[|s| - 1] == digits[|digits| - 1];
  }

  /** Likewise `Number(String(n)) == n`. */
  lemma StringToNumberOfIntToString(n: int)
    ensures StringToNumber(IntToString(n)) == Some(n)
  {
    var s := IntToString(n);
    var m: nat := if n < 0 then -n else n;
    NatToStringDigits(m);
    IntToStringTrimmed(n);
    if n < 0 {
      assert s[1..] == NatToString(m);
    }
  }

}

=== FILE: js_value.dfy ===
/** JavaScript values as the pages see them after `JSON.parse` or an HTTP
    response, with the coercions the pages apply to them: truthiness, the two
    fallback operators `||` and `??`, property access, strict equality,
    `Number(v)` and `String(v)`.

    Numbers are integers (`NaN` never appears as a value; `Number` returns
    `None` for it).  Objects are association lists in insertion order; reading
    a property takes its last binding, as `JSON.parse` does with repeated keys. */
module JsValue {
  import opened Optional
  import JsString

  datatype Json =
    | Undefined
    | Null
    | Bool(b: bool)
    | Num(n: int)
    | Str(s: string)
    | Arr(items: seq<Json>)
    | Obj(fields: seq<(string, Json)>)

  /** `!!v` */
  predicate Truthy(v: Json) {
    match v
    case Undefined => false
    case Null => false
    case Bool(b) => b
    case Num(n) => n != 0
    case Str(s) => s != []
    case _ => true
  }

  /** `v == null`: the only values `??` and `?.` look through. */
  predicate IsNullish(v: Json) {
    v.Undefined? || v.Null?
  }

  /** `a || b` */
  function Or(a: Json, b: Json): Json {
    if Truthy(a) then a else b
  }

  /** `a ?? b` */
  function Coalesce(a: Json, b: Json): Json {
    if IsNullish(a) then b else a
  }

  /** The two fallback operators disagree exactly on the falsy values that are
      not `null`/`undefined` (`0`, `''`, `false`): `||` replaces them, `??`
      keeps them. */
  lemma OrVersusCoalesce(a: Json, b: Json)
    ensures Truthy(a) ==> Or(a, b) == a && Coalesce(a, b) == a
    ensures IsNullish(a) ==> Or(a, b) == b && Coalesce(a, b) == b
    ensures !Truthy(a) && !IsNullish(a) ==> Or(a, b) == b && Coalesce(a, b) == a
    ensures !Truthy(a) && !IsNullish(a) <==> a in {Bool(false), Num(0), Str("")}
  {
  }

  /** The last binding of `key` in an object's field list. */
  function Lookup(fields: seq<(string, Json)>, key: string): Json {
    if fields == [] then Undefined
    else if fields[|fields| - 1].0 == key then fields[|fields| - 1].1
    else Lookup(fields[..|fields| - 1], key)
  }

  predicate HasKey(fields: seq<(string, Json)>, key: string) {
    exists i | 0 <= i < |fields| :: fields[i].0 == key
  }

  /** `o?.key`: a missing property, and any property of a value that is not an
      object, reads as `undefined`. */
  function Get(o: Json, key: string): Json {
    match o
    case Obj(fields) => Lookup(fields, key)
    case _ => Undefined
  }

  /** Rebinds every occurrence of `key` in place. */
  function Replace(fields: seq<(string, Json)>, key: string, v: Json): (r: seq<(string, Json)>)
    ensures |r| == |fields|
    ensures forall i :: 0 <= i < |fields| ==> r[i].0 == fields[i].0
    ensures forall i :: 0 <= i < |fields| && fields[i].0 != key ==> r[i] == fields[i]
  {
    if fields == [] then []
    else
      var last := fields[|fields| - 1];
      Replace(fields[..|fields| - 1], key, v) + [if last.0 == key then (key, v) else last]
  }

  /** `{...o, [key]: v}` for an object `o`: an existing key keeps its place,
      a new one goes last. */
  function Set(o: Json, key: string, v: Json): (r: Json)
    requires o.Obj?
    ensures r.Obj?
  {
    if HasKey(o.fields, key) then Obj(Replace(o.fields, key, v))
    else Obj(o.fields + [(key, v)])
  }

  lemma LookupReplace(fields: seq<(string, Json)>, key: string, v: Json, other: string)
    ensures Lookup(Replace(fields, key, v), key) == (if HasKey(fields, key) then v else Undefined)
    ensures other != key ==> Lookup(Replace(fields, key, v), other) == Lookup(fields, other)
  {
    LookupReplaceKey(fields, key, v);
    if other != key {
      LookupReplaceOther(fields, key, v, other);
    }
  }

  /** Replacing cuts into the same last entry and the same prefix. */
  lemma ReplaceLast(fields: seq<(string, Json)>, key: string, v: Json)
    requires fields != []
    ensures var r := Replace(fields, key, v); var last := fields[|fields| - 1];
      && r[..|r| - 1] == Replace(fields[..|fields| - 1], key, v)
      && r[|r| - 1] == (if last.0 == key then (key, v) else last)
  {
  }

  lemma {:induction false} LookupReplaceKey(fields: seq<(string, Json)>, key: string, v: Json)
    ensures Lookup(Replace(fields, key, v), key) == (if HasKey(fields, key) then v else Undefined)
  {
    if fields != [] {
      var init := fields[..|fields| - 1];
      LookupReplaceKey(init, key, v);
      ReplaceLast(fields, key, v);
      if fields[|fields| - 1].0 != key && HasKey(fields, key) {
        var i :| 0 <= i < |fields| && fields[i].0 == key;
        assert init[i].0 == key;
      }
    } else {
      assert !HasKey(fields, key);
    }
  }

  lemma {:induction false} LookupReplaceOther(fields: seq<(string, Json)>, key: string, v: Json, other: string)
    requires other != key
    ensures Lookup(Replace(fields, key, v), other) == Lookup(fields, other)
  {
    if fields != [] {
      LookupReplaceOther(fields[..|fields| - 1], key, v, other);
      ReplaceLast(fields, key, v);
    }
  }

  lemma {:induction false} LookupMissing(fields: seq<(string, Json)>, key: string)
    requires !HasKey(fields, key)
    ensures Lookup(fields, key) == Undefined
  {
    if fields != [] {
      var init := fields[..|fields| - 1];
      assert !HasKey(init, key) by {
        forall i | 0 <= i < |init|
          ensures init[i].0 != key
        {
          assert init[i] == fields[i];
        }
      }
      LookupMissing(init, key);
    }
  }

  /** A binding that no later binding shadows is the one read. */
  lemma {:induction false} LookupAt(fields: seq<(string, Json)>, i: nat)
    requires i < |fields|
    requires forall j :: i < j < |fields| ==> fields[j].0 != fields[i].0
    ensures Lookup(fields, fields[i].0) == fields[i].1
  {
    if i < |fields| - 1 {
      LookupAt(fields[..|fields| - 1], i);
    }
  }

  /** What the spread writes is what is read back, and no other property
      changes. */
  lemma GetSet(o: Json, key: string, v: Json, other: string)
    requires o.Obj?
    ensures Get(Set(o, key, v), key) == v
    ensures other != key ==> Get(Set(o, key, v), other) == Get(o, other)
  {
    if HasKey(o.fields, key) {
      LookupReplace(o.fields, key, v, other);
    } else {
      var r := o.fields + [(key, v)];
      assert r[..|r| - 1] == o.fields;
    }
  }

  /** `{...x, [key]: v}`.  Spreading a value that is not an object copies no
      property (spreading a string or an array, which copies its
      indices, is not needed). */
  function Spread(x: Json, key: string, v: Json): (r: Json)
    ensures r.Obj? && Get(r, key) == v
    ensures forall other :: other != key ==> Get(r, other) == (if x.Obj? then Get(x, other) else Undefined)
  {
    if x.Obj? then
      GetSetAll(x, key, v);
      Set(x, key, v)
    else
      var fields := [(key, v)];
      LookupAt(fields, 0);
      assert forall other :: other != key ==> Lookup(fields, other) == Lookup(fields[..0], other);
      Obj(fields)
  }

  lemma GetSetAll(x: Json, key: string, v: Json)
    requires x.Obj?
    ensures Get(Set(x, key, v), key) == v
    ensures forall other :: other != key ==> Get(Set(x, key, v), other) == Get(x, other)
  {
    forall other | other != key
      ensures Get(Set(x, key, v), other) == Get(x, other)
    {
      GetSet(x, key, v, other);
    }
    GetSet(x, key, v, key);
  }

  /** `a === b`.  Arrays and objects are compared by reference in JavaScript;
      the values here all come from separate parses or literals, so two of
      them are never the same reference. */
  predicate StrictEq(a: Json, b: Json) {
    match (a, b)
    case (Undefined, Undefined) => true
    case (Null, Null) => true
    case (Bool(x), Bool(y)) => x == y
    case (Num(x), Num(y)) => x == y
    case (Str(x), Str(y)) => x == y
    case _ => false
  }

  lemma StrictEqSymmetric(a: Json, b: Json)
    ensures StrictEq(a, b) == StrictEq(b, a)
  {
  }

  /** `a === b` on primitives is plain equality. */
  lemma StrictEqIsEquality(a: Json, b: Json)
    ensures StrictEq(a, b) ==> a == b
    ensures a == b && !a.Arr? && !a.Obj? ==> StrictEq(a, b)
  {
  }

  /** `String(v)`, also what a template literal `${v}` inserts. */
  function ToJsString(v: Json): string {
    match v
    case Undefined => "undefined"
    case Null => "null"
    case Bool(b) => if b then "true" else "false"
    case Num(n) => JsString.IntToString(n)
    case Str(s) => s
    case Arr(items) =>
      JoinComma(seq(|items|, i requires 0 <= i < |items| =>
        if IsNullish(items[i]) then "" else ToJsString(items[i])))
    case Obj(_) => "[object Object]"
  }

  /** `parts.join(',')` */
  function JoinComma(parts: seq<string>): string {
    if parts == [] then ""
    else if |parts| == 1 then parts[0]
    else parts[0] + "," + JoinComma(parts[1..])
  }

  /** `Number(v)`; `None` is `NaN`. */
  function ToNumber(v: Json): Option<int> {
    match v
    case Undefined => None
    case Null => Some(0)
    case Bool(b) => Some(if b then 1 else 0)
    case Num(n) => Some(n)
    case Str(s) => JsString.StringToNumber(s)
    case _ => JsString.StringToNumber(ToJsString(v))
  }

  /** `Number(v) || d`: `NaN` and `0` both fall back to `d`. */
  function NumberOr(v: Json, d: int): (r: int)
    ensures ToNumber(v).Some? && ToNumber(v).value != 0 ==> r == ToNumber(v).value
    ensures ToNumber(v).None? || ToNumber(v) == Some(0) ==> r == d
  {
    match ToNumber(v)
    case Some(n) => if n != 0 then n else d
    case None => d
  }

  /** `(v || '')` used as text: a falsy value is the empty string; any other
      value is shown as `String(v)`. */
  function TextOr(v: Json): (r: string)
    ensures !Truthy(v) ==> r == ""
    ensures v.Str? ==> r == v.s
  {
    if Truthy(v) then ToJsString(v) else ""
  }

  /** `Object.values(v)`: an object's values in order, an array's elements,
      a string's characters; nothing for the other primitives. */
  function ObjectValues(v: Json): seq<Json> {
    match v
    case Obj(fields) => seq(|fields|, i requires 0 <= i < |fields| => fields[i].1)
    case Arr(items) => items
    case Str(s) => seq(|s|, i requires 0 <= i < |s| => Str([s[i]]))
    case _ => []
  }

  /** `Array.isArray(v) ? v : []` */
  function AsArray(v: Json): (r: seq<Json>)
    ensures v.Arr? ==> r == v.items
    ensures !v.Arr? ==> r == []
  {
    if v.Arr? then v.items else []
  }

  /** `typeof v === 'object' && v !== null` */
  predicate IsObjectLike(v: Json) {
    v.Obj? || v.Arr?
  }
}

=== FILE: login_register.dfy ===
/** The login/register page (`src/pages/LoginRegister.jsx`): form validation,
    reading the token out of the login response, and the form resets on mode
    switch and after a registration. */
module LoginRegister {
  import opened Optional
  import opened JsValue
  import EmailPattern
  import Api

  datatype Form = Form(email: string, password: string, name: string, phone: string, confirmPassword: string)

  const EmptyForm := Form("", "", "", "", "")

  const MissingFields := "Todos los campos son obligatorios"
  const PasswordMismatch := "Las contraseñas no coinciden"
  const PasswordTooShort := "La contraseña debe tener al menos 6 caracteres"
  const InvalidEmail := "Por favor ingresa un correo válido"

  /** `validateForm()`: `None` when the form may be sent, otherwise the one
      message the page shows. */
  function ValidateForm(isLogin: bool, f: Form): (r: Option<string>)
    ensures r.None? <==>
      && f.email != "" && f.password != ""
      && (!isLogin ==> f.name != "" && f.phone != "" && f.password == f.confirmPassword && |f.password| >= 6)
      && EmailPattern.MatchesEmailRegex(f.email)
    ensures f.email == "" || f.password == "" ==> r == Some(MissingFields)
    ensures (!isLogin && f.email != "" && f.password != "" && (f.name == "" || f.phone == "")) ==> r == Some(MissingFields)
    ensures (isLogin && f.email != "" && f.password != "" && !EmailPattern.MatchesEmailRegex(f.email)) ==>
      r == Some(InvalidEmail)
    ensures r.Some? ==> r.value in {MissingFields, PasswordMismatch, PasswordTooShort, InvalidEmail}
  {
    EmailPattern.EmailIff(f.email);
    if f.email == "" || f.password == "" then Some(MissingFields)
    else if !isLogin && (f.name == "" || f.phone == "") then Some(MissingFields)
    else if !isLogin && f.password != f.confirmPassword then Some(PasswordMismatch)
    else if !isLogin && |f.password| < 6 then Some(PasswordTooShort)
    else if !EmailPattern.IsEmail(f.email) then Some(InvalidEmail)
    else None
  }

  /** Login mode never looks at the name, phone or confirmation. */
  lemma LoginIgnoresRegisterFields(f: Form, name: string, phone: string, confirm: string)
    ensures ValidateForm(true, f) == ValidateForm(true, f.(name := name, phone := phone, confirmPassword := confirm))
  {
  }

  /** In register mode a mismatch is reported before a short password, and
      both before a malformed e-mail. */
  lemma RegisterCheckOrder(f: Form)
    requires f.email != "" && f.password != "" && f.name != "" && f.phone != ""
    ensures f.password != f.confirmPassword ==> ValidateForm(false, f) == Some(PasswordMismatch)
    ensures f.password == f.confirmPassword && |f.password| < 6 ==> ValidateForm(false, f) == Some(PasswordTooShort)
    ensures f.password == f.confirmPassword && |f.password| >= 6 && !EmailPattern.MatchesEmailRegex(f.email) ==>
      ValidateForm(false, f) == Some(InvalidEmail)
  {
    EmailPattern.EmailIff(f.email);
  }

  /** Register mode accepts only what login mode accepts, and more. */
  lemma RegisterStricterThanLogin(f: Form)
    ensures ValidateForm(false, f).None? ==> ValidateForm(true, f).None?
  {
  }

  // ---------------------------------------------------------------------------
  // Login response

  /** `data?.token || data?.authToken || data?.authToken?.token`, as written. */
  function TokenAsWritten(data: Json): Json {
    Or(Or(Get(data, "token"), Get(data, "authToken")), Get(Get(data, "authToken"), "token"))
  }

  /** The nested `authToken.token` is read only when `authToken` is a plain
      object; otherwise the same fallbacks as the code above. */
  function Token(data: Json): (r: Json)
    ensures Truthy(Get(data, "token")) ==> r == Get(data, "token")
    ensures !Get(data, "authToken").Obj? ==> LoginOutcome(r) == LoginOutcome(TokenAsWritten(data))
  {
    var authToken := Get(data, "authToken");
    Or(Get(data, "token"), if authToken.Obj? then Get(authToken, "token") else authToken)
  }

  const MissingTokenMessage := "Respuesta de login inválida: falta token/authToken"

  /** What a login stores as `token`, or the message the page shows.  The
      token is written with `localStorage.setItem`, which stores `String(token)`. */
  function LoginOutcome(token: Json): (r: LoginResult)
    ensures Truthy(token) ==> r == StoredToken(ToJsString(token))
    ensures !Truthy(token) ==> r == Failed(MissingTokenMessage)
  {
    Api.HandleLocalError(MissingTokenMessage);
    if Truthy(token) then StoredToken(ToJsString(token))
    else Failed(Api.HandleApiError(Api.LocalError(MissingTokenMessage)).message.s)
  }

  datatype LoginResult = StoredToken(token: string) | Failed(message: string)

  function TokenBody(s: string): Json { Obj([("token", Str(s))]) }
  function AuthTokenBody(s: string): Json { Obj([("authToken", Str(s))]) }
  function NestedAuthTokenBody(s: string): Json { Obj([("authToken", Obj([("token", Str(s))]))]) }

  lemma LookupOne(key: string, v: Json, other: string)
    ensures Lookup([(key, v)], key) == v
    ensures other != key ==> Lookup([(key, v)], other) == Undefined
  {
    assert [(key, v)][..0] == [];
  }

  /** The nested response shape `{ authToken: { token } }`: the code as written
      stores the whole object, which `setItem` turns into "[object Object]". */
  lemma NestedTokenAsWritten(s: string)
    requires s != ""
    ensures TokenAsWritten(NestedAuthTokenBody(s)) == Obj([("token", Str(s))])
    ensures LoginOutcome(TokenAsWritten(NestedAuthTokenBody(s))) == StoredToken("[object Object]")
  {
    LookupOne("authToken", Obj([("token", Str(s))]), "token");
  }

  /** All three response shapes the page means to accept yield the token string. */
  lemma TokenShapes(s: string)
    requires s != ""
    ensures LoginOutcome(Token(TokenBody(s))) == StoredToken(s)
    ensures LoginOutcome(Token(AuthTokenBody(s))) == StoredToken(s)
    ensures LoginOutcome(Token(NestedAuthTokenBody(s))) == StoredToken(s)
  {
    LookupOne("token", Str(s), "authToken");
    LookupOne("authToken", Str(s), "token");
    LookupOne("authToken", Obj([("token", Str(s))]), "token");
    LookupOne("token", Str(s), "token");
  }

  // ---------------------------------------------------------------------------
  // Page state

  datatype State = State(isLogin: bool, form: Form, error: string, success: string)

  /** The route decides the mode: `/register` and `/login`; any other path
      leaves it alone. */
  function ModeForPath(path: string, isLogin: bool): (r: bool)
    ensures path == "/register" ==> !r
    ensures path == "/login" ==> r
    ensures path != "/register" && path != "/login" ==> r == isLogin
  {
    if path == "/register" then false
    else if path == "/login" then true
    else isLogin
  }

  /** Visiting the same route twice settles on the same mode. */
  lemma ModeForPathIdempotent(path: string, isLogin: bool)
    ensures ModeForPath(path, ModeForPath(path, isLogin)) == ModeForPath(path, isLogin)
  {
  }

  /** `toggleMode()` */
  function ToggleMode(st: State): (r: State)
    ensures r.isLogin == !st.isLogin
    ensures r.form == EmptyForm && r.error == "" && r.success == ""
  {
    State(!st.isLogin, EmptyForm, "", "")
  }

  /** Toggling twice returns to the same mode with a cleared form. */
  lemma ToggleTwice(st: State)
    ensures ToggleMode(ToggleMode(st)) == State(st.isLogin, EmptyForm, "", "")
  {
  }

  const RegisteredMessage := "¡Registro exitoso! Ahora puedes iniciar sesión."

  /** The state once the registration request resolves with `response`
      (`handleSubmit` has already cleared both banners): with `data` in the
      response, login mode, only the e-mail kept and the success message
      shown; without it, nothing more changes. */
  function AfterRegister(st: State, response: Json): (r: State)
    ensures Truthy(Get(response, "data")) ==>
      r.isLogin && r.form == EmptyForm.(email := st.form.email) && r.error == "" && r.success == RegisteredMessage
    ensures !Truthy(Get(response, "data")) ==> r == st.(error := "", success := "")
  {
    if Truthy(Get(response, "data")) then State(true, Form(st.form.email, "", "", "", ""), "", RegisteredMessage)
    else st.(error := "", success := "")
  }
}

=== FILE: mis_reservas.dfy ===
/** The "my bookings" page (`MisReservas.jsx`).  It loads the logged-in
    user's reservations, then fills in what the reservation records lack in
    three best-effort passes: the booked service (through the
    reservation–service link table and one request per service), a hint the
    booking page left in browser storage, and the pet (one request per pet).
    A failure in a pass leaves the list as the previous pass produced it.

    Each request is a parameter: its settled outcome is given as a `Fetch`,
    and the per-id requests as functions from the id to that outcome. */
module MisReservas {
  import opened Optional
  import opened JsValue
  import Api
  import JsString
  import SeqUtil
  import Reservas
  import opened Catalog

  /** A reservation as the page holds it.  The last three fields are absent
      (`undefined`) until the service pass fills them in. */
  datatype Booking = Booking(
    id: Json, date: Json, time: Json, status: Json, notes: Json,
    serviceId: Json, serviceName: Json, petId: Json,
    ownerName: Json, ownerEmail: Json, ownerPhone: Json,
    petName: Json, petBreed: Json, petAge: Json,
    serviceImage: Json, servicePrice: Json, serviceDuration: Json)

  /** A value produced by `x || null`: truthy, or `null`. */
  predicate TruthyOrNull(v: Json) {
    Truthy(v) || v == Null
  }

  /** A value produced by `x || ''`: truthy, or the empty string. */
  predicate TruthyOrEmpty(v: Json) {
    Truthy(v) || v == Str("")
  }

  /** `a || b || fallback`: the first truthy operand, else the last. */
  predicate EitherOr(v: Json, a: Json, b: Json, fallback: Json) {
    && (Truthy(a) ==> v == a)
    && (!Truthy(a) && Truthy(b) ==> v == b)
    && (!Truthy(a) && !Truthy(b) ==> v == fallback)
  }

  /** `a || b || c || fallback` */
  predicate EitherOr3(v: Json, a: Json, b: Json, c: Json, fallback: Json) {
    && (Truthy(a) ==> v == a)
    && (!Truthy(a) ==> EitherOr(v, b, c, fallback))
  }

  /** `a || b || fallback` */
  function OrChain(a: Json, b: Json, fallback: Json): (v: Json)
    ensures EitherOr(v, a, b, fallback)
  {
    Or(Or(a, b), fallback)
  }

  /** `a || b || c || fallback` */
  function OrChain3(a: Json, b: Json, c: Json, fallback: Json): (v: Json)
    ensures EitherOr3(v, a, b, c, fallback)
  {
    Or(Or(Or(a, b), c), fallback)
  }

  /** `a ?? b ?? fallback` */
  function CoalesceChain(a: Json, b: Json, fallback: Json): (v: Json)
    ensures FallsBack(v, a, b, fallback)
  {
    Coalesce(Coalesce(a, b), fallback)
  }

  /** The mapping of one reservation record.  `randomId` is the
      `Math.random()` that stands in for a missing id. */
  function BaseBooking(item: Json, user: Json, randomId: Json): (r: Booking)
    ensures !IsNullish(randomId) ==> !IsNullish(r.id)
    ensures !IsNullish(r.status) && !IsNullish(r.notes)
    ensures TruthyOrNull(r.serviceId) && TruthyOrNull(r.serviceName) && TruthyOrNull(r.petId)
    ensures TruthyOrEmpty(r.ownerName) && TruthyOrEmpty(r.ownerEmail) && TruthyOrEmpty(r.ownerPhone)
    ensures TruthyOrEmpty(r.petName) && TruthyOrEmpty(r.petBreed) && TruthyOrEmpty(r.petAge)
    ensures r.serviceImage == Undefined && r.servicePrice == Undefined && r.serviceDuration == Undefined
    ensures FallsBack(r.id, Get(item, "id"), Get(item, "reservation_id"), randomId)
    ensures FallsBack(r.date, Get(item, "date"), Get(item, "reservation_date"), Null)
    ensures FallsBack(r.time, Get(item, "time"), Get(item, "reservation_time"), Null)
    ensures !IsNullish(Get(item, "status")) ==> r.status == Get(item, "status")
    ensures IsNullish(Get(item, "status")) ==> r.status == Str("pendiente")
    ensures !IsNullish(Get(item, "notes")) ==> r.notes == Get(item, "notes")
    ensures IsNullish(Get(item, "notes")) ==> r.notes == Str("")
    ensures EitherOr(r.serviceId, Get(Get(item, "service"), "id"), Get(item, "service_id"), Null)
    ensures EitherOr(r.serviceName, Get(Get(item, "service"), "name"), Get(item, "service_name"), Null)
    ensures EitherOr(r.petId, Get(Get(item, "pet"), "id"), Get(item, "pet_id"), Null)
    ensures EitherOr3(r.ownerName, Get(item, "owner_name"), Get(item, "user_name"), Get(user, "name"), Str(""))
    ensures EitherOr3(r.ownerEmail, Get(item, "owner_email"), Get(item, "user_email"), Get(user, "email"), Str(""))
    ensures EitherOr(r.ownerPhone, Get(item, "owner_phone"), Get(item, "user_phone"), Str(""))
    ensures EitherOr(r.petName, Get(Get(item, "pet"), "name"), Get(item, "pet_name"), Str(""))
    ensures EitherOr(r.petBreed, Get(Get(item, "pet"), "breed"), Get(item, "pet_breed"), Str(""))
    ensures EitherOr(r.petAge, Get(Get(item, "pet"), "age"), Get(item, "pet_age"), Str(""))
  {
    var service := Get(item, "service");
    var pet := Get(item, "pet");
    Booking(
      CoalesceChain(Get(item, "id"), Get(item, "reservation_id"), randomId),
      CoalesceChain(Get(item, "date"), Get(item, "reservation_date"), Null),
      CoalesceChain(Get(item, "time"), Get(item, "reservation_time"), Null),
      Coalesce(Get(item, "status"), Str("pendiente")),
      Coalesce(Get(item, "notes"), Str("")),
      OrChain(Get(service, "id"), Get(item, "service_id"), Null),
      OrChain(Get(service, "name"), Get(item, "service_name"), Null),
      OrChain(Get(pet, "id"), Get(item, "pet_id"), Null),
      OrChain3(Get(item, "owner_name"), Get(item, "user_name"), Get(user, "name"), Str("")),
      OrChain3(Get(item, "owner_email"), Get(item, "user_email"), Get(user, "email"), Str("")),
      OrChain(Get(item, "owner_phone"), Get(item, "user_phone"), Str("")),
      OrChain(Get(pet, "name"), Get(item, "pet_name"), Str("")),
      OrChain(Get(pet, "breed"), Get(item, "pet_breed"), Str("")),
      OrChain(Get(pet, "age"), Get(item, "pet_age"), Str("")),
      Undefined, Undefined, Undefined)
  }

  /** A stated status is kept as it is, and a missing one reads 'pendiente';
      the owner's name falls back to the logged-in user's name only when the
      record names no owner or user. */
  lemma BaseBookingDefaults(item: Json, user: Json, randomId: Json)
    ensures var r := BaseBooking(item, user, randomId);
      && (!IsNullish(Get(item, "status")) ==> r.status == Get(item, "status"))
      && (IsNullish(Get(item, "status")) ==> r.status == Str("pendiente"))
      && (IsNullish(Get(item, "id")) && IsNullish(Get(item, "reservation_id")) ==> r.id == randomId)
      && (!Truthy(Get(item, "owner_name")) && !Truthy(Get(item, "user_name")) && Truthy(Get(user, "name"))
          ==> r.ownerName == Get(user, "name"))
      && (Truthy(Get(Get(item, "service"), "id")) ==> r.serviceId == Get(Get(item, "service"), "id"))
  {
  }

  // ---------------------------------------------------------------------------
  // The link table: which service each reservation booked

  /** `ln.reservation_id || ln.reservation?.id` */
  function Rid(ln: Json): Json {
    Or(Get(ln, "reservation_id"), Get(Get(ln, "reservation"), "id"))
  }

  /** `ln.service_id || ln.service?.id` */
  function Sid(ln: Json): Json {
    Or(Get(ln, "service_id"), Get(Get(ln, "service"), "id"))
  }

  /** `String(rid)`, the key the index files a link under. */
  function LinkKey(ln: Json): string {
    ToJsString(Rid(ln))
  }

  /** The link names a reservation and a service: `key && sid`. */
  predicate Usable(ln: Json) {
    !IsNullish(Rid(ln)) && LinkKey(ln) != "" && Truthy(Sid(ln))
  }

  /** What the index keeps of a link. */
  datatype LinkInfo = LinkInfo(id: Json, name: Json, image: Json, price: Json, duration: Json)

  function InfoOf(ln: Json): LinkInfo {
    var service := Get(ln, "service");
    LinkInfo(Sid(ln), Or(Get(service, "name"), Null), Or(Get(service, "image"), Null),
             Get(service, "price"), Coalesce(Get(service, "estimated_duration"), Get(service, "duration")))
  }

  /** One step of the `forEach`: a usable link is filed unless its key is
      already taken. */
  function IndexStep(m: map<string, LinkInfo>, ln: Json): map<string, LinkInfo> {
    if Usable(ln) && LinkKey(ln) !in m then m[LinkKey(ln) := InfoOf(ln)] else m
  }

  function BuildIndex(links: seq<Json>, m: map<string, LinkInfo>): map<string, LinkInfo> {
    if links == [] then m else BuildIndex(links[1..], IndexStep(m, links[0]))
  }

  /** `byReservation`: under each reservation's key, the FIRST usable link
      for that reservation; later links for the same reservation are
      ignored. */
  function Index(links: seq<Json>): (r: map<string, LinkInfo>)
    ensures forall key :: key in r <==> FirstLink(links, key).Some?
    ensures forall key :: key in r ==> r[key] == FirstLink(links, key).value
  {
    IndexIsFirstLink(links);
    BuildIndex(links, map[])
  }

  /** The reference reading: the first usable link for the key. */
  function FirstLink(links: seq<Json>, key: string): (r: Option<LinkInfo>)
    ensures r.Some? ==> exists i :: 0 <= i < |links| && Usable(links[i]) && LinkKey(links[i]) == key && r.value == InfoOf(links[i])
    ensures r.None? ==> forall i :: 0 <= i < |links| ==> !(Usable(links[i]) && LinkKey(links[i]) == key)
  {
    if links == [] then None
    else if Usable(links[0]) && LinkKey(links[0]) == key then
      assert Usable(links[0]) && LinkKey(links[0]) == key;
      Some(InfoOf(links[0]))
    else
      var r := FirstLink(links[1..], key);
      assert forall i :: 0 < i < |links| ==> links[i] == links[1..][i - 1];
      r
  }

  lemma {:induction false} BuildIndexFirst(links: seq<Json>, m: map<string, LinkInfo>, key: string)
    ensures key in m ==> key in BuildIndex(links, m) && BuildIndex(links, m)[key] == m[key]
    ensures key !in m ==>
      && (key in BuildIndex(links, m) <==> FirstLink(links, key).Some?)
      && (key in BuildIndex(links, m) ==> BuildIndex(links, m)[key] == FirstLink(links, key).value)
  {
    if links != [] {
      BuildIndexFirst(links[1..], IndexStep(m, links[0]), key);
    }
  }

  /** The index the `forEach` builds from scratch files, under every key,
      the first usable link for that reservation. */
  lemma IndexIsFirstLink(links: seq<Json>)
    ensures forall key :: key in BuildIndex(links, map[]) <==> FirstLink(links, key).Some?
    ensures forall key :: key in BuildIndex(links, map[]) ==> BuildIndex(links, map[])[key] == FirstLink(links, key).value
  {
    forall key: string
      ensures key in BuildIndex(links, map[]) <==> FirstLink(links, key).Some?
      ensures key in BuildIndex(links, map[]) ==> BuildIndex(links, map[])[key] == FirstLink(links, key).value
    {
      BuildIndexFirst(links, map[], key);
    }
  }

  /** `byReservation.get(String(r.id)) || null` */
  function LinkFor(index: map<string, LinkInfo>, r: Booking): Option<LinkInfo> {
    var key := ToJsString(r.id);
    if key in index then Some(index[key]) else None
  }

  /** `linkInfo?.id` and the other optional reads of the link information. */
  function LinkId(li: Option<LinkInfo>): Json {
    if li.Some? then li.value.id else Undefined
  }

  function LinkName(li: Option<LinkInfo>): Json {
    if li.Some? then li.value.name else Undefined
  }

  function LinkImage(li: Option<LinkInfo>): Json {
    if li.Some? then li.value.image else Undefined
  }

  function LinkPrice(li: Option<LinkInfo>): Json {
    if li.Some? then li.value.price else Undefined
  }

  function LinkDuration(li: Option<LinkInfo>): Json {
    if li.Some? then li.value.duration else Undefined
  }

  // ---------------------------------------------------------------------------
  // The service pass

  /** `r.serviceId || byReservation.get(String(r.id))?.id` */
  function WantedService(index: map<string, LinkInfo>, r: Booking): Json {
    Or(r.serviceId, LinkId(LinkFor(index, r)))
  }

  /** The ids the page requests a service for: `uniqueServiceIds`. */
  function ServiceRequests(bookings: seq<Booking>, index: map<string, LinkInfo>): (r: seq<Json>)
    ensures forall x :: x in r ==> Truthy(x)
    ensures forall i, j :: 0 <= i < j < |r| ==> r[i] != r[j]
  {
    var wanted := seq(|bookings|, i requires 0 <= i < |bookings| => WantedService(index, bookings[i]));
    SeqUtil.Distinct(SeqUtil.Filter(wanted, Truthy))
  }

  /** The value a successful per-id request leaves in the page's map:
      `res?.data || null`, stored only when truthy.  A key never stored reads
      as `undefined`. */
  function Fetched(f: Fetch): (r: Json)
    ensures Truthy(r) || r == Undefined
  {
    match f
    case Responded(response) => if Truthy(Get(response, "data")) then Get(response, "data") else Undefined
    case Threw(_) => Undefined
  }

  /** `const sid = r.serviceId || linkInfo?.id || null` */
  function SidFor(r: Booking, li: Option<LinkInfo>): Json {
    Or(Or(r.serviceId, LinkId(li)), Null)
  }

  /** `sid ? serviceMap.get(sid) : null`: the map holds the answers to the
      requests made for `requested`. */
  function ServiceFor(sid: Json, requested: seq<Json>, getService: Json -> Fetch): Json {
    if !Truthy(sid) then Null
    else if sid in requested then Fetched(getService(sid))
    else Undefined
  }

  /** Every service the enrichment looks up was requested, so the lookup
      sees the answer to that request. */
  lemma EveryServiceLookupRequested(bookings: seq<Booking>, links: seq<Json>, i: nat, getService: Json -> Fetch)
    requires i < |bookings|
    ensures var li := LinkFor(Index(links), bookings[i]);
      var sid := SidFor(bookings[i], li);
      ServiceFor(sid, ServiceRequests(bookings, Index(links)), getService)
        == if Truthy(sid) then Fetched(getService(sid)) else Null
  {
    var index := Index(links);
    var li := LinkFor(index, bookings[i]);
    var sid := SidFor(bookings[i], li);
    var wanted := seq(|bookings|, k requires 0 <= k < |bookings| => WantedService(index, bookings[k]));
    if Truthy(sid) {
      assert sid == wanted[i];
      assert sid in SeqUtil.Filter(wanted, Truthy);
    }
  }

  /** The record the service pass builds for one reservation; the booking's
      own `price` and `duration` are never set, so the last fallbacks of those
      two chains read `undefined`. */
  function EnrichService(r: Booking, li: Option<LinkInfo>, s: Json): (e: Booking)
    ensures e == r.(serviceId := e.serviceId, serviceName := e.serviceName, serviceImage := e.serviceImage,
                    servicePrice := e.servicePrice, serviceDuration := e.serviceDuration)
    ensures Truthy(r.serviceId) ==> e.serviceId == r.serviceId
    ensures !Truthy(r.serviceId) && Truthy(LinkId(li)) ==> e.serviceId == LinkId(li)
    ensures !Truthy(r.serviceId) && !Truthy(LinkId(li)) ==> e.serviceId == r.serviceId
    ensures Truthy(r.serviceName) ==> e.serviceName == r.serviceName
    ensures !Truthy(r.serviceName) && Truthy(Get(s, "name")) ==> e.serviceName == Get(s, "name")
    ensures !Truthy(r.serviceName) && !Truthy(Get(s, "name")) && Truthy(LinkName(li)) ==> e.serviceName == LinkName(li)
    ensures !Truthy(r.serviceName) && !Truthy(Get(s, "name")) && !Truthy(LinkName(li)) ==> e.serviceName == Str("Servicio")
    ensures !IsNullish(Get(s, "image")) ==> e.serviceImage == Or(Get(s, "image"), Null)
    ensures IsNullish(Get(s, "image")) && !IsNullish(LinkImage(li)) ==> e.serviceImage == Or(LinkImage(li), Null)
    ensures IsNullish(Get(s, "image")) && IsNullish(LinkImage(li)) ==> e.serviceImage == Null
    ensures !IsNullish(Get(s, "price")) ==> e.servicePrice == Or(Get(s, "price"), Num(0))
    ensures IsNullish(Get(s, "price")) && !IsNullish(LinkPrice(li)) ==> e.servicePrice == Or(LinkPrice(li), Num(0))
    ensures IsNullish(Get(s, "price")) && IsNullish(LinkPrice(li)) ==> e.servicePrice == Num(0)
    ensures !IsNullish(Get(s, "estimated_duration")) ==> e.serviceDuration == Or(Get(s, "estimated_duration"), Num(60))
    ensures IsNullish(Get(s, "estimated_duration")) && !IsNullish(Get(s, "duration")) ==>
      e.serviceDuration == Or(Get(s, "duration"), Num(60))
    ensures IsNullish(Get(s, "estimated_duration")) && IsNullish(Get(s, "duration")) && !IsNullish(LinkDuration(li)) ==>
      e.serviceDuration == Or(LinkDuration(li), Num(60))
    ensures IsNullish(Get(s, "estimated_duration")) && IsNullish(Get(s, "duration")) && IsNullish(LinkDuration(li)) ==>
      e.serviceDuration == Num(60)
    ensures Truthy(e.serviceName) && Truthy(e.serviceDuration)
    ensures Truthy(e.servicePrice) || e.servicePrice == Num(0)
    ensures TruthyOrNull(e.serviceImage)
  {
    var sid := SidFor(r, li);
    var image := Coalesce(Coalesce(Get(s, "image"), LinkImage(li)), Null);
    var price := Coalesce(Coalesce(Get(s, "price"), LinkPrice(li)), Undefined);
    var duration := Coalesce(Coalesce(Coalesce(Get(s, "estimated_duration"), Get(s, "duration")), LinkDuration(li)), Undefined);
    r.(serviceId := Or(sid, r.serviceId),
       serviceName := Or(Or(Or(r.serviceName, Get(s, "name")), LinkName(li)), Str("Servicio")),
       serviceImage := Or(image, Null),
       servicePrice := Or(price, Num(0)),
       serviceDuration := Or(duration, Num(60)))
  }

  /** A reservation whose record names no service gets the one its first
      link names, and the name of the fetched service wins over the name
      the link carries. */
  lemma EnrichFromLink(r: Booking, info: LinkInfo, s: Json)
    requires !Truthy(r.serviceId) && !Truthy(r.serviceName) && Truthy(info.id)
    ensures EnrichService(r, Some(info), s).serviceId == info.id
    ensures Truthy(Get(s, "name")) ==> EnrichService(r, Some(info), s).serviceName == Get(s, "name")
    ensures !Truthy(Get(s, "name")) && Truthy(info.name) ==> EnrichService(r, Some(info), s).serviceName == info.name
  {
  }

  /** The service pass over the whole list. */
  function EnrichAllServices(bookings: seq<Booking>, links: seq<Json>, getService: Json -> Fetch): (r: seq<Booking>)
    ensures |r| == |bookings|
    ensures forall i :: 0 <= i < |bookings| ==>
      var li := LinkFor(Index(links), bookings[i]);
      r[i] == EnrichService(bookings[i], li, ServiceFor(SidFor(bookings[i], li), ServiceRequests(bookings, Index(links)), getService))
  {
    var index := Index(links);
    var requested := ServiceRequests(bookings, index);
    seq(|bookings|, i requires 0 <= i < |bookings| =>
      var li := LinkFor(index, bookings[i]);
      EnrichService(bookings[i], li, ServiceFor(SidFor(bookings[i], li), requested, getService)))
  }

  /** The service pass as the page runs it: a failed link request, or a
      `null` link that makes the `forEach` throw, leaves the list alone. */
  function ServicePass(bookings: seq<Booking>, linksFetch: Fetch, getService: Json -> Fetch): (r: seq<Booking>)
    ensures |r| == |bookings|
    ensures linksFetch.Threw? ==> r == bookings
    ensures linksFetch.Responded? && HasNullishItem(AsArray(Get(linksFetch.response, "data"))) ==> r == bookings
    ensures linksFetch.Responded? && !HasNullishItem(AsArray(Get(linksFetch.response, "data"))) ==>
      r == EnrichAllServices(bookings, AsArray(Get(linksFetch.response, "data")), getService)
  {
    match linksFetch
    case Threw(_) => bookings
    case Responded(response) =>
      var links := AsArray(Get(response, "data"));
      if HasNullishItem(links) then bookings else EnrichAllServices(bookings, links, getService)
  }
  /** When the link table loads, the pass names a service and a duration
      for every reservation, keeps a name already set, and gives a
      reservation without a service the service of its first usable link;
      when it fails, nothing changes. */
  lemma ServicePassNamesEveryService(bookings: seq<Booking>, linksFetch: Fetch, getService: Json -> Fetch, i: nat)
    requires i < |bookings|
    ensures linksFetch.Threw? ==> ServicePass(bookings, linksFetch, getService) == bookings
    ensures linksFetch.Responded? && !HasNullishItem(AsArray(Get(linksFetch.response, "data"))) ==>
      var r := ServicePass(bookings, linksFetch, getService);
      var links := AsArray(Get(linksFetch.response, "data"));
      && Truthy(r[i].serviceName) && Truthy(r[i].serviceDuration)
      && (Truthy(bookings[i].serviceName) ==> r[i].serviceName == bookings[i].serviceName)
      && (!Truthy(bookings[i].serviceId) && FirstLink(links, ToJsString(bookings[i].id)).Some?
          && Truthy(FirstLink(links, ToJsString(bookings[i].id)).value.id) ==>
            r[i].serviceId == FirstLink(links, ToJsString(bookings[i].id)).value.id)
  {
    if linksFetch.Responded? && !HasNullishItem(AsArray(Get(linksFetch.response, "data"))) {
      var links := AsArray(Get(linksFetch.response, "data"));
      var index := Index(links);
      var li := LinkFor(index, bookings[i]);
      var r := EnrichAllServices(bookings, links, getService);
      assert r[i] == EnrichService(bookings[i], li, ServiceFor(SidFor(bookings[i], li), ServiceRequests(bookings, index), getService));
    }
  }


  // ---------------------------------------------------------------------------
  // The stored hint

  /** The storage fallback for one reservation.  `parse` is `JSON.parse`,
      `None` where it throws; a hint that parses to `null` makes the property
      read throw, which the per-item `catch` turns into "no change". */
  function ApplyHint(r: Booking, storage: Api.Storage, parse: string -> Option<Json>): (e: Booking)
    ensures e == r.(serviceId := e.serviceId, serviceName := e.serviceName)
    ensures Truthy(r.serviceId) ==> e.serviceId == r.serviceId
    ensures Truthy(r.serviceName) ==> e.serviceName == r.serviceName
    ensures e.serviceId == r.serviceId || TruthyOrNull(e.serviceId)
  {
    if Truthy(r.serviceId) && Truthy(r.serviceName) then r
    else
      var key := Reservas.HintKey(r.id);
      if key !in storage || storage[key] == "" then r
      else match parse(storage[key])
        case None => r
        case Some(hint) =>
          if IsNullish(hint) then r
          else r.(serviceId := Or(Or(r.serviceId, Get(hint, "serviceId")), Null),
                  serviceName := Or(Or(r.serviceName, Get(hint, "serviceName")), r.serviceName))
  }

  /** The hint the booking page stores for a new reservation supplies the
      chosen service to a listing whose record does not name it: reading the
      stored text back yields the written hint. */
  lemma HintFillsMissingService(created: Json, services: seq<Json>, f: Reservas.Form, key: string, hint: Json,
                                r: Booking, storage: Api.Storage, parse: string -> Option<Json>)
    requires Reservas.Hint(created, services, f) == Some((key, hint))
    requires key in storage && storage[key] != "" && parse(storage[key]) == Some(hint)
    requires r.id == Get(created, "id") && !Truthy(r.serviceId)
    ensures var chosen := Reservas.FindService(services, JsString.ParseInt(f.serviceId)).value;
      && ApplyHint(r, storage, parse).serviceId == Or(Get(chosen, "id"), Null)
      && (!Truthy(r.serviceName) ==> ApplyHint(r, storage, parse).serviceName == Or(Get(chosen, "name"), r.serviceName))
  {
  }

  function HintPass(bookings: seq<Booking>, storage: Api.Storage, parse: string -> Option<Json>): (r: seq<Booking>)
    ensures |r| == |bookings|
    ensures forall i :: 0 <= i < |bookings| ==> r[i] == ApplyHint(bookings[i], storage, parse)
  {
    seq(|bookings|, i requires 0 <= i < |bookings| => ApplyHint(bookings[i], storage, parse))
  }

  // ---------------------------------------------------------------------------
  // The pet pass

  /** `uniquePetIds` */
  function PetRequests(bookings: seq<Booking>): (r: seq<Json>)
    ensures forall x :: x in r ==> Truthy(x)
    ensures forall i, j :: 0 <= i < j < |r| ==> r[i] != r[j]
    ensures forall i :: 0 <= i < |bookings| && Truthy(bookings[i].petId) ==> bookings[i].petId in r
  {
    var ids := seq(|bookings|, i requires 0 <= i < |bookings| => bookings[i].petId);
    assert forall i :: 0 <= i < |bookings| ==> ids[i] == bookings[i].petId;
    SeqUtil.Distinct(SeqUtil.Filter(ids, Truthy))
  }

  /** `r.petId ? petMap.get(r.petId) : null` */
  function PetFor(petId: Json, requested: seq<Json>, getPet: Json -> Fetch): Json {
    if !Truthy(petId) then Null
    else if petId in requested then Fetched(getPet(petId))
    else Undefined
  }

  function EnrichPet(r: Booking, p: Json): (e: Booking)
    ensures e == r.(petName := e.petName, petBreed := e.petBreed, petAge := e.petAge)
    ensures Truthy(r.petName) ==> e.petName == r.petName
    ensures Truthy(r.petBreed) ==> e.petBreed == r.petBreed
    ensures Truthy(r.petAge) ==> e.petAge == r.petAge
    ensures TruthyOrEmpty(e.petName) && TruthyOrEmpty(e.petBreed) && TruthyOrEmpty(e.petAge)
  {
    r.(petName := Or(Or(r.petName, Get(p, "name")), Str("")),
       petBreed := Or(Or(r.petBreed, Get(p, "breed")), Str("")),
       petAge := Or(Or(r.petAge, Get(p, "age")), Str("")))
  }

  function PetPass(bookings: seq<Booking>, getPet: Json -> Fetch): (r: seq<Booking>)
    ensures |r| == |bookings|
    ensures forall i :: 0 <= i < |bookings| ==>
      r[i] == EnrichPet(bookings[i], if Truthy(bookings[i].petId) then Fetched(getPet(bookings[i].petId)) else Null)
  {
    var requested := PetRequests(bookings);
    seq(|bookings|, i requires 0 <= i < |bookings| =>
      EnrichPet(bookings[i], PetFor(bookings[i].petId, requested, getPet)))
  }

  /** A reservation whose record does not name the pet takes the name from
      the fetched pet. */
  lemma PetNameFromPetRecord(bookings: seq<Booking>, getPet: Json -> Fetch, i: nat)
    requires i < |bookings| && !Truthy(bookings[i].petName) && Truthy(bookings[i].petId)
    requires Truthy(Get(Fetched(getPet(bookings[i].petId)), "name"))
    ensures PetPass(bookings, getPet)[i].petName == Get(Fetched(getPet(bookings[i].petId)), "name")
  {
  }

  // ---------------------------------------------------------------------------
  // The page

  const LoginRequired := "Debes iniciar sesión para ver tus reservas."

  datatype Page = Page(reservations: seq<Booking>, error: Json)

  /** The base list, or `None` where mapping a `null` record throws. */
  function BaseList(data: Json, user: Json, randomId: nat -> Json): (r: Option<seq<Booking>>)
    ensures data.Arr? && !HasNullishItem(data.items) ==>
      && r.Some? && |r.value| == |data.items|
      && forall i :: 0 <= i < |data.items| ==> r.value[i] == BaseBooking(data.items[i], user, randomId(i))
    ensures !data.Arr? ==> r == Some([])
    ensures data.Arr? && HasNullishItem(data.items) ==> r.None?
  {
    if !data.Arr? then Some([])
    else if HasNullishItem(data.items) then None
    else Some(seq(|data.items|, i requires 0 <= i < |data.items| => BaseBooking(data.items[i], user, randomId(i))))
  }

  /** The three passes in the page's order: services, the stored hint,
      pets.  None of them adds or drops a reservation. */
  function Enrich(base: seq<Booking>, linksFetch: Fetch, getService: Json -> Fetch,
                  storage: Api.Storage, parse: string -> Option<Json>, getPet: Json -> Fetch): (r: seq<Booking>)
    ensures |r| == |base|
    ensures forall i :: 0 <= i < |base| ==> SameCore(r[i], base[i])
    ensures forall i :: 0 <= i < |base| && Truthy(base[i].serviceName) ==> r[i].serviceName == base[i].serviceName
  {
    var out := PetPass(HintPass(ServicePass(base, linksFetch, getService), storage, parse), getPet);
    assert forall i :: 0 <= i < |base| ==> SameCore(out[i], base[i]) by {
      forall i | 0 <= i < |base| ensures SameCore(out[i], base[i]) {
        PassesKeepCore(base, linksFetch, getService, storage, parse, getPet, i);
      }
    }
    assert forall i :: 0 <= i < |base| && Truthy(base[i].serviceName) ==> out[i].serviceName == base[i].serviceName by {
      forall i | 0 <= i < |base| && Truthy(base[i].serviceName) ensures out[i].serviceName == base[i].serviceName {
        PassesKeepServiceName(base, linksFetch, getService, storage, parse, getPet, i);
      }
    }
    out
  }

  /** `fetchReservations`: `user` is the parsed stored user (`null` when
      there is none or it does not parse), `typeError` the error thrown by a
      `null` record. */
  function LoadReservations(user: Json, reservationsFetch: Fetch, linksFetch: Fetch,
                            getService: Json -> Fetch, storage: Api.Storage,
                            parse: string -> Option<Json>, getPet: Json -> Fetch,
                            randomId: nat -> Json, typeError: Json): (r: Page)
    ensures !Truthy(Get(user, "id")) ==> r == Page([], Str(LoginRequired))
    ensures Truthy(r.error) ==> r.reservations == []
    ensures Truthy(Get(user, "id")) && reservationsFetch.Threw? ==>
      r == Page([], Api.HandleApiError(reservationsFetch.error).message)
    ensures (Truthy(Get(user, "id")) && reservationsFetch.Responded? &&
             BaseList(Get(reservationsFetch.response, "data"), user, randomId).Some?) ==>
      && r.error == Str("")
      && |r.reservations| == |BaseList(Get(reservationsFetch.response, "data"), user, randomId).value|
  {
    if !Truthy(Get(user, "id")) then Page([], Str(LoginRequired))
    else match reservationsFetch
      case Threw(e) => Page([], Api.ErrorText(e, LoadFailed))
      case Responded(response) =>
        LoadedPage(Get(response, "data"), user, linksFetch, getService, storage, parse, getPet, randomId, typeError)
  }

  const LoadFailed := "No se pudieron cargar tus reservas."

  /** The page once the reservations request answered with `data`: the
      enriched list, or the error a `null` record throws. */
  function LoadedPage(data: Json, user: Json, linksFetch: Fetch,
                      getService: Json -> Fetch, storage: Api.Storage,
                      parse: string -> Option<Json>, getPet: Json -> Fetch,
                      randomId: nat -> Json, typeError: Json): (r: Page)
    ensures Truthy(r.error) ==> r.reservations == []
    ensures BaseList(data, user, randomId).None? ==> r.reservations == [] && Truthy(r.error)
    ensures BaseList(data, user, randomId).Some? ==>
      r.error == Str("") && |r.reservations| == |BaseList(data, user, randomId).value|
  {
    match BaseList(data, user, randomId)
    case None => Page([], Api.ErrorText(typeError, LoadFailed))
    case Some(base) =>
      Page(Enrich(base, linksFetch, getService, storage, parse, getPet), Str(""))
  }

  /** The three passes only ever add to a reservation: its id, date, time,
      status, notes, owner and pet id are the ones the base mapping read from
      the record. */
  predicate SameCore(a: Booking, b: Booking) {
    a.id == b.id && a.date == b.date && a.time == b.time && a.status == b.status && a.notes == b.notes
    && a.ownerName == b.ownerName && a.ownerEmail == b.ownerEmail && a.ownerPhone == b.ownerPhone
    && a.petId == b.petId
  }

  lemma PassesKeepCore(base: seq<Booking>, linksFetch: Fetch, getService: Json -> Fetch,
                       storage: Api.Storage, parse: string -> Option<Json>, getPet: Json -> Fetch, i: nat)
    requires i < |base|
    ensures var out := PetPass(HintPass(ServicePass(base, linksFetch, getService), storage, parse), getPet);
      |out| == |base| && SameCore(out[i], base[i])
  {
    var s := ServicePass(base, linksFetch, getService);
    assert SameCore(s[i], base[i]);
    var h := HintPass(s, storage, parse);
    assert SameCore(h[i], s[i]);
    var p := PetPass(h, getPet);
    assert SameCore(p[i], h[i]);
  }

  /** Once a pass has named a reservation's service, later passes keep that
      name. */
  lemma PassesKeepServiceName(base: seq<Booking>, linksFetch: Fetch, getService: Json -> Fetch,
                              storage: Api.Storage, parse: string -> Option<Json>, getPet: Json -> Fetch, i: nat)
    requires i < |base| && Truthy(base[i].serviceName)
    ensures PetPass(HintPass(ServicePass(base, linksFetch, getService), storage, parse), getPet)[i].serviceName
      == base[i].serviceName
  {
    var s := ServicePass(base, linksFetch, getService);
    assert s[i].serviceName == base[i].serviceName;
    var h := HintPass(s, storage, parse);
    assert h[i].serviceName == s[i].serviceName;
  }

  // ---------------------------------------------------------------------------
  // Cancelling

  /** `prev.filter(r => r.id !== reservationId)` after the backend accepted
      the cancellation. */
  function Cancel(bookings: seq<Booking>, reservationId: Json): (r: seq<Booking>)
    ensures forall b :: b in r <==> b in bookings && !StrictEq(b.id, reservationId)
    ensures |r| <= |bookings|
  {
    SeqUtil.Filter(bookings, (b: Booking) => !StrictEq(b.id, reservationId))
  }

  /** Cancelling removes every reservation with that id and nothing else,
      and cancelling it again changes nothing. */
  lemma CancelLaws(bookings: seq<Booking>, reservationId: Json)
    ensures forall i :: 0 <= i < |bookings| && !StrictEq(bookings[i].id, reservationId) ==> bookings[i] in Cancel(bookings, reservationId)
    ensures Cancel(Cancel(bookings, reservationId), reservationId) == Cancel(bookings, reservationId)
  {
    SeqUtil.FilterIdempotent(bookings, (b: Booking) => !StrictEq(b.id, reservationId));
  }
}

=== FILE: optional.dfy ===
/** A value that may be missing: `undefined`, `null` or `NaN` in the pages,
    depending on where it is used; and the outcome of a step that either
    produces a value or stops with an error. */
module Optional {
  datatype Option<+T> = None | Some(value: T) {
    function GetOr(default: T): T {
      match this
      case Some(v) => v
      case None => default
    }
  }

  datatype Result<+T, +E> = Success(value: T) | Failure(error: E)
}

=== FILE: perfil.dfy ===
/** The profile page's small rules (`Perfil.jsx`): the "member since" date,
    the date formatter's invalid-date dash, and the badge colour and label of
    a reservation status.

    Dates are time values (milliseconds since the epoch).  `parseDate` is the
    engine's `Date.parse`, `None` where it yields `NaN`; the locale text that
    `toLocaleDateString` produces is not modelled, only which instant it
    shows. */
module Perfil {
  import opened Optional
  import opened JsValue

  /** The largest distance from the epoch a `Date` can hold. */
  const MaxTime := 8_640_000_000_000_000

  /** A numeric timestamp above this is already in milliseconds. */
  const MillisThreshold := 1_000_000_000_000

  /** TimeClip: an out-of-range time is `NaN`. */
  function TimeClip(t: int): (r: Option<int>)
    ensures r.Some? <==> -MaxTime <= t <= MaxTime
    ensures r.Some? ==> r.value == t
  {
    if -MaxTime <= t <= MaxTime then Some(t) else None
  }

  /** The time value of `new Date(v)` with one argument. */
  function DateValue(v: Json, parseDate: string -> Option<int>): (r: Option<int>)
    ensures v == Null ==> r == Some(0)
    ensures v == Undefined ==> r.None?
    ensures v.Num? ==> r == TimeClip(v.n)
    ensures v.Bool? ==> r == Some(if v.b then 1 else 0)
    ensures v.Str? && parseDate(v.s).None? ==> r.None?
    ensures v.Str? && parseDate(v.s).Some? ==> r == TimeClip(parseDate(v.s).value)
  {
    match v
    case Undefined => None
    case Null => Some(0)
    case Bool(b) => Some(if b then 1 else 0)
    case Num(n) => TimeClip(n)
    case Str(s) => if parseDate(s).Some? then TimeClip(parseDate(s).value) else None
    case _ => if parseDate(ToJsString(v)).Some? then TimeClip(parseDate(ToJsString(v)).value) else None
  }

  /** `u?.member_since ?? u?.created_at ?? u?.createdAt` */
  function MemberSinceRaw(u: Json): Json {
    Coalesce(Coalesce(Get(u, "member_since"), Get(u, "created_at")), Get(u, "createdAt"))
  }

  /** `getMemberSince(u)`: the instant whose ISO text it returns, `None` for
      `null`.  A number is a timestamp: above 10^12 in milliseconds,
      otherwise in seconds; anything else goes to `new Date` as it is, so a
      text that does not parse gives `None`. */
  function GetMemberSince(u: Json, parseDate: string -> Option<int>): (r: Option<int>)
    ensures IsNullish(MemberSinceRaw(u)) ==> r.None?
    ensures MemberSinceRaw(u).Num? && MemberSinceRaw(u).n > MillisThreshold ==> r == TimeClip(MemberSinceRaw(u).n)
    ensures MemberSinceRaw(u).Num? && MemberSinceRaw(u).n <= MillisThreshold ==> r == TimeClip(MemberSinceRaw(u).n * 1000)
    ensures !IsNullish(MemberSinceRaw(u)) && !MemberSinceRaw(u).Num? ==> r == DateValue(MemberSinceRaw(u), parseDate)
    ensures MemberSinceRaw(u).Str? && parseDate(MemberSinceRaw(u).s).None? ==> r.None?
    ensures r.Some? ==> -MaxTime <= r.value <= MaxTime
  {
    var raw := MemberSinceRaw(u);
    if IsNullish(raw) then None
    else
      var value := if raw.Num? then (if raw.n > MillisThreshold then raw else Num(raw.n * 1000)) else raw;
      DateValue(value, parseDate)
  }

  /** The same moment stored in seconds or in milliseconds gives the same
      member-since date, for any moment between 9 September 2001 (10^9
      seconds) and 10^12 seconds.  (Outside that window the rule misreads
      one of the units: a millisecond timestamp up to 10^12 is read as
      seconds.) */
  lemma TimestampUnits(s: int, parseDate: string -> Option<int>)
    requires 1_000_000_000 < s <= MillisThreshold
    ensures GetMemberSince(Obj([("member_since", Num(s))]), parseDate) == Some(s * 1000)
    ensures GetMemberSince(Obj([("member_since", Num(s * 1000))]), parseDate) == Some(s * 1000)
  {
    LookupAt([("member_since", Num(s))], 0);
    LookupAt([("member_since", Num(s * 1000))], 0);
  }

  /** The first of the three fields that is set wins, even when it holds no
      date: an unparseable `member_since` hides a valid `created_at`. */
  lemma FirstSetFieldWins(text: string, created: int, parseDate: string -> Option<int>)
    requires parseDate(text).None?
    ensures GetMemberSince(Obj([("member_since", Str(text)), ("created_at", Num(created))]), parseDate).None?
  {
    LookupAt([("member_since", Str(text)), ("created_at", Num(created))], 0);
  }

  /** What `formatDate` shows: the dash, or a date for an instant. */
  datatype Display = Dash | LongDate(time: int)

  /** `formatDate(dateString)` */
  function FormatDate(arg: Json, parseDate: string -> Option<int>): (r: Display)
    ensures r.Dash? <==> DateValue(arg, parseDate).None?
    ensures r.LongDate? ==> r.time == DateValue(arg, parseDate).value
  {
    match DateValue(arg, parseDate)
    case None => Dash
    case Some(t) => LongDate(t)
  }

  /** The profile card's `formatDate(getMemberSince(user))` as written.  The
      ISO text of an instant parses back to that instant, so only the `null`
      case goes through `new Date` in a way that matters: `new Date(null)` is
      the epoch, a valid date. */
  function MemberSinceShownAsWritten(u: Json, parseDate: string -> Option<int>): (r: Display)
    ensures GetMemberSince(u, parseDate).Some? ==> r == LongDate(GetMemberSince(u, parseDate).value)
    ensures GetMemberSince(u, parseDate).None? ==> r == FormatDate(Null, parseDate)
  {
    match GetMemberSince(u, parseDate)
    case None => FormatDate(Null, parseDate)
    case Some(t) => LongDate(t)
  }

  /** A profile with no member-since date, or an invalid one, shows the
      epoch (1970-01-01T00:00Z, in the reader's local time) instead of the
      dash; an empty profile object is such a profile. */
  lemma MissingDateShowsEpoch(u: Json, parseDate: string -> Option<int>)
    requires GetMemberSince(u, parseDate).None?
    ensures MemberSinceShownAsWritten(u, parseDate) == LongDate(0)
    ensures MemberSinceShown(u, parseDate) == Dash
    ensures GetMemberSince(Obj([]), parseDate).None?
  {
  }

  /** The member-since line as intended: the dash when there is no valid
      date. */
  function MemberSinceShown(u: Json, parseDate: string -> Option<int>): (r: Display)
    ensures r.Dash? <==> GetMemberSince(u, parseDate).None?
    ensures r.LongDate? ==> r.time == GetMemberSince(u, parseDate).value
  {
    match GetMemberSince(u, parseDate)
    case None => Dash
    case Some(t) => LongDate(t)
  }

  /** The two agree whenever there is a date to show. */
  lemma ShownAgreesWhenDated(u: Json, parseDate: string -> Option<int>)
    requires GetMemberSince(u, parseDate).Some?
    ensures MemberSinceShown(u, parseDate) == MemberSinceShownAsWritten(u, parseDate)
  {
  }

  // ---------------------------------------------------------------------------
  // Reservation status

  predicate IsKnownStatus(status: Json) {
    status == Str("completed") || status == Str("confirmed") || status == Str("pending") || status == Str("cancelled")
  }

  /** `getStatusVariant(status)`: the badge colour. */
  function StatusVariant(status: Json): (r: string)
    ensures r == "success" <==> status == Str("completed")
    ensures r == "primary" <==> status == Str("confirmed")
    ensures r == "warning" <==> status == Str("pending")
    ensures r == "danger" <==> status == Str("cancelled")
    ensures r == "secondary" <==> !IsKnownStatus(status)
  {
    if status == Str("completed") then "success"
    else if status == Str("confirmed") then "primary"
    else if status == Str("pending") then "warning"
    else if status == Str("cancelled") then "danger"
    else "secondary"
  }

  /** `getStatusText(status)`: the label, or the status itself. */
  function StatusText(status: Json): (r: Json)
    ensures status == Str("completed") ==> r == Str("Completada")
    ensures status == Str("confirmed") ==> r == Str("Confirmada")
    ensures status == Str("pending") ==> r == Str("Pendiente")
    ensures status == Str("cancelled") ==> r == Str("Cancelada")
    ensures !IsKnownStatus(status) ==> r == status
  {
    if status == Str("completed") then Str("Completada")
    else if status == Str("confirmed") then Str("Confirmada")
    else if status == Str("pending") then Str("Pendiente")
    else if status == Str("cancelled") then Str("Cancelada")
    else status
  }

  /** Exactly the four known statuses get their own colour and a Spanish
      label, each a different one; any other status, the Spanish statuses the
      other pages use included, is grey and shown as it is. */
  lemma StatusBadges(a: Json, b: Json)
    ensures StatusVariant(a) != "secondary" <==> IsKnownStatus(a)
    ensures StatusText(a) != a <==> IsKnownStatus(a)
    ensures IsKnownStatus(a) && IsKnownStatus(b) && a != b ==>
      StatusVariant(a) != StatusVariant(b) && StatusText(a) != StatusText(b)
    ensures StatusVariant(Str("pendiente")) == "secondary" && StatusText(Str("pendiente")) == Str("pendiente")
  {
  }
}

=== FILE: reservas.dfy ===
/** The booking page (`src/pages/Reservas.jsx`): the ten-field form, the
    stored-user prefill, the validation chain of `handleSubmit`, the request
    bodies it sends, the local service hint it leaves for the bookings page,
    and the table of bookable times.  The HTTP calls are replaced by their
    responses, which are parameters. */
module Reservas {
  import opened Optional
  import opened JsValue
  import JsString
  import EmailPattern
  import Api

  datatype Field =
    | UserName | UserEmail | UserPhone | PetName | PetBreed | PetAge
    | ServiceId | Date | Time | Notes

  datatype Form = Form(
    userName: string, userEmail: string, userPhone: string,
    petName: string, petBreed: string, petAge: string,
    serviceId: string, date: string, time: string, notes: string)

  const EmptyForm := Form("", "", "", "", "", "", "", "", "", "")

  function Value(f: Form, x: Field): string {
    match x
    case UserName => f.userName
    case UserEmail => f.userEmail
    case UserPhone => f.userPhone
    case PetName => f.petName
    case PetBreed => f.petBreed
    case PetAge => f.petAge
    case ServiceId => f.serviceId
    case Date => f.date
    case Time => f.time
    case Notes => f.notes
  }

  /** `{...prev, [name]: value}` */
  function SetField(f: Form, x: Field, v: string): (r: Form)
    ensures Value(r, x) == v
    ensures forall y :: y != x ==> Value(r, y) == Value(f, y)
  {
    match x
    case UserName => f.(userName := v)
    case UserEmail => f.(userEmail := v)
    case UserPhone => f.(userPhone := v)
    case PetName => f.(petName := v)
    case PetBreed => f.(petBreed := v)
    case PetAge => f.(petAge := v)
    case ServiceId => f.(serviceId := v)
    case Date => f.(date := v)
    case Time => f.(time := v)
    case Notes => f.(notes := v)
  }

  /** Two forms that agree on every field are the same form, so `SetField`
      changes the named field and nothing else. */
  lemma FormExtensional(f: Form, g: Form)
    requires forall x :: Value(f, x) == Value(g, x)
    ensures f == g
  {
    assert Value(f, UserName) == Value(g, UserName);
    assert Value(f, UserEmail) == Value(g, UserEmail);
    assert Value(f, UserPhone) == Value(g, UserPhone);
    assert Value(f, PetName) == Value(g, PetName);
    assert Value(f, PetBreed) == Value(g, PetBreed);
    assert Value(f, PetAge) == Value(g, PetAge);
    assert Value(f, ServiceId) == Value(g, ServiceId);
    assert Value(f, Date) == Value(g, Date);
    assert Value(f, Time) == Value(g, Time);
    assert Value(f, Notes) == Value(g, Notes);
  }

  /** Writing back a field's own value changes nothing; a second write to the
      same field replaces the first. */
  lemma SetFieldLaws(f: Form, x: Field, v: string, w: string)
    ensures SetField(f, x, Value(f, x)) == f
    ensures SetField(SetField(f, x, v), x, w) == SetField(f, x, w)
  {
    FormExtensional(SetField(f, x, Value(f, x)), f);
    FormExtensional(SetField(SetField(f, x, v), x, w), SetField(f, x, w));
  }

  /** The page state the form handlers touch. */
  datatype State = State(form: Form, error: string, success: string)

  /** `handleInputChange`: the named field takes the new value and both
      messages are cleared. */
  function InputChange(st: State, x: Field, v: string): (r: State)
    ensures Value(r.form, x) == v
    ensures forall y :: y != x ==> Value(r.form, y) == Value(st.form, y)
    ensures r.error == "" && r.success == ""
  {
    State(SetField(st.form, x, v), "", "")
  }

  /** The prefill from the stored user: a truthy `name`, `email` or `phone`
      replaces the form's value, anything else keeps it.  `user` is what
      `JSON.parse` returned; a value that is not an object has no fields, which
      is also what the page ends up with when parsing fails. */
  function Prefill(f: Form, user: Json): (r: Form)
    ensures r.userName == (if Truthy(Get(user, "name")) then ToJsString(Get(user, "name")) else f.userName)
    ensures r.userEmail == (if Truthy(Get(user, "email")) then ToJsString(Get(user, "email")) else f.userEmail)
    ensures r.userPhone == (if Truthy(Get(user, "phone")) then ToJsString(Get(user, "phone")) else f.userPhone)
    ensures forall x :: x !in {UserName, UserEmail, UserPhone} ==> Value(r, x) == Value(f, x)
  {
    f.(userName := if Truthy(Get(user, "name")) then ToJsString(Get(user, "name")) else f.userName,
       userEmail := if Truthy(Get(user, "email")) then ToJsString(Get(user, "email")) else f.userEmail,
       userPhone := if Truthy(Get(user, "phone")) then ToJsString(Get(user, "phone")) else f.userPhone)
  }

  /** A stored user without those fields leaves the form as it was, and
      prefilling twice from the same user is prefilling once. */
  lemma PrefillLaws(f: Form, user: Json)
    ensures Get(user, "name") == Undefined && Get(user, "email") == Undefined && Get(user, "phone") == Undefined ==>
      Prefill(f, user) == f
    ensures Prefill(Prefill(f, user), user) == Prefill(f, user)
  {
  }

  const NameRequired := "El nombre es obligatorio"
  const EmailRequired := "El email es obligatorio"
  const PetNameRequired := "El nombre de la mascota es obligatorio"
  const ServiceRequired := "Debe seleccionar un servicio"
  const DateRequired := "Debe seleccionar una fecha"
  const TimeRequired := "Debe seleccionar una hora"
  const EmailInvalid := "Por favor ingrese un email válido"

  /** The three text fields hold something other than blanks. */
  predicate TextsGiven(f: Form) {
    !JsString.AllWhitespace(f.userName) && !JsString.AllWhitespace(f.userEmail) && !JsString.AllWhitespace(f.petName)
  }

  /** The checks at the top of `handleSubmit`, in order; the first that fails
      is the error thrown.  The three text fields must be non-blank; the three
      selections only non-empty; the e-mail pattern is matched against the e-mail as
      typed, surrounding spaces included. */
  function Validate(f: Form): (r: Option<string>)
    ensures r.None? <==>
      && !JsString.AllWhitespace(f.userName)
      && !JsString.AllWhitespace(f.userEmail)
      && !JsString.AllWhitespace(f.petName)
      && f.serviceId != "" && f.date != "" && f.time != ""
      && EmailPattern.MatchesEmailRegex(f.userEmail)
    ensures JsString.AllWhitespace(f.userName) ==> r == Some(NameRequired)
    ensures !JsString.AllWhitespace(f.userName) && JsString.AllWhitespace(f.userEmail) ==> r == Some(EmailRequired)
    ensures (!JsString.AllWhitespace(f.userName) && !JsString.AllWhitespace(f.userEmail)
      && JsString.AllWhitespace(f.petName)) ==> r == Some(PetNameRequired)
    ensures TextsGiven(f) && f.serviceId == "" ==> r == Some(ServiceRequired)
    ensures TextsGiven(f) && f.serviceId != "" && f.date == "" ==> r == Some(DateRequired)
    ensures TextsGiven(f) && f.serviceId != "" && f.date != "" && f.time == "" ==> r == Some(TimeRequired)
    ensures (TextsGiven(f) && f.serviceId != "" && f.date != "" && f.time != ""
      && !EmailPattern.MatchesEmailRegex(f.userEmail)) ==> r == Some(EmailInvalid)
    ensures r.Some? ==> r.value != ""
  {
    JsString.TrimEmptyIffBlank(f.userName);
    JsString.TrimEmptyIffBlank(f.userEmail);
    JsString.TrimEmptyIffBlank(f.petName);
    EmailPattern.EmailIff(f.userEmail);
    if JsString.Trim(f.userName) == "" then Some(NameRequired)
    else if JsString.Trim(f.userEmail) == "" then Some(EmailRequired)
    else if JsString.Trim(f.petName) == "" then Some(PetNameRequired)
    else if f.serviceId == "" then Some(ServiceRequired)
    else if f.date == "" then Some(DateRequired)
    else if f.time == "" then Some(TimeRequired)
    else if !EmailPattern.IsEmail(f.userEmail) then Some(EmailInvalid)
    else None
  }

  /** Spaces around an otherwise valid e-mail are not trimmed away: the form
      is refused with the invalid-e-mail message. */
  lemma PaddedEmailRejected(f: Form)
    requires !JsString.AllWhitespace(f.userName) && !JsString.AllWhitespace(f.petName)
    requires f.serviceId != "" && f.date != "" && f.time != ""
    requires !JsString.AllWhitespace(f.userEmail) && |f.userEmail| > 0 && f.userEmail[0] == ' '
    ensures Validate(f) == Some(EmailInvalid)
  {
    JsString.TrimEmptyIffBlank(f.userName);
    JsString.TrimEmptyIffBlank(f.userEmail);
    JsString.TrimEmptyIffBlank(f.petName);
    assert JsString.IsWhitespace(f.userEmail[0]);
  }

  /** The message the page shows for a rejected form: the thrown error goes
      through `handleAPIError`, which hands back its message. */
  lemma ValidationMessageShown(f: Form)
    requires Validate(f).Some?
    ensures Api.HandleApiError(Api.LocalError(Validate(f).value)).message == Str(Validate(f).value)
  {
    Api.HandleLocalError(Validate(f).value);
  }

  // ---------------------------------------------------------------------------
  // Request bodies

  /** `currentUser?.id` */
  function UserId(currentUser: Json): Json {
    Get(currentUser, "id")
  }

  /** The body of the create-pet request. */
  function PetPayload(f: Form, currentUser: Json): (r: Json)
    ensures Get(r, "name") == Str(f.petName) && Get(r, "breed") == Str(f.petBreed)
    ensures Get(r, "age") == Str(f.petAge) && Get(r, "user_id") == UserId(currentUser)
  {
    var fields := [("name", Str(f.petName)), ("breed", Str(f.petBreed)), ("age", Str(f.petAge)),
                   ("user_id", UserId(currentUser))];
    LookupAt(fields, 0); LookupAt(fields, 1); LookupAt(fields, 2); LookupAt(fields, 3);
    Obj(fields)
  }

  /** `petRes?.data?.id || null`; a failed request is `petResponse == Undefined`. */
  function PetId(petResponse: Json): (r: Json)
    ensures Truthy(r) || r == Null
    ensures Truthy(r) ==> r == Get(Get(petResponse, "data"), "id")
  {
    Or(Get(Get(petResponse, "data"), "id"), Null)
  }

  /** The body of the create-reservation request, before serialisation. */
  function ReservationPayload(f: Form, currentUser: Json, petId: Json): (r: Json)
    ensures Get(r, "user_id") == UserId(currentUser)
    ensures Get(r, "date") == Str(f.date) && Get(r, "time") == Str(f.time)
    ensures Get(r, "notes") == Str(f.notes)
    ensures Get(r, "pet_id") == (if Truthy(petId) then petId else Undefined)
  {
    var fields := [("user_id", UserId(currentUser)), ("date", Str(f.date)), ("time", Str(f.time)),
                   ("notes", Str(TextOr(Str(f.notes)))), ("pet_id", Or(petId, Undefined))];
    LookupAt(fields, 0); LookupAt(fields, 1); LookupAt(fields, 2); LookupAt(fields, 3); LookupAt(fields, 4);
    Obj(fields)
  }

  /** `JSON.stringify` leaves out a property whose value is `undefined`. */
  function DropUndefined(fields: seq<(string, Json)>): (r: seq<(string, Json)>)
    ensures forall i :: 0 <= i < |r| ==> r[i] in fields && !r[i].1.Undefined?
    ensures forall i :: 0 <= i < |fields| && !fields[i].1.Undefined? ==> fields[i] in r
  {
    if fields == [] then []
    else if fields[0].1.Undefined? then DropUndefined(fields[1..])
    else [fields[0]] + DropUndefined(fields[1..])
  }

  /** The reservation body that reaches the server has a `pet_id` exactly when
      the pet was created with a truthy id. */
  lemma ReservationBodyPetId(f: Form, currentUser: Json, petResponse: Json)
    ensures var sent := DropUndefined(ReservationPayload(f, currentUser, PetId(petResponse)).fields);
      HasKey(sent, "pet_id") <==> Truthy(Get(Get(petResponse, "data"), "id"))
  {
    var fields := ReservationPayload(f, currentUser, PetId(petResponse)).fields;
    var sent := DropUndefined(fields);
    var petId := PetId(petResponse);
    if Truthy(petId) {
      assert fields[4] == ("pet_id", petId);
      assert fields[4] in sent;
      var k :| 0 <= k < |sent| && sent[k] == fields[4];
    } else {
      forall i | 0 <= i < |sent|
        ensures sent[i].0 != "pet_id"
      {
        assert sent[i] in fields;
      }
    }
  }

  /** Whether the created reservation is patched with the pet id afterwards. */
  predicate NeedsPetLink(createdReservation: Json, petId: Json) {
    Truthy(Get(createdReservation, "id")) && Truthy(petId)
  }

  /** `parseInt(serviceId, 10)` as it reaches the server: `NaN` is sent as
      `null`. */
  function ServiceIdNumber(serviceId: string): (r: Json)
    ensures r.Num? || r == Null
  {
    match JsString.ParseInt(serviceId)
    case Some(n) => Num(n)
    case None => Null
  }

  /** The body that links the reservation to the chosen service. */
  function LinkPayload(createdReservation: Json, f: Form): (r: Json)
    ensures Get(r, "reservation_id") == Get(createdReservation, "id")
    ensures Get(r, "service_id") == ServiceIdNumber(f.serviceId)
  {
    var fields := [("reservation_id", Get(createdReservation, "id")), ("service_id", ServiceIdNumber(f.serviceId))];
    LookupAt(fields, 0); LookupAt(fields, 1);
    Obj(fields)
  }

  /** The select's options carry `String(id)`, so the link names the service
      that was chosen. */
  lemma LinkNamesChosenService(createdReservation: Json, f: Form, id: int)
    requires f.serviceId == JsString.IntToString(id)
    ensures Get(LinkPayload(createdReservation, f), "service_id") == Num(id)
  {
    JsString.ParseIntOfIntToString(id);
  }

  // ---------------------------------------------------------------------------
  // The local service hint

  /** `services.find(s => s.id === parseInt(serviceId, 10))`.  Reading `id` of
      a `null` or `undefined` entry throws, which the page swallows without
      writing a hint: that is `None` here as well. */
  function FindService(services: seq<Json>, id: Option<int>): (r: Option<Json>)
    ensures r.Some? ==> id.Some? && r.value in services && StrictEq(Get(r.value, "id"), Num(id.value))
  {
    if services == [] || id.None? then None
    else if IsNullish(services[0]) then None
    else if StrictEq(Get(services[0], "id"), Num(id.value)) then Some(services[0])
    else FindService(services[1..], id)
  }

  /** The first service with the id is found when no entry before it is
      `null`. */
  lemma {:induction false} FindServiceFindsFirst(services: seq<Json>, id: int, k: nat)
    requires k < |services| && StrictEq(Get(services[k], "id"), Num(id))
    requires forall i :: 0 <= i < k ==> !IsNullish(services[i]) && !StrictEq(Get(services[i], "id"), Num(id))
    ensures FindService(services, Some(id)) == Some(services[k])
  {
    if k > 0 {
      assert !IsNullish(services[0]) && !StrictEq(Get(services[0], "id"), Num(id));
      FindServiceFindsFirst(services[1..], id, k - 1);
    }
  }

  function HintKey(reservationId: Json): string {
    "reservation_hint_" + ToJsString(reservationId)
  }

  /** The hint written to storage, as key and parsed value, if one is written. */
  function Hint(createdReservation: Json, services: seq<Json>, f: Form): (r: Option<(string, Json)>)
    ensures r.Some? <==> Truthy(Get(createdReservation, "id")) && FindService(services, JsString.ParseInt(f.serviceId)).Some?
    ensures r.Some? ==>
      var sel := FindService(services, JsString.ParseInt(f.serviceId)).value;
      && r.value.0 == HintKey(Get(createdReservation, "id"))
      && r.value.1.Obj?
      && Get(r.value.1, "serviceId") == Get(sel, "id")
      && Get(r.value.1, "serviceName") == Get(sel, "name")
  {
    var found := FindService(services, JsString.ParseInt(f.serviceId));
    if Truthy(Get(createdReservation, "id")) && found.Some? then
      var fields := [("serviceId", Get(found.value, "id")), ("serviceName", Get(found.value, "name"))];
      LookupAt(fields, 0); LookupAt(fields, 1);
      Some((HintKey(Get(createdReservation, "id")), Obj(fields)))
    else None
  }

  /** After a successful booking the form is emptied and the success message
      shown. */
  const BookedMessage := "¡Reserva creada exitosamente! Te contactaremos pronto para confirmar."

  function AfterBooking(st: State): (r: State)
    ensures forall x :: Value(r.form, x) == ""
    ensures r.error == "" && r.success == BookedMessage
  {
    State(EmptyForm, "", BookedMessage)
  }

  // ---------------------------------------------------------------------------
  // Bookable times

  const AvailableTimes: seq<string> := [
    "09:00", "09:30", "10:00", "10:30", "11:00", "11:30",
    "12:00", "12:30", "14:00", "14:30", "15:00", "15:30",
    "16:00", "16:30", "17:00", "17:30", "18:00"
  ]

  function DigitValue(c: char): int {
    c as int - '0' as int
  }

  /** "HH:MM" with an hour below 24 and a minute below 60. */
  predicate IsClockTime(s: string) {
    && |s| == 5 && s[2] == ':'
    && JsString.IsDigit(s[0]) && JsString.IsDigit(s[1]) && JsString.IsDigit(s[3]) && JsString.IsDigit(s[4])
    && DigitValue(s[0]) * 10 + DigitValue(s[1]) < 24
    && DigitValue(s[3]) * 10 + DigitValue(s[4]) < 60
  }

  /** Minutes since midnight. */
  function Minutes(s: string): (r: int)
    requires IsClockTime(s)
    ensures 0 <= r < 24 * 60
  {
    (DigitValue(s[0]) * 10 + DigitValue(s[1])) * 60 + DigitValue(s[3]) * 10 + DigitValue(s[4])
  }

  /** Seventeen well-formed times, from 09:00 to 18:00, every half hour except
      for the break between 12:30 and 14:00. */
  lemma SlotTable()
    ensures |AvailableTimes| == 17
    ensures forall i :: 0 <= i < |AvailableTimes| ==> IsClockTime(AvailableTimes[i])
    ensures Minutes(AvailableTimes[0]) == 9 * 60 && Minutes(AvailableTimes[16]) == 18 * 60
    ensures forall i :: 0 <= i < 16 ==>
      Minutes(AvailableTimes[i + 1]) - Minutes(AvailableTimes[i]) == (if i == 7 then 90 else 30)
  {
    forall i | 0 <= i < |AvailableTimes|
      ensures IsClockTime(AvailableTimes[i])
    {
      SlotAt(i);
    }
    forall i | 0 <= i < 16
      ensures Minutes(AvailableTimes[i + 1]) - Minutes(AvailableTimes[i]) == (if i == 7 then 90 else 30)
    {
      SlotAt(i);
      SlotAt(i + 1);
    }
    SlotAt(0);
    SlotAt(16);
  }

  /** Slot `i` starts `30 * i` minutes after 09:00, one hour later still
      after the break. */
  lemma SlotAt(i: nat)
    requires i < 17
    ensures |AvailableTimes| == 17 && IsClockTime(AvailableTimes[i])
    ensures Minutes(AvailableTimes[i]) == 9 * 60 + 30 * i + (if i >= 8 then 60 else 0)
  {
    if i < 8 {
      MorningSlot(i);
    } else {
      AfternoonSlot(i);
    }
  }

  lemma MorningSlot(i: nat)
    requires i < 8
    ensures |AvailableTimes| == 17 && IsClockTime(AvailableTimes[i])
    ensures Minutes(AvailableTimes[i]) == 9 * 60 + 30 * i
  {
  }

  lemma AfternoonSlot(i: nat)
    requires 8 <= i < 17
    ensures |AvailableTimes| == 17 && IsClockTime(AvailableTimes[i])
    ensures Minutes(AvailableTimes[i]) == 10 * 60 + 30 * i
  {
  }

  /** Consequently the table is strictly increasing. */
  lemma SlotsIncreasing(i: nat, j: nat)
    requires i < j < |AvailableTimes|
    ensures IsClockTime(AvailableTimes[i]) && IsClockTime(AvailableTimes[j])
    ensures Minutes(AvailableTimes[i]) < Minutes(AvailableTimes[j])
  {
    SlotTable();
    if j > i + 1 {
      SlotsIncreasing(i, j - 1);
    }
  }
}

=== FILE: seq_util.dfy ===
/** `Array.prototype.filter` and `Array.from(new Set(...))` on the lists the
    pages keep: which elements survive, and that repeats are dropped. */
module SeqUtil {

  /** `s.filter(p)` */
  function Filter<T(==,!new)>(s: seq<T>, p: T -> bool): (r: seq<T>)
    ensures |r| <= |s|
    ensures forall x :: x in r <==> x in s && p(x)
    ensures (forall i :: 0 <= i < |s| ==> p(s[i])) ==> r == s
    ensures (forall i :: 0 <= i < |s| ==> !p(s[i])) ==> r == []
  {
    if s == [] then []
    else
      assert s == [s[0]] + s[1..];
      if p(s[0]) then [s[0]] + Filter(s[1..], p) else Filter(s[1..], p)
  }

  /** Filtering twice with the same test is filtering once. */
  lemma {:induction false} FilterIdempotent<T(!new)>(s: seq<T>, p: T -> bool)
    ensures Filter(Filter(s, p), p) == Filter(s, p)
  {
    if s != [] {
      FilterIdempotent(s[1..], p);
    }
  }

  /** Filtering a list with a head keeps the head exactly when it passes,
      in front of what survives of the rest. */
  lemma FilterCons<T(!new)>(x: T, s: seq<T>, p: T -> bool)
    ensures Filter([x] + s, p) == (if p(x) then [x] else []) + Filter(s, p)
  {
    assert ([x] + s)[1..] == s;
  }

  /** Filtering keeps order and repeats: the survivors of a concatenation
      are the survivors of each part, in turn. */
  lemma {:induction false} FilterAppend<T(!new)>(a: seq<T>, b: seq<T>, p: T -> bool)
    ensures Filter(a + b, p) == Filter(a, p) + Filter(b, p)
  {
    if a == [] {
      assert a + b == b;
    } else {
      var h := if p(a[0]) then [a[0]] else [];
      FilterAppend(a[1..], b, p);
      HeadSplit(a, b);
      FilterCons(a[0], a[1..] + b, p);
      FilterCons(a[0], a[1..], p);
      ConcatAssoc(h, Filter(a[1..], p), Filter(b, p));
    }
  }

  lemma HeadSplit<T>(a: seq<T>, b: seq<T>)
    requires a != []
    ensures a + b == [a[0]] + (a[1..] + b)
    ensures a == [a[0]] + a[1..]
  {
  }

  /** Dropping the last element of a concatenation drops it from the
      second part. */
  lemma InitOfAppend<T>(a: seq<T>, b: seq<T>)
    requires b != []
    ensures (a + b)[..|a + b| - 1] == a + b[..|b| - 1]
    ensures (a + b)[|a + b| - 1] == b[|b| - 1]
  {
  }

  lemma ConcatAssoc<T>(x: seq<T>, y: seq<T>, z: seq<T>)
    ensures x + (y + z) == (x + y) + z
  {
  }

  /** The test `y => y !== x`. */
  function Differs<T(==)>(x: T): T -> bool {
    y => y != x
  }

  /** `Array.from(new Set(s))`: each value once, at its first position. */
  function Distinct<T(==,!new)>(s: seq<T>): (r: seq<T>)
    ensures |r| <= |s|
    ensures forall x :: x in r <==> x in s
    ensures forall i, j :: 0 <= i < j < |r| ==> r[i] != r[j]
    decreases |s|
  {
    if s == [] then []
    else
      var rest := Filter(s[1..], Differs(s[0]));
      var d := Distinct(rest);
      HeadNotInRest(s, d);
      DistinctStepMembers(s, d);
      DistinctStepUnique(s[0], d);
      [s[0]] + d
  }

  /** The values left once the head's copies are filtered out differ from
      the head. */
  lemma HeadNotInRest<T(!new)>(s: seq<T>, d: seq<T>)
    requires s != []
    requires forall x :: x in d ==> x in Filter(s[1..], Differs(s[0]))
    ensures s[0] !in d
  {
    assert !Differs(s[0])(s[0]);
  }

  /** The head followed by the values of the rest, its copies aside, are the
      values of the list. */
  lemma DistinctStepMembers<T(!new)>(s: seq<T>, d: seq<T>)
    requires s != []
    requires forall x :: x in d <==> x in Filter(s[1..], Differs(s[0]))
    ensures forall x :: x in [s[0]] + d <==> x in s
  {
    assert s == [s[0]] + s[1..];
    forall x | x in s && x != s[0]
      ensures x in d
    {
      assert x in s[1..] && Differs(s[0])(x);
    }
  }

  /** A value in front of a list without repeats that does not hold it
      gives a list without repeats. */
  lemma DistinctStepUnique<T>(x: T, d: seq<T>)
    requires x !in d
    requires forall i, j :: 0 <= i < j < |d| ==> d[i] != d[j]
    ensures forall i, j :: 0 <= i < j < |[x] + d| ==> ([x] + d)[i] != ([x] + d)[j]
  {
    var r := [x] + d;
    forall i, j | 0 <= i < j < |r|
      ensures r[i] != r[j]
    {
      if i == 0 {
        assert r[j] == d[j - 1];
      } else {
        assert r[i] == d[i - 1] && r[j] == d[j - 1];
      }
    }
  }

  /** A list without repeats is its own `Distinct`. */
  lemma {:induction false} DistinctOfDistinct<T(!new)>(s: seq<T>)
    requires forall i, j :: 0 <= i < j < |s| ==> s[i] != s[j]
    ensures Distinct(s) == s
    decreases |s|
  {
    if s != [] {
      TailOfDistinct(s);
      DistinctOfDistinct(s[1..]);
      assert s == [s[0]] + s[1..];
    }
  }

  /** In a list without repeats, no later value equals the head, and the
      tail has no repeats either. */
  lemma TailOfDistinct<T(!new)>(s: seq<T>)
    requires s != []
    requires forall i, j :: 0 <= i < j < |s| ==> s[i] != s[j]
    ensures Filter(s[1..], Differs(s[0])) == s[1..]
    ensures forall i, j :: 0 <= i < j < |s[1..]| ==> s[1..][i] != s[1..][j]
  {
    var t := s[1..];
    forall i | 0 <= i < |t|
      ensures Differs(s[0])(t[i])
    {
      assert t[i] == s[i + 1];
    }
    forall i, j | 0 <= i < j < |t|
      ensures t[i] != t[j]
    {
      assert t[i] == s[i + 1] && t[j] == s[j + 1];
    }
  }
}

=== FILE: servicio_detalle.dfy ===
/** The service detail page (`ServicioDetalle.jsx`): it loads one service by
    the id in the route, shows it or a warning, and puts it in the cart. */
module ServicioDetalle {
  import opened JsValue
  import Api
  import Cart
  import opened Catalog

  const NotFoundMessage := "Servicio no encontrado."

  /** The detail page normalises a record like the catalogue page, with the
      route id standing in for a missing id, and keeps no picture list. */
  function DetailRecord(item: Json, routeId: string): (r: Service)
    ensures FallsBack(r.id, Get(item, "id"), Get(item, "service_id"), Str(routeId))
    ensures FallsBack(r.name, Get(item, "name"), Get(item, "title"), Str("Servicio"))
    ensures FallsBack(r.description, Get(item, "description"), Get(item, "detail"), Str("Sin descripción"))
    ensures FallsBack(r.price, Get(item, "price"), Undefined, Num(0))
    ensures FallsBack(r.duration, Get(item, "estimated_duration"), Get(item, "duration"), Num(60))
    ensures FallsBack(r.image, Get(item, "image"), Undefined, Null)
    ensures r.images == Undefined
  {
    NormalizeService(item, Str(routeId)).(images := Undefined)
  }

  /** What the page renders once loading ends. */
  datatype View = Shown(service: Service) | Warning(message: Json)

  /** The effect of the load followed by the render guard
      `if (error || !service)`. */
  function LoadDetail(fetch: Fetch, routeId: string): (r: View)
    ensures r.Warning? ==> Truthy(r.message)
    ensures fetch.Threw? ==> r == Warning(Api.HandleApiError(fetch.error).message)
    ensures fetch.Responded? && !Truthy(Get(fetch.response, "data")) ==> r == Warning(Str(NotFoundMessage))
    ensures fetch.Responded? && Truthy(Get(fetch.response, "data")) ==>
      r == Shown(DetailRecord(Get(fetch.response, "data"), routeId))
  {
    match fetch
    case Threw(e) =>
      Warning(Api.ErrorText(e, "No se pudo cargar el servicio."))
    case Responded(response) =>
      var item := Or(Get(response, "data"), Null);
      if !Truthy(item) then Warning(Str(NotFoundMessage))
      else Shown(DetailRecord(item, routeId))
  }

  /** A record without `id` or `service_id` takes the id in the route, so the
      page always shows a service with an id. */
  lemma DetailIdFromRoute(fetch: Fetch, routeId: string)
    requires fetch.Responded? && Truthy(Get(fetch.response, "data"))
    requires IsNullish(Get(Get(fetch.response, "data"), "id"))
    requires IsNullish(Get(Get(fetch.response, "data"), "service_id"))
    ensures LoadDetail(fetch, routeId).Shown?
    ensures LoadDetail(fetch, routeId).service.id == Str(routeId)
  {
  }

  // ---------------------------------------------------------------------------
  // Adding to the cart

  /** The object handed to the cart: the service's id, name, price and
      duration, and its picture already turned into a source. */
  function CartEntry(s: Service, base: string): (r: Json)
    ensures Truthy(r)
    ensures Get(r, "id") == s.id && Get(r, "price") == s.price
    ensures Get(r, "name") == s.name && Get(r, "duration") == s.duration
    ensures Get(r, "image") == ImageSrc(s.image, base)
  {
    var fields := [("id", s.id), ("name", s.name), ("price", s.price), ("duration", s.duration),
                   ("image", ImageSrc(s.image, base))];
    LookupAt(fields, 0); LookupAt(fields, 1); LookupAt(fields, 2); LookupAt(fields, 3); LookupAt(fields, 4);
    Obj(fields)
  }

  /** "Agregar al carrito": `cart.addItem(entry, 1)`. */
  function AddToCart(c: seq<Cart.Item>, s: Service, base: string): (r: seq<Cart.Item>)
    ensures !Truthy(s.id) ==> r == c
  {
    Cart.AddItem(c, CartEntry(s, base), 1)
  }

  /** Pressing the button adds exactly one unit: a new line for a service not
      yet in the cart, one more of it otherwise.  A service whose id is falsy
      (0 or '') is silently not added. */
  lemma AddToCartAddsOne(c: seq<Cart.Item>, s: Service, base: string)
    requires Cart.PositiveQuantities(c)
    ensures Truthy(s.id) ==> Cart.Count(AddToCart(c, s, base)) == Cart.Count(c) + 1
    ensures !Truthy(s.id) ==> Cart.Count(AddToCart(c, s, base)) == Cart.Count(c)
  {
    if Truthy(s.id) {
      Cart.AddItemCount(c, CartEntry(s, base), 1);
    }
  }

  /** A service not yet in the cart becomes a new last line with its id and
      price and a quantity of 1. */
  lemma AddToCartNewLine(c: seq<Cart.Item>, s: Service, base: string)
    requires Truthy(s.id) && Cart.FindIndex(c, s.id).None?
    ensures var r := AddToCart(c, s, base);
      && |r| == |c| + 1 && r[|c|].id == s.id && r[|c|].price == s.price
      && r[|c|].quantity == Optional.Some(1)
  {
  }
}

=== FILE: servicios.dfy ===
/** The service catalogue page (`Servicios.jsx`): it loads the services from
    the backend, falls back to a built-in example catalogue when there are
    none or the request fails, and shows each service as a card with a small
    picture carousel. */
module Servicios {
  import opened Optional
  import opened JsValue
  import JsString
  import opened Catalog

  function Example(id: int, name: string, description: string, price: int, duration: int,
                   picture: string, special: bool): Service {
    Service(Num(id), Str(name), Str(description), Num(price), Num(duration),
            Undefined, Arr([Str(picture)]), special)
  }

  /** The example catalogue shown when the backend has nothing to offer. */
  const ExampleServices: seq<Service> := [
    Example(1, "Corte y Baño Completo",
      "Servicio integral que incluye baño, secado, corte de pelo y limpieza de oídos.",
      25000, 90, "/img/CorteBanio.jpeg", false),
    Example(2, "Corte de Uñas",
      "Servicio profesional de corte de uñas para mantener la salud de las patas.",
      8000, 30, "/img/Garras.jpeg", false),
    Example(3, "Spa Relajante",
      "Tratamiento premium con masajes, aromaterapia e hidratación del pelaje.",
      45000, 120, "/img/Spa.jpeg", false),
    Example(4, "Limpieza Dental",
      "Limpieza profesional de dientes para mantener la salud bucal de tu mascota.",
      15000, 45, "/img/Limpieza dental.jpeg", false),
    Example(5, "Desenredado Especial",
      "Tratamiento especializado para perros con pelo enredado o muy largo.",
      20000, 60, "/img/Enrredado.jpeg", false),
    Example(6, "Tratamiento Antipulgas",
      "Tratamiento completo para eliminar y prevenir pulgas y otros parásitos.",
      18000, 45, "/img/Antipulgas.jpeg", false),
    Example(7, "Corte Estético",
      "Corte personalizado según la raza y preferencias del dueño.",
      30000, 75, "/img/Punk.jpeg", false),
    Example(8, "Paquete Completo",
      "Todos nuestros servicios incluidos: baño, corte, uñas, limpieza dental y más.",
      65000, 180, "/img/Perrito full.jpeg", true)
  ]

  /** The example catalogue holds eight services numbered 1 to 8, each with
      one picture, priced (in pesos) and timed (in minutes) as listed here,
      and only the last is a special offer. */
  lemma ExampleCatalogue()
    ensures |ExampleServices| == 8
    ensures forall i :: 0 <= i < 8 ==> ExampleServices[i].id == Num(i + 1)
    ensures forall i :: 0 <= i < 8 ==>
      ExampleServices[i].images.Arr? && |ExampleServices[i].images.items| == 1
    ensures forall i :: 0 <= i < 8 ==>
      ExampleServices[i].price == Num([25000, 8000, 45000, 15000, 20000, 18000, 30000, 65000][i])
    ensures forall i :: 0 <= i < 8 ==>
      ExampleServices[i].duration == Num([90, 30, 120, 45, 60, 45, 75, 180][i])
    ensures forall i :: 0 <= i < 8 ==> (ExampleServices[i].isSpecial <==> i == 7)
  {
  }

  const EmptyBackendMessage := "No hay servicios en el backend. Mostrando catálogo de ejemplo."
  const LoadFailedMessage := "No se pudieron cargar los servicios desde el servidor. Mostrando servicios de ejemplo."

  /** What the page holds once loading ends. */
  datatype Catalogue = Catalogue(services: seq<Service>, usingExample: bool, error: string)

  /** `fetchServices`.  A rejected request, or a `null` element that makes
      the normalisation throw, lands in the `catch`; an answer that is not a
      non-empty array shows the examples with the other message. */
  function LoadCatalogue(fetch: Fetch, randomId: nat -> Json): (r: Catalogue)
    ensures |r.services| > 0
    ensures r.usingExample <==> r.error != ""
    ensures r.usingExample ==> r.services == ExampleServices
    ensures fetch.Threw? ==> r == Catalogue(ExampleServices, true, LoadFailedMessage)
    ensures !r.usingExample ==>
      && fetch.Responded?
      && var data := Get(fetch.response, "data");
      && data.Arr? && |r.services| == |data.items|
      && forall i :: 0 <= i < |data.items| ==> r.services[i] == NormalizeService(data.items[i], randomId(i))
  {
    match fetch
    case Threw(_) => Catalogue(ExampleServices, true, LoadFailedMessage)
    case Responded(response) =>
      var data := Get(response, "data");
      if data.Arr? && HasNullishItem(data.items) then Catalogue(ExampleServices, true, LoadFailedMessage)
      else
        var normalized := if data.Arr? then NormalizeAll(data.items, randomId) else [];
        if |normalized| == 0 then Catalogue(ExampleServices, true, EmptyBackendMessage)
        else Catalogue(normalized, false, "")
  }

  /** The backend's own services are shown exactly when it answers with a
      non-empty array free of `null` entries. */
  lemma BackendServicesShown(fetch: Fetch, randomId: nat -> Json)
    ensures !LoadCatalogue(fetch, randomId).usingExample <==>
      fetch.Responded? && Get(fetch.response, "data").Arr?
      && |Get(fetch.response, "data").items| > 0 && !HasNullishItem(Get(fetch.response, "data").items)
  {
  }

  // ---------------------------------------------------------------------------
  // The card

  /** `JSON.parse(text)` succeeds and gives a non-empty array. */
  predicate ParsesToList(text: string, parse: string -> Option<Json>) {
    parse(text).Some? && parse(text).value.Arr? && |parse(text).value.items| > 0
  }

  /** The card's picture list.  `parse` is `JSON.parse`, `None` where it
      throws. */
  function CardImages(s: Service, parse: string -> Option<Json>): (r: seq<Json>)
    ensures |r| > 0
    ensures s.images.Arr? && |s.images.items| > 0 ==> r == s.images.items
    ensures s.images.Str? && JsString.Trim(s.images.s) != "" && ParsesToList(s.images.s, parse) ==>
      r == parse(s.images.s).value.items
    ensures s.images.Str? && JsString.Trim(s.images.s) != "" && !ParsesToList(s.images.s, parse) ==>
      r == [s.images]
    ensures !(s.images.Arr? && |s.images.items| > 0) && !(s.images.Str? && JsString.Trim(s.images.s) != "") ==>
      r == [if Truthy(s.image) then s.image else Str(Placeholder)]
  {
    if s.images.Arr? && |s.images.items| > 0 then s.images.items
    else if s.images.Str? && JsString.Trim(s.images.s) != "" then
      match parse(s.images.s)
      case Some(Arr(parsed)) => if |parsed| > 0 then parsed else [s.images]
      case _ => [s.images]
    else if Truthy(s.image) then [s.image]
    else [Str(Placeholder)]
  }

  /** A picture list stored as JSON text shows the same pictures as the
      list itself. */
  lemma CardImagesTextAsList(s: Service, parse: string -> Option<Json>)
    requires s.images.Str? && JsString.Trim(s.images.s) != "" && ParsesToList(s.images.s, parse)
    ensures CardImages(s, parse) == CardImages(s.(images := parse(s.images.s).value), parse)
  {
  }

  /** The card's list is a fixed point: storing it as the service's picture
      list shows the same pictures again. */
  lemma CardImagesStable(s: Service, parse: string -> Option<Json>)
    ensures CardImages(s.(images := Arr(CardImages(s, parse))), parse) == CardImages(s, parse)
  {
  }

  /** A service stored with a single picture, and no picture list, shows that
      picture; a normalised backend record always shows its own `image` when
      it has one. */
  lemma CardShowsBackendImage(item: Json, randomId: Json, parse: string -> Option<Json>)
    requires Truthy(Get(item, "image")) && IsNullish(Get(item, "images"))
    ensures CardImages(NormalizeService(item, randomId), parse) == [Get(item, "image")]
  {
  }

  /** `(i + 1) % images.length` */
  function Next(i: nat, n: nat): (r: nat)
    requires n > 0
    ensures r < n
    ensures i < n - 1 ==> r == i + 1
    ensures i == n - 1 ==> r == 0
  {
    (i + 1) % n
  }

  /** `(i - 1 + images.length) % images.length`; with `i` in range the
      dividend is never negative, so JavaScript's `%` and Dafny's agree. */
  function Prev(i: nat, n: nat): (r: nat)
    requires n > 0 && i < n
    ensures r < n
    ensures i > 0 ==> r == i - 1
    ensures i == 0 ==> r == n - 1
  {
    (i - 1 + n) % n
  }

  /** The two carousel buttons undo each other. */
  lemma NextPrevInverse(i: nat, n: nat)
    requires n > 0 && i < n
    ensures Prev(Next(i, n), n) == i
    ensures Next(Prev(i, n), n) == i
  {
  }

  /** Pressing "next" `n` times from the first picture visits every picture
      once and comes back to the first. */
  function Visit(k: nat, n: nat): (r: nat)
    requires n > 0
    ensures r < n
  {
    if k == 0 then 0 else Next(Visit(k - 1, n), n)
  }

  lemma {:induction false} VisitCycles(k: nat, n: nat)
    requires n > 0 && k <= n
    ensures k < n ==> Visit(k, n) == k
    ensures k == n ==> Visit(k, n) == 0
  {
    if k > 0 {
      VisitCycles(k - 1, n);
    }
  }

  /** The card's picture source: the catalogue's `buildImageSrc`. */
  function CardSrc(s: Service, idx: nat, parse: string -> Option<Json>, base: string): (r: Json)
    requires idx < |CardImages(s, parse)|
    ensures Truthy(r)
  {
    ListImageSrc(CardImages(s, parse)[idx], base)
  }

  /** The duration label `service.estimated_duration || service.duration || 60`;
      normalised records carry no `estimated_duration`, so their label is the
      normalised duration unless that is falsy. */
  function DurationLabel(s: Service): (r: Json)
    ensures Truthy(r)
    ensures Truthy(s.duration) ==> r == s.duration
  {
    Or(s.duration, Num(60))
  }

  /** A record stating a duration of 0 keeps it after normalisation (`??`),
      yet its card shows 60 minutes (`||`). */
  lemma ZeroDurationShowsSixty(item: Json, randomId: Json)
    requires Get(item, "estimated_duration") == Num(0)
    ensures NormalizeService(item, randomId).duration == Num(0)
    ensures DurationLabel(NormalizeService(item, randomId)) == Num(60)
  {
  }
}

=== FILE: session.dfy ===
/** The two admin guards the pages apply to the stored user.  The user pages
    and the service page demand a role that reads 'admin' in lower case; the
    agenda page only turns away a user whose role is set to something else,
    so a user with no role at all gets in there. */
module Session {
  import opened Optional
  import opened JsValue
  import JsString

  /** `(user.role || '').toLowerCase()`; `None` where it throws, which is
      when the role is set to something other than text (`toLowerCase` is a
      string method). */
  function RoleText(user: Json): (r: Option<string>)
    ensures !Truthy(Get(user, "role")) ==> r == Some("")
    ensures Get(user, "role").Str? ==> r == Some(JsString.Lower(Get(user, "role").s))
    ensures r.None? <==> Truthy(Get(user, "role")) && !Get(user, "role").Str?
  {
    var role := Get(user, "role");
    if !Truthy(role) then Some("")
    else if role.Str? then Some(JsString.Lower(role.s))
    else None
  }

  /** `user && (user.role || '').toLowerCase() === 'admin'`.  Where the
      comparison throws, the page fails to render and so admits no one. */
  function IsAdmin(user: Json): (b: bool)
    ensures b <==> Truthy(user) && Get(user, "role").Str? && JsString.Lower(Get(user, "role").s) == "admin"
  {
    Truthy(user) && RoleText(user) == Some("admin")
  }

  /** The agenda page's test for sending the visitor away:
      `!user || (user.role && user.role.toLowerCase() !== 'admin')`, inside
      a `try` whose `catch` also sends the visitor away. */
  function AgendaRejects(user: Json): (b: bool)
    ensures !Truthy(user) ==> b
    ensures Truthy(user) && !Truthy(Get(user, "role")) ==> !b
    ensures Truthy(user) && Get(user, "role").Str? && Truthy(Get(user, "role")) ==>
      (b <==> JsString.Lower(Get(user, "role").s) != "admin")
    ensures Truthy(Get(user, "role")) && !Get(user, "role").Str? ==> b
  {
    !Truthy(user) || (Truthy(Get(user, "role")) && RoleText(user) != Some("admin"))
  }

  /** Every admin the strict guard lets in also passes the agenda guard; the
      converse fails exactly for a logged-in user with a falsy role. */
  lemma StrictGuardImpliesAgendaGuard(user: Json)
    ensures IsAdmin(user) ==> !AgendaRejects(user)
    ensures !AgendaRejects(user) && !IsAdmin(user) <==> Truthy(user) && !Truthy(Get(user, "role"))
  {
  }

  /** The role is text compared without regard to ASCII case: a text role
      admits exactly when it lowers to "admin", as "ADMIN" and "Admin" do. */
  lemma AdminRoleCaseInsensitive(user: Json, s: string)
    requires Get(user, "role") == Str(s)
    ensures IsAdmin(user) <==> Truthy(user) && JsString.Lower(s) == "admin"
    ensures Truthy(user) && (s == "ADMIN" || s == "Admin") ==> IsAdmin(user)
  {
  }

  /** A role that is not text (a list, a number, an object) never opens an
      admin page: the strict guard throws instead of admitting, and the
      agenda guard's `catch` sends the visitor away. */
  lemma NonTextRoleNeverAdmin(user: Json)
    requires Truthy(Get(user, "role")) && !Get(user, "role").Str?
    ensures !IsAdmin(user) && AgendaRejects(user)
  {
  }
}
